=== FILE: README.md ===
# Pixel sorting, modelled in Dafny

This project models the pixel-sort engine of pixelizer and the small state machines around it. The model is functional: images are byte buffers (`Canvas.ImageData`), pixel grids are `seq<seq<Pixel>>`, cut lists are `seq<seq<int>>`, and every piece of state (caches, job slot, render queue, history) is an immutable record with pure transition functions.

The modules follow the program's files:

| module | file | what it holds |
|---|---|---|
| `Pixels` | src/definitions/types.ts | channel bytes, RGBA pixels, `Option` for `undefined` |
| `Numbers` | src/utils/string.ts, src/utils/random.ts | `Math.round`, integer printing, `toFixed(2)`, `parseFloat` |
| `Canvas` | src/utils/canvas.ts | `getIndex`, `getPixel`, `setPixel` on a row-major RGBA buffer |
| `Geometry` | src/utils/canvas.ts | the centring arithmetic of `cropCanvas` |
| `Sorting` | src/filters/sorter/sorting.ts | the five sort keys and the selector by tag |
| `Edges` | src/filters/edges.ts | the Sobel edge map, with the square root replaced by a comparison of squares |
| `Threshold` | src/filters/threshold.ts | the 1-bit mask binariser, as a loop over the byte buffer |
| `Interval` | src/filters/sorter/interval.ts | the five cut planners (`none`, `threshold`, `edges`, `random`, `waves`) |
| `Sorter` | src/filters/sorter/sorter.ts | the row sorter: spans, mask collection, sorted or kept runs |
| `FilterWorker` | src/filters/workers/filter.worker.ts | `placePixels` and the order of the worker's messages |
| `Cache` | src/filters/sorter/cache.ts | the rotation and mask memo tables |
| `PixelSorter` | src/filters/pixel-sorter.ts | the host: cache-or-compute, parameter scaling, the job slot |
| `RenderService` | src/services/render-service.ts | the single-flight render queue as an event-driven state machine |
| `History` | src/store/history.ts | the bounded undo/redo list |
| `SettingString` | src/utils/string.ts | the one-line settings codec |
| `AspectRatio` | src/utils/math.ts | `constrainAspectRatio` over the reals |
| `LegacySorting`, `LegacyInterval`, `LegacySorter`, `LegacyMain` | src/utils/sorting.ts, interval.ts, sorter.ts, main.ts | the older pipeline, related to the filters' one by agreement lemmas |

Randomness is an oracle. `draws(y)` is the finite list of `Math.random` values that row `y` of a `random` or `waves` plan consumes. `coin(y, j)` is the value drawn for span `j` of row `y` in the sorter. A walk that needs more draws than its oracle holds ends in `OutOfDraws`. That is how the model represents the source's endless loop when every step rounds to zero. Canvas drawing (rotation, cloning, blank canvases) is passed in as uninterpreted functions, and only sizes and identities are tracked for it.

## Model

| member | source | states |
|---|---|---|
| Numbers.Round | src/utils/random.ts:5-7 | `Math.round` gives the integer within half a unit of its argument, and a tie goes up |
| Numbers.IntToString | src/utils/string.ts:29 | an integer prints as a non-empty run of digits with an optional minus sign |
| Numbers.ToFixed2 | src/utils/string.ts:29 | `toFixed(2)` ends in a point and exactly two digits, is made only of digits, a sign and a point, and starts with a minus exactly for a negative number |
| Numbers.FixedValue | src/utils/string.ts:29-37 | `parseFloat(x.toFixed(2))` is the magnitude of `x` rounded to hundredths (a tie goes up) with the sign of `x` put back |
| Numbers.ParseFloat | src/utils/string.ts:36-44 | `parseFloat` of the empty string is NaN |
| Numbers.IntRoundTrip | src/utils/string.ts:29-36 | `parseFloat(String(n))` gives back every integer `n` |
| Numbers.IntToStringInjective | src/filters/sorter/cache.ts:36 | two integers with the same decimal text are equal |
| Numbers.FixedRoundTrip | src/utils/string.ts:29-37 | `parseFloat(x.toFixed(2))` gives back `x` exactly when `x` is a whole number of hundredths, negative values included |
| Pixels.Max3 | src/filters/sorter/sorting.ts:56 | `Math.max` of three channels is one of them and bounds all three from above |
| Pixels.Min3 | src/filters/sorter/sorting.ts:57 | `Math.min` of three channels is one of them and bounds all three from below |
| Canvas.GetIndex | src/utils/canvas.ts:121-123 | the offset is a multiple of four whose quarter is `y * width + x` |
| Canvas.GetPixel | src/utils/canvas.ts:125-138 | `undefined` exactly when the offset is at or past the buffer's end; otherwise the four bytes at the offset |
| Canvas.SetPixel | src/utils/canvas.ts:140-153 | returns false with the buffer untouched past the end; otherwise true, with the pixel's four bytes written and every other byte and the size unchanged |
| Canvas.GetAfterSet | src/utils/canvas.ts:140-153 | reading a pixel back after writing it inside the buffer gives the written pixel |
| Canvas.GetAfterSetElsewhere | src/utils/canvas.ts:147-150 | writing one pixel never changes what is read at any other offset |
| Canvas.IndexInjective | src/utils/canvas.ts:121-123 | within the row width, distinct coordinates have distinct offsets |
| Canvas.IndexInRange | src/utils/canvas.ts:121-130 | an in-range coordinate of a well-shaped buffer addresses a whole pixel inside it |
| Canvas.HasPixelInside | src/utils/canvas.ts:125-130 | every coordinate inside a well-shaped image has a pixel |
| Canvas.FromGridPixel | src/utils/canvas.ts:125-138 | a buffer built from a pixel grid is well-shaped, and `getPixel` reads the grid back cell by cell |
| Geometry.CropOffset | src/utils/canvas.ts:60-61 | the offset plus half the window is the source's centre, on both axes |
| Geometry.CropCanvas | src/utils/canvas.ts:53-66 | the output has exactly the requested size and is cut at the centring offset |
| Geometry.CropCentred | src/utils/canvas.ts:60-63 | the margins on opposite sides are equal, and a window no larger than the source lies inside it |
| Sorting.GetSortingFunctionByType | src/filters/sorter/sorting.ts:37-51 | each of hue, intensity, minimum and saturation is selected by its own tag and only by it; every other tag, and a missing one, selects lightness |
| Sorting.TagSelectsItsKey | src/filters/sorter/sorting.ts:29-51 | every key is reached through its enum tag |
| Sorting.Lightness | src/filters/sorter/sorting.ts:53-60 | the value lies between the smallest and largest channel, and a grey pixel's lightness is its level |
| Sorting.JsRemOne | src/filters/sorter/sorting.ts:86 | JavaScript's `% 1` leaves a value strictly between -1 and 1 unchanged |
| Sorting.HueSector | src/filters/sorter/sorting.ts:72-85 | for a coloured pixel the sector value lies in [-1, 5) |
| Sorting.Hue | src/filters/sorter/sorting.ts:62-89 | zero for a grey pixel; every hue lies in [-1/6, 5/6), because the sign-keeping `%` does not wrap negatives |
| Sorting.HueExamples | src/filters/sorter/sorting.ts:79-86 | red, green and blue sit at 0, 1/3 and 2/3; a red/green tie takes the red branch; a red with some blue is negative |
| Sorting.Saturation | src/filters/sorter/sorting.ts:91-112 | zero for a grey pixel, for black, and when max - min is 2 |
| Sorting.SaturationOnBytes | src/filters/sorter/sorting.ts:100-111 | on 0..255 channels the only values are 0, 1 and numbers in [-3, -1); a channel spread of three or more always gives a negative value |
| Sorting.Intensity | src/filters/sorter/sorting.ts:114-116 | the channel sum lies in [0, 765] |
| Sorting.Minimum | src/filters/sorter/sorting.ts:118-120 | the smallest channel lies in [0, 255] |
| Sorting.KeysOrdered | src/filters/sorter/sorting.ts:114-120 | the minimum is at most a third of the intensity and at most the lightness, and each bound is reached exactly on a grey pixel |
| Sorting.GreyPixelKeys | src/filters/sorter/sorting.ts:53-120 | a grey pixel (v, v, v) has lightness and minimum v, intensity 3v, and zero hue and saturation |
| Sorting.KeyIgnoresAlpha | src/filters/sorter/sorting.ts:53-120 | no key reads the alpha channel |
| Edges.Gray | src/filters/edges.ts:55-63 | the grey level, the mean of the three colour channels, lies in [0, 255] |
| Edges.Neighbourhood | src/filters/edges.ts:75-80 | a 3x3 window whose cell (i, j) is the grey level at (x + j - 1, y + i - 1) |
| Edges.SquaredMagnitude | src/filters/edges.ts:68-83 | the squared gradient is never negative and is zero off the interior |
| Edges.Square | src/filters/edges.ts:81 | a square is never negative |
| Edges.SquaredComparison | src/filters/edges.ts:81-90 | for a non-negative length `m`, `m > t` holds exactly when the squared test holds |
| Edges.EdgePixel | src/filters/edges.ts:88-92 | opaque grey in {0, 255}; white exactly on an edge |
| Edges.EdgeGrid | src/filters/edges.ts:86-92 | a width by height grid of the edge pixels |
| Edges.FindEdges | src/filters/edges.ts:43-45 | creating the output throws exactly for a zero side; otherwise it has the input's size and each pixel is opaque white on an edge and opaque black elsewhere, under threshold 127 when none is given |
| Edges.FlatWindowHasNoGradient | src/filters/edges.ts:27-37 | both kernels send a flat window to zero |
| Edges.UniformIsNotEdge | src/filters/edges.ts:75-90 | a pixel with a uniform neighbourhood is not an edge under a non-negative threshold |
| Edges.BorderIsNotEdge | src/filters/edges.ts:68-92 | under a non-negative threshold, border pixels, and so every pixel of an image narrower or shorter than three, are never edges |
| Edges.ThresholdMonotone | src/filters/edges.ts:90 | raising the threshold never adds an edge pixel |
| Edges.StepIsEdge | src/filters/edges.ts:27-37 | a black-to-white vertical step has gx = 1020 and gy = 0, and is an edge at the default threshold |
| Threshold.EffectiveThreshold | src/filters/threshold.ts:30-33 | 127 when none is given; the given value clamped to [0, 255] otherwise |
| Threshold.Luma | src/filters/threshold.ts:44 | the weighted luma of a byte pixel lies in [0, 255] |
| Threshold.Binarise | src/filters/threshold.ts:41-50 | a transparent pixel is untouched; alpha is always kept; any other pixel becomes grey, white exactly when its luma reaches the threshold and black exactly when it does not |
| Threshold.ApplyThreshold | src/filters/threshold.ts:30-54 | throws exactly for a canvas with no area, which copying and `getImageData` refuse; otherwise the output has the input's size and buffer length, and every pixel of it is the binarised input pixel |
| Threshold.BinariseIdempotent | src/filters/threshold.ts:40-51 | binarising twice with the same positive threshold changes nothing further |
| Threshold.ZeroThresholdWhitens | src/filters/threshold.ts:44-50 | a zero threshold turns every visible pixel white |
| Threshold.BinariseMonotone | src/filters/threshold.ts:46 | a pixel white under a higher threshold is white under a lower one |
| Interval.Walk | src/filters/sorter/interval.ts:94-100 | when the walk stops, it has used fewer positions than steps and every recorded position is at most `width` |
| Interval.WalkPositions | src/filters/sorter/interval.ts:94-100 | the recorded positions are exactly the running sums before the first sum past `width`; the walk fails to stop exactly when no running sum passes `width` |
| Interval.WalkOrdered | src/filters/sorter/interval.ts:94-100 | with non-negative steps the positions never go down; with positive steps they strictly increase |
| Interval.ZeroStepsNeverStop | src/filters/sorter/interval.ts:94-100 | all-zero steps never stop a walk that starts within `width`, however many there are |
| Interval.PositiveStepsStop | src/filters/sorter/interval.ts:94-100 | steps of at least one stop within `width - x + 1` steps |
| Interval.RandomStep | src/filters/sorter/interval.ts:95 | a step of `random` lies in [0, charLength] for a draw in [0, 1) |
| Interval.RandInt | src/utils/random.ts:1-7 | `randInt(min, max)` lies in [min, max] for a draw in [0, 1) |
| Interval.WaveStep | src/filters/sorter/interval.ts:131 | a step of `waves` lies in [charLength, charLength + 10] |
| Interval.RandomSteps | src/filters/sorter/interval.ts:95 | one `random` step per draw, in draw order |
| Interval.WaveSteps | src/filters/sorter/interval.ts:131 | one `waves` step per draw, in draw order |
| Interval.WalkRows | src/filters/sorter/interval.ts:90-101 | the plan is done exactly when every row's walk stops, and then row y is that walk's positions |
| Interval.RandomIntervals | src/filters/sorter/interval.ts:86-103 | when done, one row per image row, each the walk of that row's `random` steps from 0; it never throws |
| Interval.WavesIntervals | src/filters/sorter/interval.ts:122-139 | when done, one row per image row, each the walk of that row's `waves` steps from 0; it never throws |
| Interval.RandomCutsInRange | src/filters/sorter/interval.ts:92-100 | every `random` cut lies in [0, width], and the cuts of a row never go down |
| Interval.WavesCutsIncrease | src/filters/sorter/interval.ts:128-136 | with a positive characteristic length, the `waves` cuts strictly increase within (0, width] |
| Interval.RandomWithZeroLengthNeverEnds | src/filters/sorter/interval.ts:94-100 | a zero characteristic length on an image with a row never finishes |
| Interval.RowLevels | src/filters/sorter/interval.ts:112-113 | the lightness of each pixel of the row, left to right |
| Interval.OutsideBandFrom | src/filters/sorter/interval.ts:112-117 | strictly increasing columns, holding exactly those from x on whose level is outside [lower, upper] |
| Interval.ThresholdIntervals | src/filters/sorter/interval.ts:105-120 | one row per image row, each the out-of-band columns of that row |
| Interval.ThresholdRows | src/filters/sorter/interval.ts:110-118 | x is a cut of row y exactly when its lightness is below lower or above upper; rows strictly increase within [0, width) |
| Interval.EdgeLevel | src/filters/sorter/interval.ts:65-75 | the level read from the edge map is 255 exactly on an edge and 0 exactly off one |
| Interval.RunStarts | src/filters/sorter/interval.ts:72-80 | strictly increasing columns, holding exactly those that start a dark run under the carried flag |
| Interval.EdgesIntervals | src/filters/sorter/interval.ts:64-84 | throws exactly for an empty image; otherwise one row per image row where z is a cut exactly when its edge level is at most lower and its left neighbour's is above lower (or z is 0), built with the upper threshold as the Sobel threshold |
| Interval.NoIntervals | src/filters/sorter/interval.ts:141-143 | one empty row per image row |
| Interval.GetIntervals | src/filters/sorter/interval.ts:49-62 | every finished plan has one row per image row; unknown tags plan no cuts; `threshold` and `edges` throw exactly on a canvas with no area, where their pixel read refuses it, and otherwise `threshold` gives its planner's plan; no other tag throws; only the two walks can fail to finish; `random`, `waves` and `edges` each give exactly their own planner's plan |
| Sorter.Insert | src/filters/sorter/sorter.ts:81 | inserting into a key-sorted run keeps it sorted and adds exactly the one pixel |
| Sorter.SortInterval | src/filters/sorter/sorter.ts:77-82 | the output is sorted by the key and is a permutation of the run; an empty run gives [] and a one-pixel run is unchanged |
| Sorter.Picked | src/filters/sorter/sorter.ts:56-57 | the collected pixel is what `getPixel` reads from the image at a position the mask has |
| Sorter.SelectedColumns | src/filters/sorter/sorter.ts:55-56 | the columns of a span whose mask pixel is set: each lies in the span and is selected, they increase, and no selected column is missed |
| Sorter.Collect | src/filters/sorter/sorter.ts:54-60 | a span collects at most its width in pixels |
| Sorter.CollectSelected | src/filters/sorter/sorter.ts:54-60 | whatever the mask, a span collects exactly the image pixels at its selected columns, one each, left to right |
| Sorter.Emit | src/filters/sorter/sorter.ts:62-66 | the emitted run is a permutation of the collected one; it is the collected run when the draw is below the randomness and key-sorted otherwise |
| Sorter.EmittedRuns | src/filters/sorter/sorter.ts:51-68 | one emitted run per cut |
| Sorter.EmittedRunAt | src/filters/sorter/sorter.ts:47-67 | emitted run j is span j's (from the previous cut, or `minX` for the first, up to cut j) under the row's j-th draw |
| Sorter.SortRowIsConcat | src/filters/sorter/sorter.ts:63-65 | the row is its emitted runs joined in span order |
| Sorter.SortImage | src/filters/sorter/sorter.ts:40-72 | one row for each y in [0, height); row y is the joined runs of `intervals[y]` followed by `width`, starting at column 0 |
| Sorter.RandomnessExtremes | src/filters/sorter/sorter.ts:62 | with draws in [0, 1), randomness at most 0 sorts every run and randomness at least 1 sorts none |
| Sorter.NoMaskNoPixels | src/filters/sorter/sorter.ts:54 | without a mask nothing is collected and every row is empty |
| Sorter.ImageRow | src/filters/sorter/sorter.ts:45-57 | an image row has `width` pixels |
| Sorter.CollectCovered | src/filters/sorter/sorter.ts:54-60 | under a mask that covers the image, a span collects exactly the image pixels of that span |
| Sorter.CoveredRowPermutes | src/filters/sorter/sorter.ts:49-67 | with ordered cuts and a covering mask, the row is a rearrangement of the image row from `minX` on |
| Sorter.CoveredRowUnsorted | src/filters/sorter/sorter.ts:62-63 | when every draw of the row is below the randomness, the row is the image row itself |
| Sorter.SortImageCovered | src/filters/sorter/sorter.ts:40-72 | with non-decreasing cuts in [0, width] and a covering mask, each output row has `width` pixels holding each pixel of the image row once, and randomness of 1 or more leaves it as it was |
| FilterWorker.CountSelected | src/filters/workers/filter.worker.ts:115-120 | the per-row counter is at most the column |
| FilterWorker.ExpectedRow | src/filters/workers/filter.worker.ts:116-125 | one placed pixel per column |
| FilterWorker.ExpectedGrid | src/filters/workers/filter.worker.ts:114-126 | a width by height grid of placed pixels |
| FilterWorker.PlacePixels | src/filters/workers/filter.worker.ts:109-128 | throws for a size that is not positive or when a selected position reads a missing row; otherwise a well-shaped buffer of exactly the requested size holding the expected grid |
| FilterWorker.SelectedInOrder | src/filters/workers/filter.worker.ts:117-120 | a selected position takes an earlier index than any selected position to its right |
| FilterWorker.CountStartsEachRow | src/filters/workers/filter.worker.ts:114-121 | the counter restarts in every row and at each column equals the number of selected columns to its left, so the k-th selected column takes sorted pixel k |
| FilterWorker.UnselectedCopies | src/filters/workers/filter.worker.ts:121-124 | a position the mask does not select copies the original pixel |
| FilterWorker.NewImageData | src/filters/workers/filter.worker.ts:59-60 | a buffer is accepted exactly when its sides are positive and it holds width * height pixels |
| FilterWorker.ProgressUpTo | src/filters/workers/filter.worker.ts:64-93 | the first n milestones of 20, 50, 80, 100, in order |
| FilterWorker.Closing | src/filters/workers/filter.worker.ts:93-98 | milestones followed by at most one closing message; a result only comes fourth after all four milestones |
| FilterWorker.Pipeline | src/filters/workers/filter.worker.ts:62-95 | the replies are well formed, and are exactly: progress 20 alone when a walk does not finish; progress 20 then an error when the planner throws; progress 20, 50, 80 then an error when placement fails; all four milestones then the placed buffer of width * height * 4 bytes otherwise |
| FilterWorker.HandleMessage | src/filters/workers/filter.worker.ts:51-101 | other commands are ignored; a refused image or mask buffer posts one error and nothing else; otherwise the replies are exactly those of the pipeline for each outcome; replies are milestones in order then at most one result or error; a result follows all four milestones and has the requested size |
| FilterWorker.IntervalsInRange | src/filters/sorter/interval.ts:49-62 | every finished plan has a row for each image row, and every planned cut is a column in [0, width], so the sorter can take it with any mask |
| FilterWorker.ErrorEndsTheRun | src/filters/workers/filter.worker.ts:96-98 | an error is the last message and no result comes with it |
| Cache.Empty | src/filters/sorter/cache.ts:30-33 | both tables start empty |
| Cache.GetCachedRotation | src/filters/sorter/cache.ts:35-38 | found exactly when `id_angle` is a key, and then the stored canvas |
| Cache.SetCachedRotation | src/filters/sorter/cache.ts:40-43 | adds exactly the key `id_angle`, keeps every other rotation entry and the whole mask table |
| Cache.GetCachedMask | src/filters/sorter/cache.ts:45-47 | found exactly when the id is a key, and then the stored canvas |
| Cache.SetCachedMask | src/filters/sorter/cache.ts:49-51 | adds exactly the id, keeps every other mask entry and the whole rotation table |
| Cache.FlushCaches | src/filters/sorter/cache.ts:53-56 | after flushing, no lookup finds anything |
| Cache.RotationGetAfterSet | src/filters/sorter/cache.ts:35-43 | a rotation stored under (id, angle) is found there; every other (id, angle) is unaffected |
| Cache.MaskGetAfterSet | src/filters/sorter/cache.ts:45-51 | a mask stored under an id is found there; other ids are unaffected |
| Cache.TablesIndependent | src/filters/sorter/cache.ts:25-51 | storing in one table never changes a lookup in the other |
| Cache.RotationKeyInjective | src/filters/sorter/cache.ts:36-41 | `id_angle` tells every (id, angle) pair apart, even ids holding underscores |
| PixelSorter.Or | src/filters/pixel-sorter.ts:69-71 | a given parameter is used as is and a missing one takes its default |
| PixelSorter.RotatedSource | src/filters/pixel-sorter.ts:80-97 | without a rotation the source is used and the caches are unchanged; a cache hit is reused; a miss rotates once and stores under (id, angle); afterwards the rotation is cached and the mask table is untouched |
| PixelSorter.MaskFor | src/filters/pixel-sorter.ts:101-110 | the key is the given mask's id or else the sorted image's; a hit is reused; a miss binarises the given mask or a blank canvas and stores it; afterwards the mask is cached and the rotation table is untouched |
| PixelSorter.PixelSort | src/filters/pixel-sorter.ts:69-151 | the request carries the rotated image, its size and the mask; charLength becomes round(charLength * 400), thresholds are multiplied by 255, defaults fill missing parameters, and the job slot holds the new job |
| PixelSorter.RepeatHitsCaches | src/filters/pixel-sorter.ts:87-110 | a repeated call sends the same image and mask and adds nothing to the caches |
| PixelSorter.CallReplacesJob | src/filters/pixel-sorter.ts:120-126 | the result of a call does not depend on the job that was pending |
| PixelSorter.HandleWorkerMessage | src/filters/pixel-sorter.ts:155-178 | ignored without a job; progress changes nothing; an error rejects and clears the job; a result resolves and clears the job exactly when its bytes make an image of the job's size (positive sides, four bytes per pixel), and otherwise the `ImageData` constructor throws and the job stays pending; the output has the job's size, or with a rotation the original size |
| PixelSorter.RoundTripSize | src/filters/pixel-sorter.ts:155-178 | without rotation, progress does not settle, a result of the image's size resolves at that size, and a later message is ignored |
| PixelSorter.StaleResultKeepsJob | src/filters/pixel-sorter.ts:160-172 | a result whose bytes do not fit the pending job's size, such as an overwritten job's answer, leaves that job pending, and its own result then resolves it |
| PixelSorter.RotatedOutputHasOriginalSize | src/filters/pixel-sorter.ts:166-170 | with a rotation, a result of the rotated size is cropped back to the size of the image that was passed in |
| RenderService.Step | src/services/render-service.ts:42-97 | idle: a request starts; pending: it takes the slot and evicts (rejects) the waiting one; completion resolves the running render, even after a failed sort; the frame clears the flag and starts the waiting request after emptying the slot; the invariant is kept |
| RenderService.Run | src/services/render-service.ts:42-97 | any sequence of events keeps the invariant |
| RenderService.Accounting | src/services/render-service.ts:45-95 | every request is started, rejected or still waiting, and every started render is resolved or still in flight |
| RenderService.RapidRequests | src/services/render-service.ts:45-95 | of three quick requests the first starts, the third evicts the second and starts once the first render and its frame are done |
| RenderService.OnlyTheFrameStarts | src/services/render-service.ts:45-47 | while pending, nothing starts except at the frame |
| RenderService.LatestWaits | src/services/render-service.ts:73-95 | under a run of requests, the latest one waits and the running render is unchanged |
| History.InitialState | src/store/history.ts:34-40 | the store starts with nothing stored and can neither undo nor redo |
| History.Splice | src/store/history.ts:44 | `splice(start)` keeps a prefix: the first `start` elements, or all of them |
| History.StoreHistoryState | src/store/history.ts:43-51 | keeps the invariant; the states after the current one are dropped and the settings appended, the oldest dropped when over 99; the new state is current and last |
| History.Undo | src/store/history.ts:52-58 | a no-op returning nothing unless there is an earlier state; otherwise steps back and returns that state; the list is unchanged |
| History.Redo | src/store/history.ts:59-65 | a no-op returning nothing unless there is a later state; otherwise steps forward and returns that state; the list is unchanged |
| History.ClearHistory | src/store/history.ts:66-69 | nothing stored, position -1 |
| History.UndoThenRedo | src/store/history.ts:52-65 | undo followed by redo returns to the same position and state |
| History.StoreThenUndo | src/store/history.ts:43-58 | after storing, undo returns the state that was current before |
| History.StoreInTheMiddle | src/store/history.ts:44-45 | storing at a middle position drops the later states |
| History.StoreWhenFull | src/store/history.ts:47-50 | storing into a full history drops the oldest and stays at 99 states |
| History.Apply | src/store/history.ts:43-69 | every action keeps the invariant |
| History.Run | src/store/history.ts:43-69 | every sequence of actions keeps the invariant |
| SettingString.Split | src/utils/string.ts:33 | `split` always yields at least one piece |
| SettingString.Fields | src/utils/string.ts:29 | the encoding has nine fields |
| SettingString.StringToSetting | src/utils/string.ts:32-46 | throws exactly when there are fewer than nine fields; the tags are fields 5 and 6 with the first character dropped |
| SettingString.SplitJoin | src/utils/string.ts:29-33 | splitting undoes joining when no piece holds `_` |
| SettingString.FieldsHaveNoSeparator | src/utils/string.ts:29 | the fields hold no `_` when the tags hold none |
| SettingString.EncodingLayout | src/utils/string.ts:29 | the encoding splits into its nine fields, prefixed a, l, u, r, s, i, c, w, h in order |
| SettingString.RoundTrip | src/utils/string.ts:27-46 | decoding an encoding gives the setting back when the four two-decimal values are whole hundredths and the tags hold no `_` |
| SettingString.DefaultSettingRoundTrip | src/utils/string.ts:27-46 | the settings of the round-trip test come back unchanged |
| SettingString.LossyThirdDecimal | src/utils/string.ts:29 | a third decimal is lost: 0.125 comes back as 0.13 |
| SettingString.ExtraFieldsIgnored | src/utils/string.ts:33-45 | fields after the ninth are never read |
| SettingString.PrefixesNotChecked | src/utils/string.ts:36-44 | the prefix letters are not checked |
| SettingString.NonNumericIsNaN | src/utils/string.ts:43 | a non-numeric width decodes to NaN instead of failing |
| AspectRatio.ConstrainAspectRatio | src/utils/math.ts:29-49 | the result keeps the image's aspect ratio; a relatively wider image takes the container's width, any other its height |
| AspectRatio.FitsInside | src/utils/math.ts:29-49 | for positive sizes the result is positive, fits inside the container and touches it on one side |
| LegacySorting.GetSortingFunction | src/utils/sorting.ts:13-27 | each of the four named keys is selected exactly by its tag; the selection agrees with the filters' selector |
| LegacySorting.UnknownTagIsLightness | src/utils/sorting.ts:13-36 | any other tag sorts by lightness |
| LegacyInterval.ThresholdIntervals | src/utils/interval.ts:79-94 | x is a cut exactly when its lightness is below lower * 255 or above upper * 255; rows strictly increase within [0, width) |
| LegacyInterval.ThresholdScales | src/utils/interval.ts:86-90 | the older `threshold` equals the filters' one with thresholds scaled by 255 |
| LegacyInterval.GetIntervals | src/utils/interval.ts:22-35 | throws exactly for `threshold` on a canvas with no area, where `getImageData` refuses it; one row per image row; tags other than random, threshold and waves, `edges` included, plan no cuts |
| LegacyInterval.AgreesWithFilters | src/utils/interval.ts:22-117 | the two planners agree on every tag except `threshold` (equal after scaling) and `edges` (no cuts here) |
| LegacySorter.Emit | src/utils/sorter.ts:34-38 | a permutation of the run, kept when draw * 100 is below the randomness and sorted otherwise; the filters' step at a hundredth of the randomness |
| LegacySorter.EmittedRuns | src/utils/sorter.ts:19-42 | the filters' emitted runs at a hundredth of the randomness |
| LegacySorter.SortImage | src/utils/sorter.ts:14-44 | one row per y; row y is the legacy runs of `intervals[y]` followed by `width`, joined in order |
| LegacySorter.RandomnessExtremes | src/utils/sorter.ts:34 | randomness at most 0 sorts every run and 100 or more sorts none |
| LegacySorter.ScaleMismatch | src/utils/sorter.ts:34 | a 0..1 randomness leaves almost every run sorted here |
| LegacyMain.Grid | src/utils/main.ts:99-109 | a width by height grid |
| LegacyMain.PlacePixels | src/utils/main.ts:93-113 | throws exactly for a zero side or when some position reads a missing pixel; otherwise a buffer of exactly the requested size |
| LegacyMain.PlacedPixel | src/utils/main.ts:99-107 | each position holds the next sorted pixel of its row when selected and the original pixel otherwise |
| LegacyMain.NoMaskCopiesOriginal | src/utils/main.ts:102-106 | without a mask every output pixel copies the original |
| LegacyMain.SelectedTakeRowInOrder | src/utils/main.ts:99-104 | selected positions take the row's sorted pixels in left-to-right order, from index 0 |
| LegacyMain.AgreesWithWorker | src/utils/main.ts:93-113 | when the older placement succeeds it equals the worker's |
| LegacyMain.OutputFrame | src/utils/main.ts:84-86 | without a rotation the output keeps the placed size |
| LegacyMain.QuarterTurnKeepsSwappedSides | src/utils/main.ts:84-90 | a quarter turn hands back swapped sides, while the filters' host crops back to the size it was given |

## Left out

- Canvas and DOM drawing are not modelled: `createCanvas`, `cloneCanvas`, the pixels drawn by `rotateCanvas` and `cropCanvas`, and the anti-alias switch. Rotation, binarisation and blank canvases are uninterpreted parameters of the host model, and only canvas sizes and ids are kept.
- The worker transport (`postMessage`, buffer transfer, lazy worker creation) is I/O. Only the order and content of the replies are modelled.
- `Math.random` is an oracle (`draws`, `coin`). `OutOfDraws` stands for a walk that does not finish within the draws given; an all-zero walk never finishes.
- IEEE-754 rounding is not modelled. Keys, luma, hue, saturation and aspect ratios are computed over the reals, and `Math.sqrt` is replaced by the equivalent comparison of squares.
- `hasPixel`, which the worker's placement calls, is not part of this model; it is a selection parameter.
- The worker hands an `ImageData` to planners that expect a canvas (`image.context` in `threshold`, `image.data` in `edges`). That crash is not reproduced: the planners are modelled over the buffer they evidently mean to read, including the refusal of a read with no area.
- The spinner, the time budget (`prepare`, `waitWhenBusy`) and `console` logging are left out.
- Numbers.ParseFloat: covers an optional sign, integer digits and an optional fraction; leading whitespace, exponents and `Infinity` are not parsed.
- Canvas.GetPixel: requires a non-negative offset, because the source reads `undefined` channels at a negative index, which no caller reaches.
- Canvas.SetPixel: requires a non-negative offset, for the same reason.
- Threshold.ApplyThreshold: requires a buffer of whole pixels, which every `ImageData` is.
- Sorter.SortImage: requires a cut row for every y below height, each cut non-negative, because a missing row makes `[...intervals[y], width]` throw and, with a mask, a negative start would read before the row. Without a mask sorter.ts:54 reads nothing, so a negative cut would be harmless there; it is excluded for simplicity. With a mask it also requires a well-formed image at least width by height and no cut past width; the mask's own size is free. The host sends the image's own size, and `FilterWorker.IntervalsInRange` proves the filters' planners stay within it.
- Sorter.SortInterval: the result is sorted and a permutation, but stability (equal keys keep their order) is not stated.
- FilterWorker.HandleMessage: requires the host's request to be admissible: a non-negative characteristic length, draws in [0, 1), and the size the host takes from the image itself (src/filters/pixel-sorter.ts:98-99). The mask may have any size.
- FilterWorker.Pipeline: requires the same admissible request.
- History.Undo: requires the store invariant. Out-of-range reads, which only direct writes to the store can cause, are not modelled.
- History.Redo: requires the store invariant for the same reason.
- AspectRatio.ConstrainAspectRatio: requires non-zero container height and image sides; the source's `Infinity` and `NaN` results are not modelled.
- RenderService.Step: requests are identified by numbers; the settings and images they carry are not modelled.
- LegacyMain.PlacePixels: takes natural sizes; the older pipeline is only called with canvas sizes.
- LegacyMain.OutputFrame: models only the final rotate-back of the older `pixelsort`. Its other steps compose the legacy planner, sorter and placement, and their `convertTo1Bit` and `CoordinateList` are not part of this model.
- The charLength handed to the filters' planners is an integer: their host rounds it before the worker call (src/filters/pixel-sorter.ts:115).
- LegacyInterval.GetIntervals: cuts are integers. The older `pixelsort` passes charLength unrounded (50 by default), so its `waves` can plan fractional cuts; this model narrows them to whole columns.
- LegacyInterval.GetIntervals: the throw of `threshold` on a canvas with no area is modelled, but the older `pixelsort` never reaches it, because its own `getImageData` (src/utils/main.ts:49) throws first.
- PixelSorter.PixelSort: the angle is an integer, where the source types it as `number`; fractional angles are not modelled.
- SettingString.RoundTrip: width, height and angle are integers, where the settings type declares them as `number` (src/definitions/types.ts:28-30). The round trip is stated only for whole values, because `String` of a fraction is not modelled.
- Hue and saturation follow the code where the HSV/HLS formulas they imitate differ: the sign-keeping `%` gives negative hues, and the 0..1 saturation formula is applied to 0..255 channels.

=== FILE: aspect_ratio.dfy ===
/** Fitting an image into a container while keeping its aspect ratio, over the reals. */
module AspectRatio {

  datatype Size = Size(width: real, height: real)

  /** `constrainAspectRatio`: an image relatively wider than the container takes the
      container's width, any other image takes its height; the other side follows the
      image's aspect ratio. */
  function ConstrainAspectRatio(containerWidth: real, containerHeight: real,
                                imageWidth: real, imageHeight: real): (r: Size)
    requires containerHeight != 0.0 && imageWidth != 0.0 && imageHeight != 0.0
    ensures r.width == (imageWidth / imageHeight) * r.height
    ensures imageWidth / imageHeight > containerWidth / containerHeight ==> r.width == containerWidth
    ensures imageWidth / imageHeight <= containerWidth / containerHeight ==> r.height == containerHeight
  {
    var imageAspectRatio := imageWidth / imageHeight;
    var containerAspectRatio := containerWidth / containerHeight;
    if imageAspectRatio > containerAspectRatio then
      Size(containerWidth, containerWidth / imageAspectRatio)
    else
      Size(containerHeight * imageAspectRatio, containerHeight)
  }

  /** For positive sizes the result keeps the image's proportions and fits inside the
      container, touching it on one side. */
  lemma {:induction false} FitsInside(cw: real, ch: real, iw: real, ih: real)
    requires cw > 0.0 && ch > 0.0 && iw > 0.0 && ih > 0.0
    ensures var r := ConstrainAspectRatio(cw, ch, iw, ih);
      && 0.0 < r.width <= cw && 0.0 < r.height <= ch
      && r.width / r.height == iw / ih
      && (r.width == cw || r.height == ch)
  {
    var r := ConstrainAspectRatio(cw, ch, iw, ih);
    var a := iw / ih;
    var c := cw / ch;
    assert a > 0.0 && c > 0.0;
    if a > c {
      assert r.height == cw / a;
      assert r.height * a == cw;
      assert r.height * a > r.height * c;
      assert cw == c * ch;
      assert r.height * c < c * ch;
      assert r.height < ch;
    } else {
      assert r.width == ch * a;
      assert ch * a <= ch * c;
      assert ch * c == cw;
    }
    assert r.height > 0.0;
    assert r.width == a * r.height;
  }
}

=== FILE: cache.dfy ===
/** The rotation and mask memo: two string-keyed tables that are only ever added to or
    flushed whole. */
module Cache {
  import opened Pixels
  import Numbers

  datatype Caches<C> = Caches(rotation: map<string, C>, mask: map<string, C>)

  /** Both tables as the program starts. */
  function Empty<C>(): (c: Caches<C>)
    ensures c.rotation == map[] && c.mask == map[]
  {
    Caches(map[], map[])
  }

  /** The rotation table's key, the text `${id}_${angle}`. */
  function RotationKey(id: string, angle: int): string {
    id + "_" + Numbers.IntToString(angle)
  }

  function GetCachedRotation<C>(c: Caches<C>, id: string, angle: int): (r: Option<C>)
    ensures r.Some? <==> RotationKey(id, angle) in c.rotation
    ensures r.Some? ==> r.value == c.rotation[RotationKey(id, angle)]
  {
    var key := RotationKey(id, angle);
    if key in c.rotation then Some(c.rotation[key]) else None
  }

  function SetCachedRotation<C>(c: Caches<C>, id: string, angle: int, canvas: C): (r: Caches<C>)
    ensures r.mask == c.mask
    ensures r.rotation.Keys == c.rotation.Keys + {RotationKey(id, angle)}
    ensures forall k :: k in c.rotation && k != RotationKey(id, angle) ==> r.rotation[k] == c.rotation[k]
  {
    c.(rotation := c.rotation[RotationKey(id, angle) := canvas])
  }

  function GetCachedMask<C>(c: Caches<C>, id: string): (r: Option<C>)
    ensures r.Some? <==> id in c.mask
    ensures r.Some? ==> r.value == c.mask[id]
  {
    if id in c.mask then Some(c.mask[id]) else None
  }

  function SetCachedMask<C>(c: Caches<C>, id: string, canvas: C): (r: Caches<C>)
    ensures r.rotation == c.rotation
    ensures r.mask.Keys == c.mask.Keys + {id}
    ensures forall k :: k in c.mask && k != id ==> r.mask[k] == c.mask[k]
  {
    c.(mask := c.mask[id := canvas])
  }

  /** `flushCaches`: both tables empty again. */
  function FlushCaches<C>(c: Caches<C>): (r: Caches<C>)
    ensures forall id, angle :: GetCachedRotation(r, id, angle).None?
    ensures forall id :: GetCachedMask(r, id).None?
  {
    Empty()
  }

  /** A rotation lookup after storing under the same id and angle gives the stored canvas;
      under any other id or angle it gives what it gave before. */
  lemma RotationGetAfterSet<C>(c: Caches<C>, id: string, angle: int, canvas: C, id': string, angle': int)
    ensures GetCachedRotation(SetCachedRotation(c, id, angle, canvas), id, angle) == Some(canvas)
    ensures (id', angle') != (id, angle) ==>
      GetCachedRotation(SetCachedRotation(c, id, angle, canvas), id', angle') == GetCachedRotation(c, id', angle')
  {
    if (id', angle') != (id, angle) {
      if RotationKey(id', angle') == RotationKey(id, angle) {
        RotationKeyInjective(id, angle, id', angle');
      }
    }
  }

  /** A mask lookup after storing under the same id gives the stored canvas; other ids
      are unaffected. */
  lemma MaskGetAfterSet<C>(c: Caches<C>, id: string, canvas: C, id': string)
    ensures GetCachedMask(SetCachedMask(c, id, canvas), id) == Some(canvas)
    ensures id' != id ==> GetCachedMask(SetCachedMask(c, id, canvas), id') == GetCachedMask(c, id')
  {
  }

  /** The two tables are independent: storing a rotation never changes a mask lookup and
      storing a mask never changes a rotation lookup. */
  lemma TablesIndependent<C>(c: Caches<C>, id: string, angle: int, canvas: C, id': string, angle': int)
    ensures GetCachedMask(SetCachedRotation(c, id, angle, canvas), id') == GetCachedMask(c, id')
    ensures GetCachedRotation(SetCachedMask(c, id, canvas), id', angle') == GetCachedRotation(c, id', angle')
  {
  }

  predicate NoUnderscore(s: string) {
    forall i :: 0 <= i < |s| ==> s[i] != '_'
  }

  /** In `s_t` with no underscore in `t`, the last underscore sits just before `t`. */
  lemma LastUnderscore(s: string, t: string)
    requires NoUnderscore(t)
    ensures var key := s + "_" + t;
      && key[|key| - |t| - 1] == '_'
      && forall j :: |key| - |t| - 1 < j < |key| ==> key[j] != '_'
  {
    var key := s + "_" + t;
    assert forall j :: |key| - |t| - 1 < j < |key| ==> key[j] == t[j - (|key| - |t|)];
  }

  /** A string ending in `_t`, where `t` has no underscore, determines both the part before
      the last underscore and `t`. */
  lemma {:induction false} LastUnderscoreSplits(s: string, t: string, s': string, t': string)
    requires NoUnderscore(t) && NoUnderscore(t')
    requires s + "_" + t == s' + "_" + t'
    ensures s == s' && t == t'
  {
    var key := s + "_" + t;
    LastUnderscore(s, t);
    LastUnderscore(s', t');
    assert |t| == |t'|;
    assert t == key[|key| - |t|..] == t';
    assert s == key[..|s|] == s';
  }

  /** Since a number's text never holds an underscore, the rotation key tells apart every
      pair of id and angle, even ids that themselves contain underscores. */
  lemma RotationKeyInjective(id: string, angle: int, id': string, angle': int)
    requires RotationKey(id, angle) == RotationKey(id', angle')
    ensures id == id' && angle == angle'
  {
    LastUnderscoreSplits(id, Numbers.IntToString(angle), id', Numbers.IntToString(angle'));
    Numbers.IntToStringInjective(angle, angle');
  }
}

=== FILE: canvas.dfy ===
/** The byte-buffer pixel accessors of the canvas utilities: an `ImageData` is a width, a
    height and a row-major RGBA byte buffer, and a pixel (x, y) lives at the four bytes that
    start at `(y * width + x) * 4`. */
module Canvas {
  import opened Pixels

  datatype ImageData = ImageData(width: int, height: int, data: seq<Byte>)

  /** The buffer shape the browser's `ImageData` constructor insists on. */
  predicate Valid(img: ImageData) {
    img.width >= 0 && img.height >= 0 && |img.data| == img.width * img.height * 4
  }

  /** Byte offset of pixel (x, y). Nothing is bounds-checked: a negative coordinate or an
      x beyond the row simply lands somewhere else in the buffer. */
  function GetIndex(img: ImageData, x: int, y: int): (i: int)
    ensures i % 4 == 0
    ensures i / 4 == y * img.width + x
  {
    (y * img.width + x) * 4
  }

  /** The four bytes starting at byte offset `i`, read as one pixel. */
  function Quad(data: seq<Byte>, i: int): Pixel
    requires 0 <= i && i + 4 <= |data|
  {
    Pixel(data[i], data[i + 1], data[i + 2], data[i + 3])
  }

  lemma QuadFits(data: seq<Byte>, i: int)
    requires |data| % 4 == 0 && i % 4 == 0 && 0 <= i < |data|
    ensures i + 4 <= |data|
  {
  }

  /** `getPixel`: `undefined` exactly when the offset is at or past the end of the buffer,
      otherwise the four bytes found there. */
  function GetPixel(img: ImageData, x: int, y: int): (r: Option<Pixel>)
    requires GetIndex(img, x, y) >= 0
    requires |img.data| % 4 == 0
    ensures r.None? <==> GetIndex(img, x, y) >= |img.data|
    ensures r.Some? ==> GetIndex(img, x, y) + 4 <= |img.data|
    ensures r.Some? ==> r.value == Quad(img.data, GetIndex(img, x, y))
  {
    var i := GetIndex(img, x, y);
    if i >= |img.data| then None
    else
      QuadFits(img.data, i);
      Some(Quad(img.data, i))
  }

  /** `setPixel`: refuses (returns false, buffer untouched) when the offset is past the end,
      otherwise overwrites exactly the four bytes of that pixel. */
  function SetPixel(img: ImageData, x: int, y: int, p: Pixel): (res: (ImageData, bool))
    requires GetIndex(img, x, y) >= 0
    requires |img.data| % 4 == 0
    ensures var (out, ok) := res;
      && out.width == img.width && out.height == img.height
      && |out.data| == |img.data|
      && (ok <==> GetIndex(img, x, y) < |img.data|)
      && (!ok ==> out == img)
      && (ok ==> Quad(out.data, GetIndex(img, x, y)) == p)
      && (forall j :: 0 <= j < |img.data| && !(GetIndex(img, x, y) <= j < GetIndex(img, x, y) + 4)
            ==> out.data[j] == img.data[j])
  {
    var i := GetIndex(img, x, y);
    if i >= |img.data| then (img, false)
    else
      QuadFits(img.data, i);
      (img.(data := img.data[i := p.r][i + 1 := p.g][i + 2 := p.b][i + 3 := p.a]), true)
  }

  /** Reading back a pixel that was just written gives the written pixel. */
  lemma GetAfterSet(img: ImageData, x: int, y: int, p: Pixel)
    requires GetIndex(img, x, y) >= 0 && |img.data| % 4 == 0
    requires GetIndex(img, x, y) < |img.data|
    ensures var out := SetPixel(img, x, y, p).0;
      |out.data| % 4 == 0 && GetPixel(out, x, y) == Some(p)
  {
  }

  /** Writing one pixel leaves every pixel at a different offset as it was. */
  lemma GetAfterSetElsewhere(img: ImageData, x: int, y: int, p: Pixel, x': int, y': int)
    requires GetIndex(img, x, y) >= 0 && GetIndex(img, x', y') >= 0 && |img.data| % 4 == 0
    requires GetIndex(img, x, y) != GetIndex(img, x', y')
    ensures var out := SetPixel(img, x, y, p).0;
      |out.data| % 4 == 0 && GetPixel(out, x', y') == GetPixel(img, x', y')
  {
    var i, i' := GetIndex(img, x, y), GetIndex(img, x', y');
    var out := SetPixel(img, x, y, p).0;
    if i' < |img.data| {
      assert i' + 4 <= i || i + 4 <= i';
      assert out.data[i'] == img.data[i'] && out.data[i' + 1] == img.data[i' + 1];
      assert out.data[i' + 2] == img.data[i' + 2] && out.data[i' + 3] == img.data[i' + 3];
    }
  }

  /** Within the declared columns, distinct coordinates have distinct offsets. */
  lemma {:induction false} IndexInjective(img: ImageData, x: int, y: int, x': int, y': int)
    requires 0 <= x < img.width && 0 <= x' < img.width
    requires GetIndex(img, x, y) == GetIndex(img, x', y')
    ensures x == x' && y == y'
  {
    var w := img.width;
    assert y * w + x == y' * w + x';
    if y < y' {
      assert y' * w >= (y + 1) * w by { ProductMonotone(y + 1, y', w); }
      assert false;
    } else if y' < y {
      assert y * w >= (y' + 1) * w by { ProductMonotone(y' + 1, y, w); }
      assert false;
    }
  }

  /** An in-range coordinate of a valid image addresses a whole pixel inside the buffer. */
  lemma {:induction false} IndexInRange(img: ImageData, x: int, y: int)
    requires Valid(img) && 0 <= x < img.width && 0 <= y < img.height
    ensures 0 <= GetIndex(img, x, y) && GetIndex(img, x, y) + 4 <= |img.data|
  {
    var w, h := img.width, img.height;
    assert y * w >= 0 by { ProductMonotone(0, y, w); }
    assert y * w <= (h - 1) * w by { ProductMonotone(y, h - 1, w); }
    assert (h - 1) * w + w == w * h;
  }

  lemma ProductMonotone(a: int, b: int, w: int)
    requires a <= b && w >= 0
    ensures a * w <= b * w
  {
  }

  /** In a valid image every coordinate inside the rectangle has a pixel. */
  lemma HasPixelInside(img: ImageData, x: int, y: int)
    requires Valid(img) && 0 <= x < img.width && 0 <= y < img.height
    ensures GetIndex(img, x, y) >= 0 && |img.data| % 4 == 0
    ensures GetPixel(img, x, y).Some?
  {
    IndexInRange(img, x, y);
  }

  /** The pixel at an in-range coordinate of a valid image. */
  function At(img: ImageData, x: int, y: int): Pixel
    requires Valid(img) && 0 <= x < img.width && 0 <= y < img.height
  {
    HasPixelInside(img, x, y);
    GetPixel(img, x, y).value
  }

  // Building a buffer from a grid of pixels, as the placement loop and the edge map do.

  function Channels(p: Pixel): seq<Byte> {
    [p.r, p.g, p.b, p.a]
  }

  /** The bytes of a pixel list, four per pixel. */
  function Bytes(ps: seq<Pixel>): (bs: seq<Byte>)
    ensures |bs| == 4 * |ps|
  {
    if |ps| == 0 then [] else Channels(ps[0]) + Bytes(ps[1..])
  }

  function Flatten(rows: seq<seq<Pixel>>): seq<Pixel> {
    if |rows| == 0 then [] else rows[0] + Flatten(rows[1..])
  }

  predicate IsGrid(rows: seq<seq<Pixel>>, width: int, height: int) {
    |rows| == height && forall y :: 0 <= y < |rows| ==> |rows[y]| == width
  }

  /** The `ImageData` whose pixels are the given grid. */
  function FromGrid(width: nat, height: nat, rows: seq<seq<Pixel>>): ImageData
    requires IsGrid(rows, width, height)
  {
    ImageData(width, height, Bytes(Flatten(rows)))
  }

  lemma {:induction false} BytesQuad(ps: seq<Pixel>, k: int)
    requires 0 <= k < |ps|
    ensures 4 * k + 4 <= |Bytes(ps)| && Quad(Bytes(ps), 4 * k) == ps[k]
  {
    if k > 0 {
      BytesQuad(ps[1..], k - 1);
      assert Bytes(ps) == Channels(ps[0]) + Bytes(ps[1..]);
    }
  }

  lemma {:induction false} FlattenAt(rows: seq<seq<Pixel>>, width: int, x: int, y: int)
    requires width >= 0 && IsGrid(rows, width, |rows|)
    requires 0 <= x < width && 0 <= y < |rows|
    ensures |Flatten(rows)| == |rows| * width
    ensures y * width + x < |Flatten(rows)| && Flatten(rows)[y * width + x] == rows[y][x]
  {
    FlattenLength(rows, width);
    if y > 0 {
      FlattenAt(rows[1..], width, x, y - 1);
      assert y * width == width + (y - 1) * width;
    }
  }

  lemma {:induction false} FlattenLength(rows: seq<seq<Pixel>>, width: int)
    requires width >= 0 && IsGrid(rows, width, |rows|)
    ensures |Flatten(rows)| == |rows| * width
  {
    if |rows| > 0 {
      FlattenLength(rows[1..], width);
      assert |rows| * width == width + (|rows| - 1) * width;
    }
  }

  /** A width by height grid turned into a buffer holds exactly width * height pixels. */
  lemma FromGridValid(width: nat, height: nat, rows: seq<seq<Pixel>>)
    requires IsGrid(rows, width, height)
    ensures Valid(FromGrid(width, height, rows))
  {
    FlattenLength(rows, width);
  }

  /** A grid turned into a buffer is a valid image whose `getPixel` gives back the grid. */
  lemma FromGridPixel(width: nat, height: nat, rows: seq<seq<Pixel>>, x: int, y: int)
    requires IsGrid(rows, width, height)
    requires 0 <= x < width && 0 <= y < height
    ensures Valid(FromGrid(width, height, rows))
    ensures GetPixel(FromGrid(width, height, rows), x, y) == Some(rows[y][x])
  {
    var img := FromGrid(width, height, rows);
    FlattenAt(rows, width, x, y);
    assert |rows| * width == width * height;
    BytesQuad(Flatten(rows), y * width + x);
    IndexInRange(img, x, y);
  }
}

=== FILE: edges.dfy ===
/** The Sobel edge map: grey levels, the two 3x3 gradients at every interior pixel, and a
    black-and-white image marking where the gradient's length exceeds a threshold. The
    square root is replaced by the equivalent comparison of squares. */
module Edges {
  import opened Pixels
  import opened Canvas

  type Window = seq<seq<real>>

  predicate IsWindow(w: Window) {
    |w| == 3 && forall i :: 0 <= i < 3 ==> |w[i]| == 3
  }

  const SobelX: Window := [[-1.0, 0.0, 1.0], [-2.0, 0.0, 2.0], [-1.0, 0.0, 1.0]]
  const SobelY: Window := [[-1.0, -2.0, -1.0], [0.0, 0.0, 0.0], [1.0, 2.0, 1.0]]

  const DefaultThreshold: real := 127.0

  /** The grey level of pixel (x, y): the mean of its colour channels. */
  function Gray(img: ImageData, x: int, y: int): (g: real)
    requires Valid(img) && 0 <= x < img.width && 0 <= y < img.height
    ensures 0.0 <= g <= 255.0
  {
    var p := At(img, x, y);
    (p.r + p.g + p.b) as real / 3.0
  }

  /** The grey levels of the 3x3 neighbourhood around (x, y), row by row. */
  function Neighbourhood(img: ImageData, x: int, y: int): (w: Window)
    requires Valid(img) && 1 <= x < img.width - 1 && 1 <= y < img.height - 1
    ensures IsWindow(w)
    ensures forall i, j :: 0 <= i < 3 && 0 <= j < 3 ==> w[i][j] == Gray(img, x + j - 1, y + i - 1)
  {
    seq(3, i requires 0 <= i < 3 => seq(3, j requires 0 <= j < 3 => Gray(img, x + j - 1, y + i - 1)))
  }

  function Dot3(a: seq<real>, b: seq<real>): real
    requires |a| == 3 && |b| == 3
  {
    a[0] * b[0] + a[1] * b[1] + a[2] * b[2]
  }

  /** The kernel applied to a neighbourhood: the sum of the nine products. */
  function Convolve(w: Window, kernel: Window): real
    requires IsWindow(w) && IsWindow(kernel)
  {
    Dot3(w[0], kernel[0]) + Dot3(w[1], kernel[1]) + Dot3(w[2], kernel[2])
  }

  predicate Interior(img: ImageData, x: int, y: int) {
    1 <= x < img.width - 1 && 1 <= y < img.height - 1
  }

  /** The squared gradient length gx*gx + gy*gy at an interior pixel, and 0 elsewhere (the
      magnitude table starts zeroed and only interior entries are written). */
  function SquaredMagnitude(img: ImageData, x: int, y: int): (m: real)
    requires Valid(img) && 0 <= x < img.width && 0 <= y < img.height
    ensures m >= 0.0
    ensures !Interior(img, x, y) ==> m == 0.0
  {
    if Interior(img, x, y) then
      var w := Neighbourhood(img, x, y);
      Square(Convolve(w, SobelX)) + Square(Convolve(w, SobelY))
    else 0.0
  }

  function Square(r: real): (s: real)
    ensures s >= 0.0
  {
    r * r
  }

  /** `sqrt(sq) > t`, stated without the square root. */
  predicate LengthExceeds(sq: real, t: real) {
    t < 0.0 || sq > t * t
  }

  /** For a non-negative length `m` with square `sq`, `m > t` is exactly the squared test. */
  lemma {:induction false} SquaredComparison(m: real, t: real)
    requires m >= 0.0
    ensures m > t <==> LengthExceeds(m * m, t)
  {
    if t >= 0.0 {
      if m > t {
        assert m * m > t * m >= t * t;
      } else {
        assert m * m <= t * m <= t * t;
      }
    }
  }

  predicate IsEdge(img: ImageData, x: int, y: int, t: real)
    requires Valid(img) && 0 <= x < img.width && 0 <= y < img.height
  {
    LengthExceeds(SquaredMagnitude(img, x, y), t)
  }

  /** The output pixel for (x, y): white on an edge, black elsewhere, always opaque. */
  function EdgePixel(img: ImageData, x: int, y: int, t: real): (p: Pixel)
    requires Valid(img) && 0 <= x < img.width && 0 <= y < img.height
    ensures p.a == 255 && p.r == p.g == p.b && (p.r == 255 || p.r == 0)
    ensures p.r == 255 <==> IsEdge(img, x, y, t)
  {
    if IsEdge(img, x, y, t) then Pixel(255, 255, 255, 255) else Pixel(0, 0, 0, 255)
  }

  function EdgeGrid(img: ImageData, t: real): (rows: seq<seq<Pixel>>)
    requires Valid(img)
    ensures IsGrid(rows, img.width, img.height)
    ensures forall y, x :: 0 <= y < img.height && 0 <= x < img.width ==> rows[y][x] == EdgePixel(img, x, y, t)
  {
    seq(img.height, y requires 0 <= y < img.height =>
      seq(img.width, x requires 0 <= x < img.width => EdgePixel(img, x, y, t)))
  }

  lemma FromGridAll(width: nat, height: nat, rows: seq<seq<Pixel>>)
    requires IsGrid(rows, width, height)
    ensures Valid(FromGrid(width, height, rows))
    ensures forall x, y :: 0 <= x < width && 0 <= y < height ==>
      GetIndex(FromGrid(width, height, rows), x, y) >= 0 &&
      GetPixel(FromGrid(width, height, rows), x, y) == Some(rows[y][x])
  {
    var img := FromGrid(width, height, rows);
    FromGridValid(width, height, rows);
    forall x, y | 0 <= x < width && 0 <= y < height
      ensures GetIndex(img, x, y) >= 0 && GetPixel(img, x, y) == Some(rows[y][x])
    {
      FromGridPixel(width, height, rows, x, y);
      IndexInRange(img, x, y);
    }
  }

  /** `findEdges` with an optional threshold (127 when absent). Building the output
      `ImageData` throws for a zero width or height, modelled as `None`; otherwise the
      result has the input's size, and each pixel is opaque white on an edge and opaque
      black elsewhere. */
  function FindEdges(img: ImageData, threshold: Option<real>): (r: Option<ImageData>)
    requires Valid(img)
    ensures r.None? <==> img.width == 0 || img.height == 0
    ensures r.Some? ==> Valid(r.value) && r.value.width == img.width && r.value.height == img.height
    ensures r.Some? ==> forall x, y :: 0 <= x < img.width && 0 <= y < img.height ==>
      GetIndex(r.value, x, y) >= 0 &&
      GetPixel(r.value, x, y) == Some(EdgePixel(img, x, y, if threshold.None? then DefaultThreshold else threshold.value))
  {
    var t := if threshold.None? then DefaultThreshold else threshold.value;
    if img.width == 0 || img.height == 0 then None
    else
      EdgeMap(img, t);
      Some(FromGrid(img.width, img.height, EdgeGrid(img, t)))
  }

  /** The buffer built from the edge grid has the image's size and the edge pixel of each
      position. */
  lemma EdgeMap(img: ImageData, t: real)
    requires Valid(img)
    ensures var m := FromGrid(img.width, img.height, EdgeGrid(img, t));
      && Valid(m) && m.width == img.width && m.height == img.height
      && forall x, y :: 0 <= x < img.width && 0 <= y < img.height ==>
           GetIndex(m, x, y) >= 0 && GetPixel(m, x, y) == Some(EdgePixel(img, x, y, t))
  {
    var rows := EdgeGrid(img, t);
    FromGridAll(img.width, img.height, rows);
  }

  /** Both kernels sum to zero, so a flat neighbourhood has no gradient. */
  lemma FlatWindowHasNoGradient(w: Window, v: real)
    requires IsWindow(w)
    requires forall i, j :: 0 <= i < 3 && 0 <= j < 3 ==> w[i][j] == v
    ensures Convolve(w, SobelX) == 0.0 && Convolve(w, SobelY) == 0.0
  {
    assert w[0][0] == v && w[0][1] == v && w[0][2] == v;
    assert w[1][0] == v && w[1][1] == v && w[1][2] == v;
    assert w[2][0] == v && w[2][1] == v && w[2][2] == v;
  }

  /** A pixel whose whole neighbourhood has one grey level is never an edge under a
      non-negative threshold. */
  lemma UniformIsNotEdge(img: ImageData, x: int, y: int, t: real)
    requires Valid(img) && Interior(img, x, y) && t >= 0.0
    requires forall a, b :: x - 1 <= a <= x + 1 && y - 1 <= b <= y + 1 ==> Gray(img, a, b) == Gray(img, x, y)
    ensures !IsEdge(img, x, y, t)
  {
    UniformWindow(img, x, y);
    NoGradientNoMagnitude(img, x, y, Gray(img, x, y));
    NothingExceeds(t);
  }

  /** A zero length exceeds no non-negative threshold. */
  lemma NothingExceeds(t: real)
    requires t >= 0.0
    ensures !LengthExceeds(0.0, t)
  {
  }

  lemma UniformWindow(img: ImageData, x: int, y: int)
    requires Valid(img) && Interior(img, x, y)
    requires forall a, b :: x - 1 <= a <= x + 1 && y - 1 <= b <= y + 1 ==> Gray(img, a, b) == Gray(img, x, y)
    ensures forall i, j :: 0 <= i < 3 && 0 <= j < 3 ==> Neighbourhood(img, x, y)[i][j] == Gray(img, x, y)
  {
    var w := Neighbourhood(img, x, y);
    forall i, j | 0 <= i < 3 && 0 <= j < 3 ensures w[i][j] == Gray(img, x, y) {
      assert w[i][j] == Gray(img, x + j - 1, y + i - 1);
    }
  }

  lemma NoGradientNoMagnitude(img: ImageData, x: int, y: int, v: real)
    requires Valid(img) && Interior(img, x, y)
    requires forall i, j :: 0 <= i < 3 && 0 <= j < 3 ==> Neighbourhood(img, x, y)[i][j] == v
    ensures SquaredMagnitude(img, x, y) == 0.0
  {
    FlatWindowHasNoGradient(Neighbourhood(img, x, y), v);
  }

  /** The one-pixel border, and so every pixel of an image narrower or shorter than three,
      is never an edge under a non-negative threshold. */
  lemma BorderIsNotEdge(img: ImageData, x: int, y: int, t: real)
    requires Valid(img) && 0 <= x < img.width && 0 <= y < img.height && t >= 0.0
    requires x == 0 || y == 0 || x == img.width - 1 || y == img.height - 1
    ensures !IsEdge(img, x, y, t)
  {
  }

  /** The squared test only gets harder as the threshold grows. */
  lemma {:induction false} LengthExceedsMonotone(sq: real, t: real, t': real)
    requires t <= t'
    ensures LengthExceeds(sq, t') ==> LengthExceeds(sq, t)
  {
    if t >= 0.0 {
      assert t * t <= t * t' <= t' * t';
    }
  }

  /** Raising the threshold never adds an edge pixel. */
  lemma ThresholdMonotone(img: ImageData, x: int, y: int, t: real, t': real)
    requires Valid(img) && 0 <= x < img.width && 0 <= y < img.height && t <= t'
    ensures IsEdge(img, x, y, t') ==> IsEdge(img, x, y, t)
  {
    LengthExceedsMonotone(SquaredMagnitude(img, x, y), t, t');
  }

  /** A vertical step from black to white on the right-hand column is an edge under the
      default threshold: gx is 4 * 255. */
  lemma StepIsEdge()
    ensures var w := [[0.0, 0.0, 255.0], [0.0, 0.0, 255.0], [0.0, 0.0, 255.0]];
      Convolve(w, SobelX) == 1020.0 && Convolve(w, SobelY) == 0.0 &&
      LengthExceeds(Convolve(w, SobelX) * Convolve(w, SobelX), DefaultThreshold)
  {
  }
}

=== FILE: geometry.dfy ===
/** The arithmetic part of `cropCanvas`: the output has exactly the requested size and is cut
    from the centre of the source. The drawing itself is not modelled. */
module Geometry {

  /** A canvas the host creates for output: only its size is modelled. */
  datatype Frame = Frame(width: int, height: int)

  /** The top-left corner, in source coordinates, of the window `cropCanvas` copies. */
  function CropOffset(canvasWidth: int, canvasHeight: int, width: int, height: int): (o: (real, real))
    ensures 2.0 * o.0 + width as real == canvasWidth as real
    ensures 2.0 * o.1 + height as real == canvasHeight as real
  {
    (canvasWidth as real / 2.0 - width as real / 2.0, canvasHeight as real / 2.0 - height as real / 2.0)
  }

  /** `cropCanvas`: a new canvas of exactly the requested size, and the offset it is copied from. */
  function CropCanvas(source: Frame, width: int, height: int): (r: (Frame, (real, real)))
    ensures r.0 == Frame(width, height)
    ensures r.1 == CropOffset(source.width, source.height, width, height)
  {
    (Frame(width, height), CropOffset(source.width, source.height, width, height))
  }

  /** The window is centred: the margins left and right (top and bottom) are equal, and a
      window no larger than the source lies wholly inside it. */
  lemma CropCentred(source: Frame, width: int, height: int)
    ensures var o := CropCanvas(source, width, height).1;
      && o.0 == source.width as real - (o.0 + width as real)
      && o.1 == source.height as real - (o.1 + height as real)
    ensures var o := CropCanvas(source, width, height).1;
      width <= source.width ==> 0.0 <= o.0 && o.0 + width as real <= source.width as real
    ensures var o := CropCanvas(source, width, height).1;
      height <= source.height ==> 0.0 <= o.1 && o.1 + height as real <= source.height as real
  {
  }
}

=== FILE: history.dfy ===
/** The undo/redo history of sort settings: a bounded list of stored settings and the
    position of the current one. */
module History {
  import opened Pixels
  import opened SettingString

  /** The most states the history keeps. */
  const MaxStates: int := 99

  datatype HistoryState = HistoryState(step: int, steps: seq<SortSettings>)

  /** A fresh store: nothing stored, positioned before the first state. */
  const Initial: HistoryState := HistoryState(-1, [])

  /** The shape every action keeps: the position is a stored state or -1 for none, and
      there are at most `MaxStates` states. */
  predicate Inv(h: HistoryState) {
    && -1 <= h.step <= |h.steps| - 1
    && |h.steps| <= MaxStates
    && (h.step == -1 <==> |h.steps| == 0)
  }

  predicate CanUndo(h: HistoryState) {
    h.step > 0 && |h.steps| > 0
  }

  predicate CanRedo(h: HistoryState) {
    h.step < |h.steps| - 1
  }

  /** The fresh store has nothing to undo or redo. */
  lemma InitialState()
    ensures Inv(Initial) && !CanUndo(Initial) && !CanRedo(Initial)
  {
  }

  /** What `splice(start)` leaves in the array: everything before `start`, where a negative
      `start` counts from the end. */
  function Splice<T>(s: seq<T>, start: int): (kept: seq<T>)
    ensures kept <= s
    ensures 0 <= start ==> |kept| == if start < |s| then start else |s|
  {
    var k := if start < 0 then (if |s| + start < 0 then 0 else |s| + start)
             else if start < |s| then start else |s|;
    s[..k]
  }

  function Min(a: int, b: int): int {
    if a <= b then a else b
  }

  function Max(a: int, b: int): int {
    if a >= b then a else b
  }

  /** `storeHistoryState`: drop every state after the current one, append the new one,
      drop the oldest on overflow, and move to the end. */
  function StoreHistoryState(h: HistoryState, settings: SortSettings): (r: HistoryState)
    ensures Inv(h) ==> Inv(r)
    ensures Inv(h) ==> r.step == |r.steps| - 1 && |r.steps| > 0 && r.steps[|r.steps| - 1] == settings
    ensures Inv(h) && h.step + 2 <= MaxStates ==> r.steps == h.steps[..h.step + 1] + [settings]
    ensures Inv(h) && h.step + 2 > MaxStates ==> r.steps == h.steps[1..h.step + 1] + [settings]
  {
    var pushed := Splice(h.steps, h.step + 1) + [settings];
    var steps := if |pushed| > MaxStates then pushed[1..] else pushed;
    HistoryState(Min(MaxStates - 1, h.step + 1), steps)
  }

  /** `undo`: nothing happens unless there is an earlier state; otherwise step back and
      hand out that state. */
  function Undo(h: HistoryState): (res: (HistoryState, Option<SortSettings>))
    requires Inv(h)
    ensures Inv(res.0) && res.0.steps == h.steps
    ensures !CanUndo(h) ==> res == (h, None)
    ensures CanUndo(h) ==> res.0.step == h.step - 1 && res.1 == Some(h.steps[h.step - 1])
  {
    if !CanUndo(h) then (h, None)
    else
      var step := Max(0, h.step - 1);
      (h.(step := step), Some(h.steps[step]))
  }

  /** `redo`: nothing happens unless there is a later state; otherwise step forward and
      hand out that state. */
  function Redo(h: HistoryState): (res: (HistoryState, Option<SortSettings>))
    requires Inv(h)
    ensures Inv(res.0) && res.0.steps == h.steps
    ensures !CanRedo(h) ==> res == (h, None)
    ensures CanRedo(h) ==> res.0.step == h.step + 1 && res.1 == Some(h.steps[h.step + 1])
  {
    if !CanRedo(h) then (h, None)
    else
      var step := Min(MaxStates - 1, h.step + 1);
      (h.(step := step), Some(h.steps[step]))
  }

  /** `clearHistory`. */
  function ClearHistory(h: HistoryState): (r: HistoryState)
    ensures Inv(r) && |r.steps| == 0 && r.step == -1
  {
    Initial
  }

  /** Undoing and then redoing returns to the same position and hands back the state
      that was current before the undo. */
  lemma UndoThenRedo(h: HistoryState)
    requires Inv(h) && CanUndo(h)
    ensures Redo(Undo(h).0) == (h, Some(h.steps[h.step]))
  {
  }

  /** After storing, the previous current state is what an undo hands out. */
  lemma StoreThenUndo(h: HistoryState, settings: SortSettings)
    requires Inv(h) && h.step >= 0 && h.step + 2 <= MaxStates
    ensures Undo(StoreHistoryState(h, settings)).1 == Some(h.steps[h.step])
  {
    var r := StoreHistoryState(h, settings);
    assert r.steps[r.step - 1] == h.steps[h.step];
  }

  /** Storing at a middle position drops the states after it (three states, position 1:
      the new state becomes the third one and the current one). */
  lemma StoreInTheMiddle(a: SortSettings, b: SortSettings, c: SortSettings, s: SortSettings)
    ensures var r := StoreHistoryState(HistoryState(1, [a, b, c]), s);
      r.steps == [a, b, s] && r.step == 2
  {
  }

  /** Storing into a full history drops the oldest state and keeps the length at the
      maximum. */
  lemma StoreWhenFull(h: HistoryState, s: SortSettings)
    requires |h.steps| == MaxStates && h.step == MaxStates - 1
    ensures var r := StoreHistoryState(h, s);
      && |r.steps| == MaxStates && r.step == MaxStates - 1
      && r.steps[r.step] == s && r.steps[0] == h.steps[1]
  {
  }

  /** The four actions of the store. */
  datatype Action = Store(settings: SortSettings) | UndoAction | RedoAction | Clear

  function Apply(h: HistoryState, a: Action): (r: HistoryState)
    requires Inv(h)
    ensures Inv(r)
  {
    match a
    case Store(s) => StoreHistoryState(h, s)
    case UndoAction => Undo(h).0
    case RedoAction => Redo(h).0
    case Clear => ClearHistory(h)
  }

  /** Every sequence of actions keeps the invariant. */
  function Run(h: HistoryState, actions: seq<Action>): (r: HistoryState)
    requires Inv(h)
    ensures Inv(r)
    decreases |actions|
  {
    if |actions| == 0 then h else Run(Apply(h, actions[0]), actions[1..])
  }
}

=== FILE: interval.dfy ===
/** The interval planner: for every row of an image, the list of x positions where the row
    is cut into separately sorted spans. Random draws are an oracle: `draws(y)` is the finite
    sequence of values in [0, 1) that row y receives from `Math.random`. */
module Interval {
  import opened Pixels
  import opened Canvas
  import opened Numbers
  import Sorting
  import Edges

  type IntervalList = seq<seq<int>>

  /** How planning ended: with the cut lists, with an exception, or by needing more draws
      than the oracle holds (for a walk whose steps are all zero, more than any oracle holds). */
  datatype Outcome<T> = Done(value: T) | Throws | OutOfDraws

  /** What every strategy receives: the image, the two thresholds on the 0..255 scale, and
      the characteristic length, which the host has already rounded to a whole number. */
  datatype IntervalProps = IntervalProps(
    image: ImageData, lowerThreshold: real, upperThreshold: real, charLength: int)

  const RandomTag := "random"
  const ThresholdTag := "threshold"
  const WavesTag := "waves"
  const NoneTag := "none"
  const EdgesTag := "edges"

  predicate Increasing(s: seq<int>) {
    forall i, j :: 0 <= i < j < |s| ==> s[i] < s[j]
  }

  predicate NonDecreasing(s: seq<int>) {
    forall i, j :: 0 <= i < j < |s| ==> s[i] <= s[j]
  }

  // The two walks, `random` and `waves`.

  function Sum(s: seq<int>): int {
    if |s| == 0 then 0 else s[0] + Sum(s[1..])
  }

  /** The walk's position after its first `k` steps. */
  function Reach(x: int, steps: seq<int>, k: int): int
    requires 0 <= k <= |steps|
  {
    x + Sum(steps[..k])
  }

  /** The loop shared by `random` and `waves`: starting at `x`, add each step in turn and
      record the new position, stopping at the first position past `width`. `None` when the
      steps run out before that happens. */
  function Walk(x: int, width: int, steps: seq<int>): (r: Option<seq<int>>)
    ensures r.Some? ==> |r.value| < |steps|
    ensures r.Some? ==> forall k :: 0 <= k < |r.value| ==> r.value[k] <= width
    decreases |steps|
  {
    if |steps| == 0 then None
    else
      var next := x + steps[0];
      if next > width then Some([])
      else
        match Walk(next, width, steps[1..])
        case None => None
        case Some(rest) => Some([next] + rest)
  }

  lemma SumStep(steps: seq<int>, k: int)
    requires 0 <= k < |steps|
    ensures Sum(steps[..k + 1]) == steps[0] + Sum(steps[1..][..k])
  {
    assert steps[..k + 1][1..] == steps[1..][..k];
  }

  /** The walk records exactly the running sums up to the first one past `width`, and fails
      exactly when every running sum the steps allow stays within `width`. */
  lemma {:induction false} WalkPositions(x: int, width: int, steps: seq<int>)
    ensures var r := Walk(x, width, steps);
      && (r.Some? ==> forall k :: 0 <= k < |r.value| ==> r.value[k] == Reach(x, steps, k + 1))
      && (r.Some? ==> Reach(x, steps, |r.value| + 1) > width)
      && (r.None? <==> forall k :: 1 <= k <= |steps| ==> Reach(x, steps, k) <= width)
    decreases |steps|
  {
    if |steps| > 0 {
      var next := x + steps[0];
      SumStep(steps, 0);
      assert Reach(x, steps, 1) == next;
      forall k | 1 <= k <= |steps|
        ensures Reach(x, steps, k) == Reach(next, steps[1..], k - 1)
      {
        SumStep(steps, k - 1);
      }
      if next <= width {
        WalkPositions(next, width, steps[1..]);
      }
    }
  }

  /** With non-negative steps the positions never go down; with positive steps they strictly
      increase. */
  lemma {:induction false} WalkOrdered(x: int, width: int, steps: seq<int>)
    requires forall k :: 0 <= k < |steps| ==> steps[k] >= 0
    ensures var r := Walk(x, width, steps);
      r.Some? ==> NonDecreasing(r.value) && forall k :: 0 <= k < |r.value| ==> x <= r.value[k]
    ensures var r := Walk(x, width, steps);
      r.Some? && (forall k :: 0 <= k < |steps| ==> steps[k] > 0) ==>
        Increasing(r.value) && forall k :: 0 <= k < |r.value| ==> x < r.value[k]
    decreases |steps|
  {
    if |steps| > 0 && x + steps[0] <= width {
      WalkOrdered(x + steps[0], width, steps[1..]);
    }
  }

  /** Steps that are all zero never carry a position within `width` past it: however many
      draws the oracle holds, the walk does not finish. This is the source's endless loop
      when the characteristic length is zero. */
  lemma {:induction false} ZeroStepsNeverStop(x: int, width: int, steps: seq<int>)
    requires x <= width
    requires forall k :: 0 <= k < |steps| ==> steps[k] == 0
    ensures Walk(x, width, steps).None?
    decreases |steps|
  {
    if |steps| > 0 {
      ZeroStepsNeverStop(x, width, steps[1..]);
    }
  }

  /** Steps of at least one finish within `width - x + 1` steps. */
  lemma {:induction false} PositiveStepsStop(x: int, width: int, steps: seq<int>)
    requires forall k :: 0 <= k < |steps| ==> steps[k] >= 1
    requires |steps| > 0 && |steps| > width - x
    ensures Walk(x, width, steps).Some?
    decreases |steps|
  {
    if x + steps[0] <= width {
      assert |steps| > 1;
      PositiveStepsStop(x + steps[0], width, steps[1..]);
    }
  }

  /** `Math.round(charLength * r)`, one step of `random`. */
  function RandomStep(charLength: int, r: real): (step: int)
    ensures 0.0 <= r < 1.0 && charLength >= 0 ==> 0 <= step <= charLength
  {
    RandomStepBounds(charLength, r);
    Round(charLength as real * r)
  }

  lemma RandomStepBounds(charLength: int, r: real)
    ensures 0.0 <= r < 1.0 && charLength >= 0 ==> 0 <= Round(charLength as real * r) <= charLength
  {
    if 0.0 <= r < 1.0 && charLength >= 0 {
      assert 0.0 <= charLength as real * r <= charLength as real;
    }
  }

  /** `randInt(min, max)`: `Math.round(r * (max - min) + min)`, a whole number in
      [min, max] for a draw in [0, 1). */
  function RandInt(min: int, max: int, r: real): (n: int)
    ensures 0.0 <= r < 1.0 && min <= max ==> min <= n <= max
  {
    RandIntBounds(min, max, r);
    Round(r * (max - min) as real + min as real)
  }

  lemma RandIntBounds(min: int, max: int, r: real)
    ensures 0.0 <= r < 1.0 && min <= max ==> min <= Round(r * (max - min) as real + min as real) <= max
  {
    if 0.0 <= r < 1.0 && min <= max {
      assert 0.0 <= r * (max - min) as real <= (max - min) as real;
    }
  }

  /** One step of `waves`: the characteristic length plus a whole number in [0, 10]. */
  function WaveStep(charLength: int, r: real): (step: int)
    ensures 0.0 <= r < 1.0 ==> charLength <= step <= charLength + 10
  {
    charLength + RandInt(0, 10, r)
  }

  function RandomSteps(charLength: int, ds: seq<real>): (steps: seq<int>)
    ensures |steps| == |ds|
    ensures forall k :: 0 <= k < |ds| ==> steps[k] == RandomStep(charLength, ds[k])
  {
    seq(|ds|, k requires 0 <= k < |ds| => RandomStep(charLength, ds[k]))
  }

  function WaveSteps(charLength: int, ds: seq<real>): (steps: seq<int>)
    ensures |steps| == |ds|
    ensures forall k :: 0 <= k < |ds| ==> steps[k] == WaveStep(charLength, ds[k])
  {
    seq(|ds|, k requires 0 <= k < |ds| => WaveStep(charLength, ds[k]))
  }

  /** One walk per row, all starting at 0; done only when every row's walk finishes. */
  function WalkRows(width: int, steps: seq<seq<int>>): (r: Outcome<IntervalList>)
    ensures r.Done? || r.OutOfDraws?
    ensures r.Done? <==> forall y :: 0 <= y < |steps| ==> Walk(0, width, steps[y]).Some?
    ensures r.Done? ==> |r.value| == |steps|
    ensures r.Done? ==> forall y :: 0 <= y < |steps| ==> Some(r.value[y]) == Walk(0, width, steps[y])
  {
    if forall y :: 0 <= y < |steps| ==> Walk(0, width, steps[y]).Some? then
      Done(seq(|steps|, y requires 0 <= y < |steps| => Walk(0, width, steps[y]).value))
    else OutOfDraws
  }

  /** `random`: each row walks in steps of `round(charLength * r)`. */
  function RandomIntervals(props: IntervalProps, draws: int -> seq<real>): (r: Outcome<IntervalList>)
    requires Valid(props.image)
    ensures r.Done? ==> |r.value| == props.image.height
    ensures r.Done? ==> forall y :: 0 <= y < |r.value| ==>
      Some(r.value[y]) == Walk(0, props.image.width, RandomSteps(props.charLength, draws(y)))
    ensures r.Done? || r.OutOfDraws?
  {
    WalkRows(props.image.width,
      seq(props.image.height, y => RandomSteps(props.charLength, draws(y))))
  }

  /** `waves`: each row walks in steps of `charLength + randInt(0, 10)`. */
  function WavesIntervals(props: IntervalProps, draws: int -> seq<real>): (r: Outcome<IntervalList>)
    requires Valid(props.image)
    ensures r.Done? ==> |r.value| == props.image.height
    ensures r.Done? ==> forall y :: 0 <= y < |r.value| ==>
      Some(r.value[y]) == Walk(0, props.image.width, WaveSteps(props.charLength, draws(y)))
    ensures r.Done? || r.OutOfDraws?
  {
    WalkRows(props.image.width,
      seq(props.image.height, y => WaveSteps(props.charLength, draws(y))))
  }

  /** With draws in [0, 1), every `random` cut is a whole position in [0, width], and the
      cuts of a row never go down. */
  lemma RandomCutsInRange(props: IntervalProps, draws: int -> seq<real>, y: int)
    requires Valid(props.image) && props.charLength >= 0
    requires forall k :: 0 <= k < |draws(y)| ==> 0.0 <= draws(y)[k] < 1.0
    requires RandomIntervals(props, draws).Done? && 0 <= y < props.image.height
    ensures var row := RandomIntervals(props, draws).value[y];
      NonDecreasing(row) && forall k :: 0 <= k < |row| ==> 0 <= row[k] <= props.image.width
  {
    WalkOrdered(0, props.image.width, RandomSteps(props.charLength, draws(y)));
  }

  /** With draws in [0, 1) and a positive characteristic length, the `waves` cuts of a row
      strictly increase and lie in (0, width]. */
  lemma WavesCutsIncrease(props: IntervalProps, draws: int -> seq<real>, y: int)
    requires Valid(props.image) && props.charLength > 0
    requires forall k :: 0 <= k < |draws(y)| ==> 0.0 <= draws(y)[k] < 1.0
    requires WavesIntervals(props, draws).Done? && 0 <= y < props.image.height
    ensures var row := WavesIntervals(props, draws).value[y];
      Increasing(row) && forall k :: 0 <= k < |row| ==> 0 < row[k] <= props.image.width
  {
    WalkOrdered(0, props.image.width, WaveSteps(props.charLength, draws(y)));
  }

  /** A zero characteristic length makes `random` loop forever on any image with a row:
      no finite oracle is enough. */
  lemma RandomWithZeroLengthNeverEnds(props: IntervalProps, draws: int -> seq<real>)
    requires Valid(props.image) && props.charLength == 0 && props.image.height > 0
    ensures RandomIntervals(props, draws) == OutOfDraws
  {
    var steps := RandomSteps(0, draws(0));
    assert forall k :: 0 <= k < |steps| ==> steps[k] == 0;
    ZeroStepsNeverStop(0, props.image.width, steps);
  }

  // `threshold`.

  function Level(img: ImageData, x: int, y: int): real
    requires Valid(img) && 0 <= x < img.width && 0 <= y < img.height
  {
    Sorting.Lightness(At(img, x, y))
  }

  /** The lightness of every pixel of row y, left to right. */
  function RowLevels(img: ImageData, y: int): (levels: seq<real>)
    requires Valid(img) && 0 <= y < img.height
    ensures |levels| == img.width
    ensures forall x :: 0 <= x < img.width ==> levels[x] == Level(img, x, y)
  {
    seq(img.width, x requires 0 <= x < img.width => Level(img, x, y))
  }

  /** The `threshold` cuts of a row from column x on: every column whose lightness lies
      outside [lower, upper]. */
  function OutsideBandFrom(levels: seq<real>, lower: real, upper: real, x: nat): (r: seq<int>)
    ensures Increasing(r)
    ensures forall k :: 0 <= k < |r| ==> x <= r[k] < |levels|
    ensures forall z :: z in r <==> x <= z < |levels| && (levels[z] < lower || levels[z] > upper)
    decreases |levels| - x
  {
    if x >= |levels| then []
    else
      var rest := OutsideBandFrom(levels, lower, upper, x + 1);
      if levels[x] < lower || levels[x] > upper then [x] + rest else rest
  }

  /** `threshold`: one row of cuts per image row. */
  function ThresholdIntervals(props: IntervalProps): (r: IntervalList)
    requires Valid(props.image)
    ensures |r| == props.image.height
    ensures forall y :: 0 <= y < |r| ==>
      r[y] == OutsideBandFrom(RowLevels(props.image, y), props.lowerThreshold, props.upperThreshold, 0)
  {
    seq(props.image.height, y requires 0 <= y < props.image.height =>
      OutsideBandFrom(RowLevels(props.image, y), props.lowerThreshold, props.upperThreshold, 0))
  }

  /** Every `threshold` row is strictly increasing within [0, width) and holds exactly the
      columns whose lightness falls outside [lower, upper]. */
  lemma ThresholdRows(props: IntervalProps, y: int, x: int)
    requires Valid(props.image) && 0 <= y < props.image.height && 0 <= x < props.image.width
    ensures var row := ThresholdIntervals(props)[y];
      && Increasing(row) && (forall k :: 0 <= k < |row| ==> 0 <= row[k] < props.image.width)
      && (x in row <==> Level(props.image, x, y) < props.lowerThreshold || Level(props.image, x, y) > props.upperThreshold)
  {
  }

  // `edges`.

  /** The lightness the `edges` strategy reads at (x, y) of the edge map built with threshold
      `t`: 255 on an edge, 0 elsewhere. */
  function EdgeLevel(img: ImageData, x: int, y: int, t: real): (l: real)
    requires Valid(img) && 0 <= x < img.width && 0 <= y < img.height
    ensures l == 255.0 <==> Edges.IsEdge(img, x, y, t)
    ensures l == 0.0 <==> !Edges.IsEdge(img, x, y, t)
  {
    Sorting.Lightness(Edges.EdgePixel(img, x, y, t))
  }

  /** Column z starts a dark run (lightness at most `lower`) of a scan that began at column
      x with the flag `flag`: its left neighbour is light, or it is the first column and the
      flag is still up. */
  predicate StartsRun(levels: seq<real>, lower: real, x: int, flag: bool, z: int) {
    && 0 <= x <= z < |levels|
    && levels[z] <= lower
    && (if z == x then flag else levels[z - 1] > lower)
  }

  /** The `edges` cuts of a row from column x on, with `flag` the state of the source's flag
      on entry: the columns that start a dark run. */
  function RunStarts(levels: seq<real>, lower: real, x: nat, flag: bool): (r: seq<int>)
    ensures Increasing(r)
    ensures forall k :: 0 <= k < |r| ==> x <= r[k] < |levels|
    ensures forall z :: z in r <==> StartsRun(levels, lower, x, flag, z)
    decreases |levels| - x
  {
    if x >= |levels| then []
    else
      var rest := RunStarts(levels, lower, x + 1, levels[x] > lower);
      var r := if levels[x] <= lower && flag then [x] + rest else rest;
      assert forall z :: z in r <==> StartsRun(levels, lower, x, flag, z) by {
        forall z ensures z in r <==> StartsRun(levels, lower, x, flag, z) {
          if z != x {
            assert z in r <==> z in rest;
            assert StartsRun(levels, lower, x + 1, levels[x] > lower, z) <==> StartsRun(levels, lower, x, flag, z);
          }
        }
      }
      r
  }

  /** `edges`: the edge map is built with the upper threshold as its Sobel threshold, and its
      rows are cut with the lower one. Building the map throws for an empty image. */
  function EdgesIntervals(props: IntervalProps): (r: Outcome<IntervalList>)
    requires Valid(props.image)
    ensures r.Done? || r.Throws?
    ensures r.Throws? <==> props.image.width == 0 || props.image.height == 0
    ensures r.Done? ==> |r.value| == props.image.height
    ensures r.Done? ==> forall y, z :: 0 <= y < props.image.height && 0 <= z < props.image.width ==>
      (z in r.value[y] <==>
        && EdgeLevel(props.image, z, y, props.upperThreshold) <= props.lowerThreshold
        && (z == 0 || EdgeLevel(props.image, z - 1, y, props.upperThreshold) > props.lowerThreshold))
    ensures r.Done? ==> forall y :: 0 <= y < |r.value| ==>
      Increasing(r.value[y]) && forall k :: 0 <= k < |r.value[y]| ==> 0 <= r.value[y][k] < props.image.width
  {
    var img := props.image;
    match Edges.FindEdges(img, Some(props.upperThreshold))
    case None => Throws
    case Some(edgeMap) =>
      EdgeMapLevels(img, edgeMap, props.upperThreshold);
      var rows := seq(img.height, y requires 0 <= y < img.height =>
        RunStarts(RowLevels(edgeMap, y), props.lowerThreshold, 0, true));
      assert forall y, z :: 0 <= y < img.height && 0 <= z < img.width ==>
        (z in rows[y] <==>
          && EdgeLevel(img, z, y, props.upperThreshold) <= props.lowerThreshold
          && (z == 0 || EdgeLevel(img, z - 1, y, props.upperThreshold) > props.lowerThreshold)) by {
        forall y, z | 0 <= y < img.height && 0 <= z < img.width
          ensures z in rows[y] <==>
            && EdgeLevel(img, z, y, props.upperThreshold) <= props.lowerThreshold
            && (z == 0 || EdgeLevel(img, z - 1, y, props.upperThreshold) > props.lowerThreshold)
        {
          var levels := RowLevels(edgeMap, y);
          assert z in rows[y] <==> StartsRun(levels, props.lowerThreshold, 0, true, z);
          assert levels[z] == EdgeLevel(img, z, y, props.upperThreshold);
          if z > 0 {
            assert levels[z - 1] == EdgeLevel(img, z - 1, y, props.upperThreshold);
          }
        }
      }
      Done(rows)
  }

  /** The edge map's lightness is the edge level of the source image. */
  lemma EdgeMapLevels(img: ImageData, edgeMap: ImageData, t: real)
    requires Valid(img) && Edges.FindEdges(img, Some(t)) == Some(edgeMap)
    ensures Valid(edgeMap) && edgeMap.width == img.width && edgeMap.height == img.height
    ensures forall y :: 0 <= y < img.height ==>
      forall x :: 0 <= x < img.width ==> RowLevels(edgeMap, y)[x] == EdgeLevel(img, x, y, t)
  {
  }

  // `none` and the dispatcher.

  /** `none`: an empty cut list for every row. */
  function NoIntervals(props: IntervalProps): (r: IntervalList)
    requires Valid(props.image)
    ensures |r| == props.image.height
    ensures forall y :: 0 <= y < |r| ==> r[y] == []
  {
    seq(props.image.height, _ => [])
  }

  /** `getIntervals`: picks the strategy by its tag; any unknown tag plans no cuts. Both
      `threshold` and `edges` read the pixels of the canvas, which throws when it has no
      area. */
  function GetIntervals(fn: string, props: IntervalProps, draws: int -> seq<real>): (r: Outcome<IntervalList>)
    requires Valid(props.image)
    ensures r.Done? ==> |r.value| == props.image.height
    ensures fn !in {RandomTag, ThresholdTag, WavesTag, EdgesTag} ==> r == Done(NoIntervals(props))
    ensures fn == RandomTag ==> r == RandomIntervals(props, draws)
    ensures fn == ThresholdTag && props.image.width > 0 && props.image.height > 0 ==>
      r == Done(ThresholdIntervals(props))
    ensures fn == WavesTag ==> r == WavesIntervals(props, draws)
    ensures fn == EdgesTag ==> r == EdgesIntervals(props)
    ensures r.Throws? <==>
      (fn == ThresholdTag || fn == EdgesTag) && (props.image.width == 0 || props.image.height == 0)
    ensures r.OutOfDraws? ==> fn == RandomTag || fn == WavesTag
  {
    if fn == RandomTag then RandomIntervals(props, draws)
    else if fn == ThresholdTag then
      if props.image.width == 0 || props.image.height == 0 then Throws
      else Done(ThresholdIntervals(props))
    else if fn == WavesTag then WavesIntervals(props, draws)
    else if fn == EdgesTag then EdgesIntervals(props)
    else Done(NoIntervals(props))
  }
}

=== FILE: legacy_interval.dfy ===
/** The older interval planner under `src/utils`. It has no `edges` strategy, and its
    `threshold` takes thresholds on the 0..1 scale and multiplies them by 255 itself, where
    the filters' planner receives them already scaled. `random`, `waves` and `none` are the
    same code as the filters' ones, so the model shares them. */
module LegacyInterval {
  import opened Pixels
  import opened Canvas
  import Interval

  /** `threshold`: the cuts of row y are the columns whose lightness is below `lower * 255`
      or above `upper * 255`, left to right. */
  function ThresholdIntervals(props: Interval.IntervalProps): (r: Interval.IntervalList)
    requires Valid(props.image)
    ensures |r| == props.image.height
    ensures forall y, x :: 0 <= y < |r| && 0 <= x < props.image.width ==>
      (x in r[y] <==> Interval.Level(props.image, x, y) < props.lowerThreshold * 255.0
                      || Interval.Level(props.image, x, y) > props.upperThreshold * 255.0)
    ensures forall y :: 0 <= y < |r| ==>
      Interval.Increasing(r[y]) && forall k :: 0 <= k < |r[y]| ==> 0 <= r[y][k] < props.image.width
  {
    seq(props.image.height, y requires 0 <= y < props.image.height =>
      Interval.OutsideBandFrom(Interval.RowLevels(props.image, y),
                               props.lowerThreshold * 255.0, props.upperThreshold * 255.0, 0))
  }

  /** The props the filters' planner would need for the same cuts: thresholds times 255. */
  function Scaled(props: Interval.IntervalProps): Interval.IntervalProps {
    props.(lowerThreshold := props.lowerThreshold * 255.0, upperThreshold := props.upperThreshold * 255.0)
  }

  /** Legacy `threshold` with 0..1 thresholds plans the same cuts as the filters' one with
      the thresholds scaled by 255, as the filters' host does before calling it. */
  lemma ThresholdScales(props: Interval.IntervalProps)
    requires Valid(props.image)
    ensures ThresholdIntervals(props) == Interval.ThresholdIntervals(Scaled(props))
  {
  }

  /** `getIntervals`: `random`, `threshold` and `waves` by tag; every other tag, `edges`
      included, plans no cuts. It throws only where `threshold` reads the pixels of a
      canvas with no area, which `getImageData` refuses. */
  function GetIntervals(fn: string, props: Interval.IntervalProps, draws: int -> seq<real>): (r: Interval.Outcome<Interval.IntervalList>)
    requires Valid(props.image)
    ensures r.Throws? <==>
      fn == Interval.ThresholdTag && (props.image.width == 0 || props.image.height == 0)
    ensures r.Done? ==> |r.value| == props.image.height
    ensures fn !in {Interval.RandomTag, Interval.ThresholdTag, Interval.WavesTag} ==>
      r == Interval.Done(Interval.NoIntervals(props))
    ensures fn == Interval.ThresholdTag && props.image.width > 0 && props.image.height > 0 ==>
      r == Interval.Done(ThresholdIntervals(props))
    ensures r.OutOfDraws? ==> fn == Interval.RandomTag || fn == Interval.WavesTag
  {
    if fn == Interval.RandomTag then Interval.RandomIntervals(props, draws)
    else if fn == Interval.ThresholdTag then
      if props.image.width == 0 || props.image.height == 0 then Interval.Throws
      else Interval.Done(ThresholdIntervals(props))
    else if fn == Interval.WavesTag then Interval.WavesIntervals(props, draws)
    else Interval.Done(Interval.NoIntervals(props))
  }

  /** The two planners agree on every tag except `threshold`, where they agree once the
      thresholds are scaled, and `edges`, which the older one does not know. */
  lemma AgreesWithFilters(fn: string, props: Interval.IntervalProps, draws: int -> seq<real>)
    requires Valid(props.image)
    ensures fn != Interval.ThresholdTag && fn != Interval.EdgesTag ==>
      GetIntervals(fn, props, draws) == Interval.GetIntervals(fn, props, draws)
    ensures fn == Interval.ThresholdTag ==>
      GetIntervals(fn, props, draws) == Interval.GetIntervals(fn, Scaled(props), draws)
    ensures fn == Interval.EdgesTag ==>
      GetIntervals(fn, props, draws) == Interval.Done(Interval.NoIntervals(props))
  {
    if fn == Interval.ThresholdTag {
      ThresholdScales(props);
    }
  }
}

=== FILE: legacy_main.dfy ===
/** The older placement step under `src/utils` and the last step of the older `pixelsort`.
    Unlike the worker's placement it writes whatever it reads: a selected position whose
    sorted pixel is missing, or an unselected one whose original pixel is missing, hands
    `undefined` to `setPixel`, which throws. A position is selected only when a mask is
    given and has a pixel there. */
module LegacyMain {
  import opened Pixels
  import opened Canvas
  import Sorter
  import FilterWorker
  import Geometry
  import PixelSorter

  /** Whether the mask selects (x, y): there is a mask and it has a pixel there. */
  function Selects(mask: Option<ImageData>, x: int, y: int): bool {
    && mask.Some? && 0 <= x && 0 <= y
    && mask.value.width >= 0 && |mask.value.data| % 4 == 0
    && Sorter.Selected(mask.value, x, y)
  }

  /** The selection as a position test. */
  function Selection(mask: Option<ImageData>): (int, int) -> bool {
    (x: int, y: int) => Selects(mask, x, y)
  }

  /** Placing position (x, y) throws: the sorted pixel it should take, or the original pixel
      it should copy, is not there. */
  predicate Fails(pixels: seq<seq<Pixel>>, original: ImageData, mask: Option<ImageData>, x: int, y: int)
    requires original.width >= 0 && |original.data| % 4 == 0 && 0 <= x && 0 <= y
  {
    if Selects(mask, x, y) then
      y >= |pixels| || FilterWorker.CountSelected(Selection(mask), y, x) >= |pixels[y]|
    else
      Sorter.IndexNonNegative(original, x, y);
      GetPixel(original, x, y).None?
  }

  predicate Throws(pixels: seq<seq<Pixel>>, original: ImageData, mask: Option<ImageData>, width: int, height: int)
    requires original.width >= 0 && |original.data| % 4 == 0
  {
    exists y, x :: 0 <= y < height && 0 <= x < width && Fails(pixels, original, mask, x, y)
  }

  /** The pixel written at (x, y) when placing it does not throw: the next sorted pixel of
      the row for a selected position, the original pixel otherwise. */
  function Cell(pixels: seq<seq<Pixel>>, original: ImageData, mask: Option<ImageData>, x: int, y: int): Pixel
    requires original.width >= 0 && |original.data| % 4 == 0 && 0 <= x && 0 <= y
    requires !Fails(pixels, original, mask, x, y)
  {
    if Selects(mask, x, y) then pixels[y][FilterWorker.CountSelected(Selection(mask), y, x)]
    else
      Sorter.IndexNonNegative(original, x, y);
      GetPixel(original, x, y).value
  }

  function Grid(pixels: seq<seq<Pixel>>, original: ImageData, mask: Option<ImageData>, width: nat, height: nat): (rows: seq<seq<Pixel>>)
    requires original.width >= 0 && |original.data| % 4 == 0
    requires !Throws(pixels, original, mask, width, height)
    ensures IsGrid(rows, width, height)
  {
    seq(height, y requires 0 <= y < height =>
      seq(width, x requires 0 <= x < width => Cell(pixels, original, mask, x, y)))
  }

  /** `placePixels`: nothing (it throws) when the output buffer cannot be read back at a zero
      size or when some position fails; otherwise a width by height buffer of the cells. */
  function PlacePixels(pixels: seq<seq<Pixel>>, original: ImageData, mask: Option<ImageData>,
                       width: nat, height: nat): (r: Option<ImageData>)
    requires original.width >= 0 && |original.data| % 4 == 0
    ensures r.None? <==> width == 0 || height == 0 || Throws(pixels, original, mask, width, height)
    ensures r.Some? ==> Valid(r.value) && r.value.width == width && r.value.height == height
  {
    if width == 0 || height == 0 || Throws(pixels, original, mask, width, height) then None
    else
      var rows := Grid(pixels, original, mask, width, height);
      Canvas.FromGridValid(width, height, rows);
      Some(FromGrid(width, height, rows))
  }

  /** What is read back at each position of a placed buffer. */
  lemma PlacedPixel(pixels: seq<seq<Pixel>>, original: ImageData, mask: Option<ImageData>,
                    width: nat, height: nat, x: int, y: int)
    requires original.width >= 0 && |original.data| % 4 == 0
    requires PlacePixels(pixels, original, mask, width, height).Some?
    requires 0 <= x < width && 0 <= y < height
    ensures !Fails(pixels, original, mask, x, y)
    ensures var out := PlacePixels(pixels, original, mask, width, height).value;
      GetPixel(out, x, y) == Some(Cell(pixels, original, mask, x, y))
  {
    FromGridPixel(width, height, Grid(pixels, original, mask, width, height), x, y);
  }

  /** Without a mask nothing is selected, so a valid original of the output's size comes
      back pixel for pixel. */
  lemma NoMaskCopiesOriginal(pixels: seq<seq<Pixel>>, original: ImageData, x: int, y: int)
    requires Valid(original) && original.width > 0 && original.height > 0
    requires 0 <= x < original.width && 0 <= y < original.height
    ensures var r := PlacePixels(pixels, original, None, original.width, original.height);
      r.Some? && GetPixel(r.value, x, y) == GetPixel(original, x, y)
  {
    forall y', x' | 0 <= y' < original.height && 0 <= x' < original.width
      ensures !Fails(pixels, original, None, x', y')
    {
      HasPixelInside(original, x', y');
    }
    PlacedPixel(pixels, original, None, original.width, original.height, x, y);
  }

  /** With a mask, the selected positions of a row take that row's sorted pixels in order
      from index 0: further right means a later index, and every index is one the row has,
      since a row with fewer sorted pixels than selected positions throws. */
  lemma SelectedTakeRowInOrder(pixels: seq<seq<Pixel>>, original: ImageData, mask: Option<ImageData>,
                               width: nat, height: nat, x: int, x': int, y: int)
    requires original.width >= 0 && |original.data| % 4 == 0
    requires 0 <= x < x' < width && 0 <= y < height
    requires Selects(mask, x, y) && Selects(mask, x', y)
    requires PlacePixels(pixels, original, mask, width, height).Some?
    ensures y < |pixels|
    ensures FilterWorker.CountSelected(Selection(mask), y, x) < FilterWorker.CountSelected(Selection(mask), y, x') < |pixels[y]|
  {
    var sel := Selection(mask);
    assert !Fails(pixels, original, mask, x', y);
    assert sel(x, y);
    FilterWorker.SelectedInOrder(sel, y, x, x');
  }

  /** When the older placement succeeds it produces the same buffer as the worker's, which
      differs only where this one throws (the worker skips a missing pixel instead). */
  lemma AgreesWithWorker(pixels: seq<seq<Pixel>>, original: ImageData, mask: Option<ImageData>,
                         width: nat, height: nat)
    requires original.width >= 0 && |original.data| % 4 == 0
    requires PlacePixels(pixels, original, mask, width, height).Some?
    ensures PlacePixels(pixels, original, mask, width, height)
      == FilterWorker.Placed(pixels, original, width, height, Selection(mask))
  {
    var sel := Selection(mask);
    var ours := Grid(pixels, original, mask, width, height);
    var theirs := FilterWorker.ExpectedGrid(pixels, original, sel, width, height);
    forall y, x | 0 <= y < height && 0 <= x < width
      ensures ours[y][x] == theirs[y][x]
    {
      assert !Fails(pixels, original, mask, x, y);
    }
    assert ours == theirs by {
      forall y | 0 <= y < height ensures ours[y] == theirs[y] {
        assert |ours[y]| == |theirs[y]| == width;
      }
    }
    assert !FilterWorker.ReadsMissingRow(pixels, sel, width, height) by {
      forall y, x | 0 <= y < height && 0 <= x < width && |pixels| <= y
        ensures !sel(x, y)
      {
        assert !Fails(pixels, original, mask, x, y);
      }
    }
  }

  /** The size of the older pipeline's output: the placed buffer, turned once more by the
      same angle when there was a rotation, and not cropped. */
  function OutputFrame(width: int, height: int, angle: int, rotateFrame: (Geometry.Frame, int) -> Geometry.Frame): (f: Geometry.Frame)
    ensures !PixelSorter.HasRotation(angle) ==> f == Geometry.Frame(width, height)
  {
    var placed := Geometry.Frame(width, height);
    if PixelSorter.HasRotation(angle) then rotateFrame(placed, angle) else placed
  }

  /** A quarter turn of a non-square image: with a rotation that swaps the sides, the older
      pipeline hands back a canvas with the sides swapped, while the filters' host crops a
      result of the rotated size back to the size it was given. */
  lemma QuarterTurnKeepsSwappedSides(width: int, height: int, h: PixelSorter.Host, p: PixelSorter.Params,
                                     rotate: (PixelSorter.Surface, int) -> PixelSorter.Surface,
                                     binarise: PixelSorter.Surface -> PixelSorter.Surface,
                                     blank: (int, int) -> PixelSorter.Surface, data: seq<Byte>)
    requires width != height
    requires p.image.width == width && p.image.height == height && p.angle == Some(90)
    requires var size := PixelSorter.PixelSort(h, p, rotate, binarise, blank).1.size;
      size.width > 0 && size.height > 0 && |data| == size.width * size.height * 4
    ensures var swap := (f: Geometry.Frame, a: int) => Geometry.Frame(f.height, f.width);
      var h1 := PixelSorter.PixelSort(h, p, rotate, binarise, blank).0;
      && OutputFrame(width, height, 90, swap) == Geometry.Frame(height, width)
      && PixelSorter.HandleWorkerMessage(h1, FilterWorker.Result(data), swap).1
         == PixelSorter.Resolved(Geometry.Frame(width, height))
  {
    var swap := (f: Geometry.Frame, a: int) => Geometry.Frame(f.height, f.width);
    PixelSorter.RotatedOutputHasOriginalSize(h, p, rotate, binarise, blank, swap, data);
  }
}

=== FILE: legacy_sorter.dfy ===
/** The older row sorter under `src/utils`: the same span walk and mask test as the filters'
    sorter, but a run stays unsorted when the draw times 100 is below the randomness, so
    randomness is a percentage here. */
module LegacySorter {
  import opened Pixels
  import opened Canvas
  import opened Sorting
  import Sorter

  /** One run as it enters the row: as collected when `draw * 100 < randomness`, sorted
      otherwise. It is the filters' step at a randomness a hundred times smaller. */
  function Emit(key: Pixel -> real, run: seq<Pixel>, draw: real, randomness: real): (out: seq<Pixel>)
    ensures multiset(out) == multiset(run) && |out| == |run|
    ensures draw * 100.0 < randomness ==> out == run
    ensures draw * 100.0 >= randomness ==> Sorter.SortedBy(key, out)
    ensures out == Sorter.Emit(key, run, draw, randomness / 100.0)
  {
    if draw * 100.0 < randomness then run else Sorter.SortInterval(key, run)
  }

  /** The emitted runs of a row under the legacy draw test, from column `minX` on with the
      j0-th draw of the row first. */
  function EmittedRuns(image: ImageData, mask: Option<ImageData>, y: int, cuts: seq<int>, minX: int, j0: int,
                       key: Pixel -> real, randomness: real, coin: (int, int) -> real): (runs: seq<seq<Pixel>>)
    requires Sorter.RowFits(image, mask, y, cuts) && Sorter.CutsFrom(cuts, minX)
    ensures |runs| == |cuts|
    ensures runs == Sorter.EmittedRuns(image, mask, y, cuts, minX, j0, key, randomness / 100.0, coin)
    decreases |cuts|
  {
    if |cuts| == 0 then []
    else
      [Emit(key, Sorter.Run(image, mask, y, minX, cuts[0]), coin(y, j0), randomness)]
      + EmittedRuns(image, mask, y, cuts[1..], cuts[0], j0 + 1, key, randomness, coin)
  }

  /** `sortImage`: one row per y; row y is the legacy runs of `intervals[y]` followed by
      `width`, joined in order. */
  function SortImage(width: int, height: int, image: ImageData, mask: Option<ImageData>,
                     intervals: seq<seq<int>>, randomness: real, key: Pixel -> real,
                     coin: (int, int) -> real): (rows: seq<seq<Pixel>>)
    requires Sorter.Sortable(width, height, image, mask, intervals)
    ensures |rows| == Sorter.Max(height, 0)
    ensures forall y :: 0 <= y < |rows| ==>
      Sorter.RowFits(image, mask, y, intervals[y] + [width]) && Sorter.CutsFrom(intervals[y] + [width], 0) &&
      rows[y] == Sorter.Concat(EmittedRuns(image, mask, y, intervals[y] + [width], 0, 0, key, randomness, coin))
  {
    Sorter.SortImage(width, height, image, mask, intervals, randomness / 100.0, key, coin)
  }

  /** With draws in [0, 1), a randomness of 0 or less sorts every run and one of 100 or more
      sorts none. */
  lemma RandomnessExtremes(key: Pixel -> real, run: seq<Pixel>, draw: real, randomness: real)
    requires 0.0 <= draw < 1.0
    ensures randomness <= 0.0 ==> Emit(key, run, draw, randomness) == Sorter.SortInterval(key, run)
    ensures randomness >= 100.0 ==> Emit(key, run, draw, randomness) == run
  {
  }

  /** A randomness meant for the filters' 0..1 scale leaves almost every run sorted here:
      0.5 keeps a run unsorted only for draws below 0.005. */
  lemma ScaleMismatch(key: Pixel -> real, run: seq<Pixel>, draw: real)
    requires 0.005 <= draw < 1.0
    ensures Emit(key, run, draw, 0.5) == Sorter.SortInterval(key, run)
    ensures draw < 0.5 ==> Sorter.Emit(key, run, draw, 0.5) == run
  {
  }
}

=== FILE: legacy_sorting.dfy ===
/** The older copy of the sort keys under `src/utils`. Its five key formulas are the same
    expressions as the filters' ones, so the model shares `Sorting.Key`; only the selector
    has its own name and a plain (never missing) tag. */
module LegacySorting {
  import opened Pixels
  import opened Sorting

  /** `getSortingFunction`: each known tag selects its own key; anything else falls back to
      lightness, exactly as the filters' selector does for a present tag. */
  function GetSortingFunction(fn: string): (k: SortKey)
    ensures fn == "hue" <==> k == ByHue
    ensures fn == "intensity" <==> k == ByIntensity
    ensures fn == "minimum" <==> k == ByMinimum
    ensures fn == "saturation" <==> k == BySaturation
    ensures k == GetSortingFunctionByType(Some(fn))
  {
    match fn
    case "hue" => ByHue
    case "intensity" => ByIntensity
    case "minimum" => ByMinimum
    case "saturation" => BySaturation
    case _ => ByLightness
  }

  /** Any tag outside the five names, including the empty one, sorts by lightness. */
  lemma UnknownTagIsLightness(fn: string)
    requires fn !in {"hue", "intensity", "minimum", "saturation"}
    ensures GetSortingFunction(fn) == ByLightness
    ensures forall p: Pixel :: Key(GetSortingFunction(fn), p) == Lightness(p)
  {
  }
}

=== FILE: numbers.dfy ===
/** The few JavaScript number conversions the model needs, over mathematical numbers:
    `Math.round`, decimal printing of integers, `toFixed(2)`, and `parseFloat`. */
module Numbers {

  /** `Math.round`: the nearest integer, halves going towards +infinity. */
  function Round(x: real): (n: int)
    ensures x - 0.5 < n as real <= x + 0.5
  {
    (x + 0.5).Floor
  }

  predicate IsDigit(c: char) {
    '0' <= c <= '9'
  }

  function DigitChar(d: int): (c: char)
    requires 0 <= d < 10
    ensures IsDigit(c)
  {
    "0123456789"[d]
  }

  function DigitValue(c: char): (d: nat)
    requires IsDigit(c)
    ensures d < 10
  {
    (c as int - '0' as int)
  }

  lemma DigitRoundTrip(d: int)
    requires 0 <= d < 10
    ensures DigitValue(DigitChar(d)) == d
  {
  }

  predicate AllDigits(s: string) {
    forall i :: 0 <= i < |s| ==> IsDigit(s[i])
  }

  /** Decimal text of a natural number, without leading zeros. */
  function NatToString(n: nat): (s: string)
    ensures |s| > 0 && AllDigits(s)
    decreases n
  {
    if n < 10 then [DigitChar(n)] else NatToString(n / 10) + [DigitChar(n % 10)]
  }

  /** `String(n)` for an integer `n`. */
  function IntToString(n: int): (s: string)
    ensures |s| > 0 && (forall i :: 0 <= i < |s| ==> IsDigit(s[i]) || s[i] == '-')
  {
    if n < 0 then "-" + NatToString(-n) else NatToString(n)
  }

  /** The two digits of a number below one hundred, zero padded. */
  function TwoDigits(n: int): (s: string)
    requires 0 <= n < 100
    ensures |s| == 2 && AllDigits(s)
  {
    [DigitChar(n / 10), DigitChar(n % 10)]
  }

  /** Whether `s` ends in a point and two decimals. */
  predicate TwoDecimals(s: string) {
    |s| >= 4 && s[|s| - 3] == '.' && IsDigit(s[|s| - 2]) && IsDigit(s[|s| - 1])
  }

  /** `x.toFixed(2)`: the magnitude rounded to hundredths (a tie goes up), printed with
      exactly two decimals, and a minus sign for a negative `x`. `FixedValue` states what
      it reads back as. */
  function ToFixed2(x: real): (s: string)
    ensures TwoDecimals(s)
    ensures forall i :: 0 <= i < |s| ==> IsDigit(s[i]) || s[i] == '-' || s[i] == '.'
    ensures s[0] == '-' <==> x < 0.0
  {
    Signed(x < 0.0, Round(Abs(x) * 100.0))
  }

  /** A count of hundredths printed as `units.dd`, after a minus sign when `neg` holds. */
  function Signed(neg: bool, n: nat): (s: string)
    ensures TwoDecimals(s)
    ensures forall i :: 0 <= i < |s| ==> IsDigit(s[i]) || s[i] == '-' || s[i] == '.'
    ensures s[0] == '-' <==> neg
  {
    SignedFixed(neg, n);
    if neg then "-" + FixedBody(n)
    else
      assert "" + FixedBody(n) == FixedBody(n);
      FixedBody(n)
  }

  /** A count of hundredths printed with an optional minus sign keeps the two-decimal layout,
      and starts with a minus exactly when one was put there. */
  lemma SignedFixed(neg: bool, n: nat)
    ensures var s := (if neg then "-" else "") + FixedBody(n);
      && TwoDecimals(s) && (s[0] == '-' <==> neg)
      && (forall i :: 0 <= i < |s| ==> IsDigit(s[i]) || s[i] == '-' || s[i] == '.')
  {
    var body := FixedBody(n);
    if neg {
      var s := "-" + body;
      assert forall i :: 1 <= i < |s| ==> s[i] == body[i - 1];
    } else {
      assert "" + body == body;
    }
  }

  /** A count of hundredths reads back as itself, with or without a minus sign in front. */
  lemma SignedFixedValue(n: nat)
    ensures ParseFloat(FixedBody(n)) == Finite(n as real / 100.0)
    ensures ParseFloat("-" + FixedBody(n)) == Finite(-(n as real / 100.0))
  {
    var body := FixedBody(n);
    FixedBodyValue(n);
    assert ("-" + body)[0] == '-' && ("-" + body)[1..] == body;
  }

  function Abs(x: real): (m: real)
    ensures m >= 0.0
  {
    if x < 0.0 then -x else x
  }

  /** A count of hundredths printed as `units.dd`. */
  function FixedBody(n: nat): (s: string)
    ensures |s| > 0 && IsDigit(s[0]) && TwoDecimals(s)
    ensures forall i :: 0 <= i < |s| ==> IsDigit(s[i]) || s[i] == '.'
  {
    NatToString(n / 100) + "." + TwoDigits(n % 100)
  }

  /** The value of a string of digits, most significant first. */
  function DigitsValue(ds: string): (v: nat)
    requires AllDigits(ds)
  {
    if |ds| == 0 then 0 else 10 * DigitsValue(ds[..|ds| - 1]) + DigitValue(ds[|ds| - 1])
  }

  function Pow10(n: nat): (p: nat)
    ensures p > 0
  {
    if n == 0 then 1 else 10 * Pow10(n - 1)
  }

  /** The longest prefix made of digits. */
  function LeadingDigits(s: string): (ds: string)
    ensures AllDigits(ds) && ds <= s
    ensures |ds| < |s| ==> !IsDigit(s[|ds|])
  {
    if |s| > 0 && IsDigit(s[0]) then [s[0]] + LeadingDigits(s[1..]) else ""
  }

  /** A parsed number or NaN. */
  datatype Num = Finite(value: real) | NaN

  /** The digits after a leading decimal point, if there is one. */
  function FractionDigits(rest: string): (fp: string)
    ensures AllDigits(fp)
  {
    if |rest| > 0 && rest[0] == '.' then LeadingDigits(rest[1..]) else ""
  }

  /** The number at the start of an unsigned string, or NaN when there is none. */
  function ParseUnsigned(body: string): Num {
    var ip := LeadingDigits(body);
    var fp := FractionDigits(body[|ip|..]);
    if |ip| == 0 && |fp| == 0 then NaN
    else Finite(DigitsValue(ip) as real + DigitsValue(fp) as real / Pow10(|fp|) as real)
  }

  function Negate(v: Num): Num {
    if v.NaN? then NaN else Finite(-v.value)
  }

  /** `parseFloat`, for an optional sign, integer digits and an optional fraction; text
      after the number is ignored, and a string with no digit in that position is NaN. */
  function ParseFloat(s: string): (r: Num)
    ensures |s| == 0 ==> r == NaN
  {
    if |s| > 0 && s[0] == '-' then Negate(ParseUnsigned(s[1..]))
    else if |s| > 0 && s[0] == '+' then ParseUnsigned(s[1..])
    else ParseUnsigned(s)
  }

  lemma {:induction false} LeadingDigitsOfPrefix(a: string, b: string)
    requires AllDigits(a)
    requires |b| == 0 || !IsDigit(b[0])
    ensures LeadingDigits(a + b) == a
  {
    if |a| > 0 {
      LeadingDigitsOfPrefix(a[1..], b);
      assert (a + b)[1..] == a[1..] + b;
    } else {
      assert a + b == b;
    }
  }

  lemma {:induction false} NatToStringValue(n: nat)
    ensures DigitsValue(NatToString(n)) == n
    decreases n
  {
    var s := NatToString(n);
    if n >= 10 {
      NatToStringValue(n / 10);
      assert s[..|s| - 1] == NatToString(n / 10);
      DigitRoundTrip(n % 10);
    } else {
      DigitRoundTrip(n);
    }
  }

  /** Printing a natural number and parsing it back gives the number. */
  lemma ParseNat(n: nat, tail: string)
    requires |tail| == 0 || !IsDigit(tail[0])
    ensures LeadingDigits(NatToString(n) + tail) == NatToString(n)
    ensures DigitsValue(NatToString(n)) == n
  {
    LeadingDigitsOfPrefix(NatToString(n), tail);
    NatToStringValue(n);
  }

  lemma UnsignedNat(n: nat)
    ensures ParseUnsigned(NatToString(n)) == Finite(n as real)
  {
    var body := NatToString(n);
    ParseNat(n, "");
    assert body + "" == body;
    assert body[|body|..] == "";
  }

  /** `parseFloat(String(n)) == n` for every integer. */
  lemma {:induction false} IntRoundTrip(n: int)
    ensures ParseFloat(IntToString(n)) == Finite(n as real)
  {
    var s := IntToString(n);
    if n < 0 {
      UnsignedNat(-n);
      assert s[1..] == NatToString(-n);
    } else {
      UnsignedNat(n);
      assert IsDigit(s[0]);
    }
  }

  /** Printing integers is injective. */
  lemma IntToStringInjective(a: int, b: int)
    requires IntToString(a) == IntToString(b)
    ensures a == b
  {
    IntRoundTrip(a);
    IntRoundTrip(b);
  }

  /** A real that is a whole number of hundredths. */
  predicate Hundredths(x: real) {
    (x * 100.0).Floor as real == x * 100.0
  }

  lemma {:induction false} UnsignedFixed(q: nat, r: int)
    requires 0 <= r < 100
    ensures ParseUnsigned(NatToString(q) + "." + TwoDigits(r)) == Finite(q as real + r as real / 100.0)
  {
    var ip, fp := NatToString(q), TwoDigits(r);
    var body := ip + "." + fp;
    ParseNat(q, "." + fp);
    assert body == ip + ("." + fp);
    assert body[|ip|..] == "." + fp;
    assert ("." + fp)[1..] == fp;
    LeadingDigitsOfPrefix(fp, "");
    assert fp + "" == fp;
    assert FractionDigits(body[|ip|..]) == fp;
    assert DigitsValue(fp) == r by {
      assert fp[..1] == [DigitChar(r / 10)];
      DigitRoundTrip(r / 10);
      DigitRoundTrip(r % 10);
      assert DigitsValue(fp[..1]) == r / 10 by {
        assert fp[..1][..0] == "";
      }
    }
    assert Pow10(2) == 100;
  }

  lemma RoundWholeHundredths(x: real)
    requires Hundredths(x)
    ensures Round(Abs(x) * 100.0) as real == Abs(x) * 100.0
  {
    var y := x * 100.0;
    var k := y.Floor;
    assert k as real == y;
    var j := if x < 0.0 then -k else k;
    assert Abs(x) * 100.0 == j as real;
    RoundOfInteger(j);
  }

  lemma RoundOfInteger(j: int)
    ensures Round(j as real) == j
  {
    var n := Round(j as real);
    assert j as real - 0.5 < n as real <= j as real + 0.5;
  }

  lemma FixedBodyValue(n: nat)
    ensures ParseUnsigned(FixedBody(n)) == Finite(n as real / 100.0)
  {
    UnsignedFixed(n / 100, n % 100);
    assert (n / 100) as real + (n % 100) as real / 100.0 == n as real / 100.0;
  }

  /** Rounding to hundredths and putting the sign back gives `x` exactly for whole hundredths. */
  lemma RoundedHundredths(x: real)
    ensures var n := Round(Abs(x) * 100.0);
      (if x < 0.0 then -(n as real / 100.0) else n as real / 100.0) == x <==> Hundredths(x)
  {
    var n := Round(Abs(x) * 100.0);
    var v := if x < 0.0 then -(n as real / 100.0) else n as real / 100.0;
    if Hundredths(x) {
      RoundWholeHundredths(x);
    }
    if v == x {
      var j := if x < 0.0 then -n else n;
      assert x * 100.0 == j as real;
      assert (x * 100.0).Floor == j;
    }
  }

  /** `parseFloat(x.toFixed(2)) == x` exactly when nothing is lost by the rounding, that is
      for whole hundredths. */
  lemma FixedRoundTrip(x: real)
    ensures ParseFloat(ToFixed2(x)) == Finite(x) <==> Hundredths(x)
  {
    FixedValue(x);
    RoundedHundredths(x);
  }

  /** `parseFloat(x.toFixed(2))` is the magnitude of `x` rounded to hundredths, with the
      sign of `x`. */
  lemma FixedValue(x: real)
    ensures var n := Round(Abs(x) * 100.0);
      ParseFloat(ToFixed2(x)) == Finite(if x < 0.0 then -(n as real / 100.0) else n as real / 100.0)
  {
    var n := Round(Abs(x) * 100.0);
    SignedFixedValue(n);
    if x >= 0.0 {
      assert "" + FixedBody(n) == FixedBody(n);
    }
  }
}

=== FILE: pixel_sorter.dfy ===
/** The host side of a sort: it rotates the source (through the rotation cache), picks and
    binarises the mask (through the mask cache), scales the settings for the worker, and keeps
    the single pending job whose promise the worker's answer settles. Canvas drawing is
    passed in as functions: `rotate` for `cacheCanvas(rotateCanvas(..))`, `binarise` for
    `cacheCanvas(applyThreshold(..))`, `blank` for `createCanvas`, and `rotateFrame` for the
    rotation of the output. Only sizes and identities of canvases are modelled here. */
module PixelSorter {
  import opened Pixels
  import opened Numbers
  import opened Cache
  import opened Geometry
  import FilterWorker

  /** A cached canvas: its id and its size. */
  datatype Surface = Surface(id: string, width: int, height: int)

  datatype Size = Size(width: int, height: int)

  /** The call's parameters; a missing one takes its default. */
  datatype Params = Params(
    image: Surface, maskImage: Option<Surface>,
    randomness: Option<real>, charLength: Option<real>,
    sortingType: Option<string>, intervalFunction: Option<string>,
    lowerThreshold: Option<real>, upperThreshold: Option<real>, angle: Option<int>)

  /** What is posted to the worker. */
  datatype WorkerRequest = WorkerRequest(
    image: Surface, mask: Surface,
    lowerThreshold: real, upperThreshold: real, charLength: int, randomness: real,
    intervalFunction: string, sortingType: string, size: Size)

  datatype Job = Job(size: Size, orgSize: Size, angle: int)

  datatype Host = Host(caches: Caches<Surface>, job: Option<Job>)

  function Or<T>(o: Option<T>, default: T): (v: T)
    ensures o.Some? ==> v == o.value
    ensures o.None? ==> v == default
  {
    if o.Some? then o.value else default
  }

  /** Whether the angle is a real rotation. JavaScript's `%` keeps the dividend's sign, but
      the remainder is zero for exactly the same angles as here. */
  predicate HasRotation(angle: int) {
    angle % 360 != 0
  }

  /** The canvas to sort: the source itself without rotation, else the cached rotation, else
      a fresh rotation that is then cached under (id, angle). */
  function RotatedSource(caches: Caches<Surface>, image: Surface, angle: int,
                         rotate: (Surface, int) -> Surface): (r: (Surface, Caches<Surface>))
    ensures !HasRotation(angle) ==> r == (image, caches)
    ensures HasRotation(angle) && GetCachedRotation(caches, image.id, angle).Some? ==>
      r == (GetCachedRotation(caches, image.id, angle).value, caches)
    ensures HasRotation(angle) && GetCachedRotation(caches, image.id, angle).None? ==>
      r.0 == rotate(image, angle) && r.1 == SetCachedRotation(caches, image.id, angle, r.0)
    ensures r.1.mask == caches.mask
    ensures HasRotation(angle) ==> GetCachedRotation(r.1, image.id, angle) == Some(r.0)
  {
    if !HasRotation(angle) then (image, caches)
    else
      match GetCachedRotation(caches, image.id, angle)
      case Some(cached) => (cached, caches)
      case None =>
        var rotated := rotate(image, angle);
        RotationGetAfterSet(caches, image.id, angle, rotated, image.id, angle);
        (rotated, SetCachedRotation(caches, image.id, angle, rotated))
  }

  /** The key of the mask cache: the supplied mask's id, else the id of the canvas being
      sorted (after rotation). */
  function MaskKey(image: Surface, maskImage: Option<Surface>): string {
    if maskImage.Some? then maskImage.value.id else image.id
  }

  /** The mask: the cached one under its key, else the binarised supplied mask (or a blank
      canvas of the image's size), which is then cached under that key. */
  function MaskFor(caches: Caches<Surface>, image: Surface, maskImage: Option<Surface>,
                   binarise: Surface -> Surface, blank: (int, int) -> Surface): (r: (Surface, Caches<Surface>))
    ensures GetCachedMask(caches, MaskKey(image, maskImage)).Some? ==>
      r == (GetCachedMask(caches, MaskKey(image, maskImage)).value, caches)
    ensures GetCachedMask(caches, MaskKey(image, maskImage)).None? ==>
      && r.0 == binarise(if maskImage.Some? then maskImage.value else blank(image.width, image.height))
      && r.1 == SetCachedMask(caches, MaskKey(image, maskImage), r.0)
    ensures r.1.rotation == caches.rotation
    ensures GetCachedMask(r.1, MaskKey(image, maskImage)) == Some(r.0)
  {
    var key := MaskKey(image, maskImage);
    match GetCachedMask(caches, key)
    case Some(cached) => (cached, caches)
    case None =>
      var mask := binarise(if maskImage.Some? then maskImage.value else blank(image.width, image.height));
      (mask, SetCachedMask(caches, key, mask))
  }

  /** `pixelsort` up to the point where it posts to the worker: the new host state and the
      request. */
  function PixelSort(h: Host, p: Params, rotate: (Surface, int) -> Surface,
                     binarise: Surface -> Surface, blank: (int, int) -> Surface): (r: (Host, WorkerRequest))
    ensures var angle := Or(p.angle, 0);
      var (image, afterRotation) := RotatedSource(h.caches, p.image, angle, rotate);
      && r.1.image == image
      && r.1.size == Size(image.width, image.height)
      && (r.1.mask, r.0.caches) == MaskFor(afterRotation, image, p.maskImage, binarise, blank)
      && r.0.job == Some(Job(Size(image.width, image.height), Size(p.image.width, p.image.height), angle))
    ensures r.1.charLength == Round(Or(p.charLength, 0.5) * 400.0)
    ensures r.1.lowerThreshold == Or(p.lowerThreshold, 0.25) * 255.0
    ensures r.1.upperThreshold == Or(p.upperThreshold, 0.8) * 255.0
    ensures r.1.randomness == Or(p.randomness, 0.0)
    ensures r.1.sortingType == Or(p.sortingType, "lightness")
    ensures r.1.intervalFunction == Or(p.intervalFunction, "threshold")
  {
    var angle := Or(p.angle, 0);
    var (image, afterRotation) := RotatedSource(h.caches, p.image, angle, rotate);
    var (mask, caches) := MaskFor(afterRotation, image, p.maskImage, binarise, blank);
    var size := Size(image.width, image.height);
    var job := Job(size, Size(p.image.width, p.image.height), angle);
    var request := WorkerRequest(
      image, mask,
      Or(p.lowerThreshold, 0.25) * 255.0, Or(p.upperThreshold, 0.8) * 255.0,
      Round(Or(p.charLength, 0.5) * 400.0), Or(p.randomness, 0.0),
      Or(p.intervalFunction, "threshold"), Or(p.sortingType, "lightness"), size);
    (Host(caches, Some(job)), request)
  }

  /** Repeating a call reuses both cached canvases: the second call sends the same image and
      mask and adds nothing to either cache, so each rotation and each mask is computed at
      most once per key. */
  lemma RepeatHitsCaches(h: Host, p: Params, rotate: (Surface, int) -> Surface,
                         binarise: Surface -> Surface, blank: (int, int) -> Surface)
    ensures var (h1, r1) := PixelSort(h, p, rotate, binarise, blank);
      var (h2, r2) := PixelSort(h1, p, rotate, binarise, blank);
      r2.image == r1.image && r2.mask == r1.mask && h2.caches == h1.caches
  {
    var angle := Or(p.angle, 0);
    var (h1, r1) := PixelSort(h, p, rotate, binarise, blank);
    var (image, afterRotation) := RotatedSource(h.caches, p.image, angle, rotate);
    var (mask, caches) := MaskFor(afterRotation, image, p.maskImage, binarise, blank);
    if HasRotation(angle) {
      assert GetCachedRotation(h1.caches, p.image.id, angle) == Some(image);
    }
  }

  /** Every call replaces whatever job was pending before. */
  lemma CallReplacesJob(h: Host, h': Host, p: Params, rotate: (Surface, int) -> Surface,
                        binarise: Surface -> Surface, blank: (int, int) -> Surface)
    requires h.caches == h'.caches
    ensures PixelSort(h, p, rotate, binarise, blank) == PixelSort(h', p, rotate, binarise, blank)
  {
  }

  /** How the promise of the pending job stands after a worker message. */
  datatype Settled = Unsettled | Resolved(output: Frame) | Rejected

  /** Whether `new ImageData(bytes, width, height)` accepts a worker's result for a job of
      this size: both sides positive and exactly four bytes per pixel. */
  predicate Fits(size: Size, data: seq<Byte>) {
    FilterWorker.NewImageData(FilterWorker.PixelBuffer(size.width, size.height, data)).Some?
  }

  /** `handleWorkerMessage`: ignored without a job; a result that fits the job's size resolves
      the job with a canvas of that size, turned back by the angle and cropped to the original
      size when the job had a rotation; a result that does not fit makes the `ImageData`
      constructor throw before anything settles, so the job stays pending; an error rejects
      the job; resolving and rejecting both clear it, and progress changes nothing. */
  function HandleWorkerMessage(h: Host, msg: FilterWorker.Reply, rotateFrame: (Frame, int) -> Frame): (r: (Host, Settled))
    ensures h.job.None? ==> r == (h, Unsettled)
    ensures msg.Progress? ==> r == (h, Unsettled)
    ensures h.job.Some? && msg.Error? ==> r == (h.(job := None), Rejected)
    ensures h.job.Some? && msg.Result? ==>
      var size := h.job.value.size;
      (r.1.Resolved? <==> size.width > 0 && size.height > 0 && |msg.data| == size.width * size.height * 4)
    ensures h.job.Some? && msg.Result? && !r.1.Resolved? ==> r == (h, Unsettled)
    ensures h.job.Some? && msg.Result? && r.1.Resolved? ==>
      var job := h.job.value;
      && r.0 == h.(job := None)
      && r.1.output == if HasRotation(job.angle) then Frame(job.orgSize.width, job.orgSize.height)
                       else Frame(job.size.width, job.size.height)
  {
    if h.job.None? then (h, Unsettled)
    else
      var job := h.job.value;
      match msg
      case Progress(_) => (h, Unsettled)
      case Error => (h.(job := None), Rejected)
      case Result(data) =>
        if !Fits(job.size, data) then (h, Unsettled)
        else
          var output := Frame(job.size.width, job.size.height);
          var output' := if HasRotation(job.angle)
            then CropCanvas(rotateFrame(output, -job.angle), job.orgSize.width, job.orgSize.height).0
            else output;
          (h.(job := None), Resolved(output'))
  }

  /** A sort whose worker posts its milestones and then a result of the image's size settles
      exactly once, at the result, with the output at the size of the image that was passed
      in. */
  lemma RoundTripSize(h: Host, p: Params, rotate: (Surface, int) -> Surface, binarise: Surface -> Surface,
                      blank: (int, int) -> Surface, rotateFrame: (Frame, int) -> Frame, data: seq<Byte>)
    requires !HasRotation(Or(p.angle, 0))
    requires p.image.width > 0 && p.image.height > 0 && |data| == p.image.width * p.image.height * 4
    ensures var h1 := PixelSort(h, p, rotate, binarise, blank).0;
      var (h2, s2) := HandleWorkerMessage(h1, FilterWorker.Progress(20), rotateFrame);
      var (h3, s3) := HandleWorkerMessage(h2, FilterWorker.Result(data), rotateFrame);
      var (h4, s4) := HandleWorkerMessage(h3, FilterWorker.Error, rotateFrame);
      && s2 == Unsettled && s3 == Resolved(Frame(p.image.width, p.image.height))
      && h4.job.None? && s4 == Unsettled
  {
  }

  /** With a rotation, a result of the rotated image's size is cropped back to the size of
      the image passed in, whatever size the rotations produce. */
  lemma RotatedOutputHasOriginalSize(h: Host, p: Params, rotate: (Surface, int) -> Surface,
                                     binarise: Surface -> Surface, blank: (int, int) -> Surface,
                                     rotateFrame: (Frame, int) -> Frame, data: seq<Byte>)
    requires HasRotation(Or(p.angle, 0))
    requires var size := PixelSort(h, p, rotate, binarise, blank).1.size;
      size.width > 0 && size.height > 0 && |data| == size.width * size.height * 4
    ensures var h1 := PixelSort(h, p, rotate, binarise, blank).0;
      HandleWorkerMessage(h1, FilterWorker.Result(data), rotateFrame).1 == Resolved(Frame(p.image.width, p.image.height))
  {
  }

  /** A second call overwrites the pending job, so the first job's answer arrives at the
      second job: when its bytes do not make an image of the second job's size, it is refused
      and the second job stays pending, and the second job's own result then resolves it. */
  lemma StaleResultKeepsJob(h: Host, p: Params, rotate: (Surface, int) -> Surface, binarise: Surface -> Surface,
                            blank: (int, int) -> Surface, rotateFrame: (Frame, int) -> Frame,
                            stale: seq<Byte>, data: seq<Byte>)
    requires !HasRotation(Or(p.angle, 0))
    requires |stale| != p.image.width * p.image.height * 4
    requires p.image.width > 0 && p.image.height > 0 && |data| == p.image.width * p.image.height * 4
    ensures var h1 := PixelSort(h, p, rotate, binarise, blank).0;
      var (h2, s2) := HandleWorkerMessage(h1, FilterWorker.Result(stale), rotateFrame);
      var (h3, s3) := HandleWorkerMessage(h2, FilterWorker.Result(data), rotateFrame);
      && h2 == h1 && h1.job.Some? && s2 == Unsettled
      && h3.job.None? && s3 == Resolved(Frame(p.image.width, p.image.height))
  {
  }
}

=== FILE: pixels.dfy ===
/** Basic values shared by every part of the model: channel bytes, RGBA pixels and an
    optional value for JavaScript's `undefined`. */
module Pixels {

  /** One channel of a `Uint8ClampedArray`. */
  type Byte = x: int | 0 <= x < 256

  /** An RGBA pixel as the four-element arrays `getPixel` returns. */
  datatype Pixel = Pixel(r: Byte, g: Byte, b: Byte, a: Byte)

  /** The pixel a freshly created `ImageData` holds everywhere: transparent black. */
  const Blank: Pixel := Pixel(0, 0, 0, 0)

  /** A value or JavaScript's `undefined`. */
  datatype Option<+T> = None | Some(value: T)

  function Max3(a: int, b: int, c: int): (m: int)
    ensures m == a || m == b || m == c
    ensures a <= m && b <= m && c <= m
  {
    if a >= b && a >= c then a else if b >= c then b else c
  }

  function Min3(a: int, b: int, c: int): (m: int)
    ensures m == a || m == b || m == c
    ensures m <= a && m <= b && m <= c
  {
    if a <= b && a <= c then a else if b <= c then b else c
  }
}

=== FILE: render_service.dfy ===
/** The throttle in front of the sorter. One render runs at a time; a request that comes in
    while one is pending waits in a single slot, and a newer request evicts (rejects) the one
    waiting there. When a render finishes, its promise resolves (to nothing if the sort
    failed) and the next animation frame clears the pending flag and starts the waiting
    request, emptying the slot first. Requests are identified by numbers; the asynchronous
    parts become events. */
module RenderService {
  import opened Pixels

  /** A render request, identified by its caller. */
  type Request = int

  /** `renderPending`, the render in flight, whether a frame callback is scheduled, and
      `nextRender`. */
  datatype State = State(pending: bool, running: Option<Request>, awaitingFrame: bool, next: Option<Request>)

  const Idle: State := State(false, None, false, None)

  /** The render in flight finishes (`ok` false: the sort threw), or the scheduled animation
      frame fires, or a new request arrives. */
  datatype Event = Submit(r: Request) | Complete(ok: bool) | Frame

  /** A render started; a waiting request's promise rejected; a render's promise resolved,
      with the sorted canvas or (`sorted` false) with nothing. */
  datatype Output = Started(r: Request) | Rejected(r: Request) | Resolved(r: Request, sorted: bool)

  /** Pending means a render is in flight or its frame callback is still to come, never
      both; and something only waits while a render is pending. */
  predicate Inv(s: State) {
    && (s.pending <==> s.running.Some? || s.awaitingFrame)
    && !(s.running.Some? && s.awaitingFrame)
    && (s.next.Some? ==> s.pending)
  }

  function Step(s: State, e: Event): (res: (State, seq<Output>))
    ensures Inv(s) ==> Inv(res.0)
    ensures e.Submit? && !s.pending ==>
      res == (s.(pending := true, running := Some(e.r)), [Started(e.r)])
    ensures e.Submit? && s.pending ==>
      && res.0 == s.(next := Some(e.r))
      && res.1 == (if s.next.Some? then [Rejected(s.next.value)] else [])
    ensures e.Complete? && s.running.Some? ==>
      && res.0 == s.(running := None, awaitingFrame := true)
      && res.1 == [Resolved(s.running.value, e.ok)]
    ensures e.Frame? && s.awaitingFrame && s.next.None? ==>
      res == (s.(pending := false, awaitingFrame := false), [])
    ensures e.Frame? && s.awaitingFrame && s.next.Some? ==>
      && res.0 == State(true, s.next, false, None)
      && res.1 == [Started(s.next.value)]
    ensures (e.Complete? && s.running.None?) || (e.Frame? && !s.awaitingFrame) ==> res == (s, [])
  {
    match e
    case Submit(r) =>
      if s.pending then
        (s.(next := Some(r)), if s.next.Some? then [Rejected(s.next.value)] else [])
      else
        (s.(pending := true, running := Some(r)), [Started(r)])
    case Complete(ok) =>
      if s.running.None? then (s, [])
      else (s.(running := None, awaitingFrame := true), [Resolved(s.running.value, ok)])
    case Frame =>
      if !s.awaitingFrame then (s, [])
      else
        var cleared := s.(pending := false, awaitingFrame := false);
        if cleared.next.None? then (cleared, [])
        else
          // `execute` empties the slot and then calls `applyFilters`, which now starts it
          (cleared.(next := None, pending := true, running := s.next), [Started(s.next.value)])
  }

  /** The outputs of a sequence of events, and the state after them. */
  function Run(s: State, events: seq<Event>): (res: (State, seq<Output>))
    requires Inv(s)
    ensures Inv(res.0)
    decreases |events|
  {
    if |events| == 0 then (s, [])
    else
      var (s1, out1) := Step(s, events[0]);
      var (s2, out2) := Run(s1, events[1..]);
      (s2, out1 + out2)
  }

  function Submissions(events: seq<Event>): nat {
    if |events| == 0 then 0 else (if events[0].Submit? then 1 else 0) + Submissions(events[1..])
  }

  function CountStarted(outs: seq<Output>): nat {
    if |outs| == 0 then 0 else (if outs[0].Started? then 1 else 0) + CountStarted(outs[1..])
  }

  function CountRejected(outs: seq<Output>): nat {
    if |outs| == 0 then 0 else (if outs[0].Rejected? then 1 else 0) + CountRejected(outs[1..])
  }

  function CountResolved(outs: seq<Output>): nat {
    if |outs| == 0 then 0 else (if outs[0].Resolved? then 1 else 0) + CountResolved(outs[1..])
  }

  lemma {:induction false} CountsAppend(a: seq<Output>, b: seq<Output>)
    ensures CountStarted(a + b) == CountStarted(a) + CountStarted(b)
    ensures CountRejected(a + b) == CountRejected(a) + CountRejected(b)
    ensures CountResolved(a + b) == CountResolved(a) + CountResolved(b)
  {
    if |a| > 0 {
      CountsAppend(a[1..], b);
      assert (a + b)[1..] == a[1..] + b;
    } else {
      assert a + b == b;
    }
  }

  function Waiting(s: State): nat {
    if s.next.Some? then 1 else 0
  }

  function InFlight(s: State): nat {
    if s.running.Some? then 1 else 0
  }

  /** No request is lost: every submission is started, rejected, or still waiting; and every
      started render resolves or is still in flight. */
  lemma {:induction false} Accounting(s: State, events: seq<Event>)
    requires Inv(s)
    ensures var (s', outs) := Run(s, events);
      && Submissions(events) + Waiting(s) == CountStarted(outs) + CountRejected(outs) + Waiting(s')
      && CountStarted(outs) + InFlight(s) == CountResolved(outs) + InFlight(s')
    decreases |events|
  {
    if |events| > 0 {
      var (s1, out1) := Step(s, events[0]);
      var (s2, out2) := Run(s1, events[1..]);
      Accounting(s1, events[1..]);
      CountsAppend(out1, out2);
    }
  }

  /** Three requests in quick succession: the first starts, the third evicts the second, and
      once the first render and its frame are done the third starts; a failed sort resolves
      to nothing rather than rejecting. */
  lemma RapidRequests()
    ensures var (s', outs) := Run(Idle, [Submit(1), Submit(2), Submit(3), Complete(true), Frame, Complete(false), Frame]);
      s' == Idle && outs == [Started(1), Rejected(2), Resolved(1, true), Started(3), Resolved(3, false)]
  {
    var events := [Submit(1), Submit(2), Submit(3), Complete(true), Frame, Complete(false), Frame];
    var s3 := State(true, Some(1), false, Some(3));
    RendersFinish();
    assert events[3..] == [Complete(true), Frame, Complete(false), Frame];
    var s2 := State(true, Some(1), false, Some(2));
    RunFirst(s2, events[2..]);
    assert events[2..][1..] == events[3..];
    assert Run(s2, events[2..]).1 == [Rejected(2), Resolved(1, true), Started(3), Resolved(3, false)];
    var s1 := State(true, Some(1), false, None);
    RunFirst(s1, events[1..]);
    assert events[1..][1..] == events[2..];
    assert Run(s1, events[1..]).1 == [Rejected(2), Resolved(1, true), Started(3), Resolved(3, false)];
    RunFirst(Idle, events);
  }

  /** The second half of `RapidRequests`: with request 1 in flight and request 3 waiting,
      the two renders and their frames finish in order and the service is idle again. */
  lemma RendersFinish()
    ensures var r := Run(State(true, Some(1), false, Some(3)), [Complete(true), Frame, Complete(false), Frame]);
      r.0 == Idle && r.1 == [Resolved(1, true), Started(3), Resolved(3, false)]
  {
    var events := [Complete(true), Frame, Complete(false), Frame];
    var s3 := State(true, None, true, None);
    RunFirst(s3, events[3..]);
    assert events[3..][1..] == [];
    assert Run(s3, events[3..]).0 == Idle && Run(s3, events[3..]).1 == [];
    var s2 := State(true, Some(3), false, None);
    RunFirst(s2, events[2..]);
    assert events[2..][1..] == events[3..];
    assert Run(s2, events[2..]).1 == [Resolved(3, false)];
    var s1 := State(true, None, true, Some(3));
    RunFirst(s1, events[1..]);
    assert events[1..][1..] == events[2..];
    assert Run(s1, events[1..]).1 == [Started(3), Resolved(3, false)];
    RunFirst(State(true, Some(1), false, Some(3)), events);
  }

  /** Running a non-empty sequence is one step followed by the rest. */
  lemma RunFirst(s: State, events: seq<Event>)
    requires Inv(s) && |events| > 0
    ensures Run(s, events).0 == Run(Step(s, events[0]).0, events[1..]).0
    ensures Run(s, events).1 == Step(s, events[0]).1 + Run(Step(s, events[0]).0, events[1..]).1
  {
  }

  /** While a render is pending no request starts, except at the frame that ends it. */
  lemma OnlyTheFrameStarts(s: State, e: Event)
    requires Inv(s) && s.pending && !e.Frame?
    ensures CountStarted(Step(s, e).1) == 0
  {
  }

  /** At most one request waits, and while the render in flight has not finished it is the
      most recent request submitted. */
  lemma {:induction false} LatestWaits(s: State, events: seq<Event>, r: Request)
    requires Inv(s) && s.pending && s.running.Some?
    requires |events| > 0 && events[|events| - 1] == Submit(r)
    requires forall i :: 0 <= i < |events| ==> events[i].Submit?
    ensures Run(s, events).0.next == Some(r)
    ensures Run(s, events).0.running == s.running && Run(s, events).0.pending
    decreases |events|
  {
    var s1 := Step(s, events[0]).0;
    if |events| > 1 {
      LatestWaits(s1, events[1..], r);
    }
  }
}

=== FILE: settings_string.dfy ===
/** The one-line text form of a sort setting: nine `_`-separated fields, each a one-letter
    prefix followed by a value, and the positional decoder that reads it back. */
module SettingString {
  import opened Pixels
  import opened Numbers

  /** The settings record. Angle and size are whole numbers; the four tuning values are
      normalised reals; the two tags are free strings. */
  datatype SortSettings = SortSettings(
    width: int, height: int, angle: int,
    randomness: real, charLength: real, lowerThreshold: real, upperThreshold: real,
    sortingType: string, intervalFunction: string)

  /** What decoding yields: every numeric field parsed by `parseFloat`, so possibly NaN,
      and the two tags copied verbatim. */
  datatype DecodedSettings = DecodedSettings(
    width: Num, height: Num, angle: Num,
    randomness: Num, charLength: Num, lowerThreshold: Num, upperThreshold: Num,
    sortingType: string, intervalFunction: string)

  const Separator: char := '_'

  /** JavaScript's `split` on one character: the pieces between separators, with an empty
      piece for every leading, trailing or doubled separator. */
  function Split(s: string, sep: char): (parts: seq<string>)
    ensures |parts| >= 1
  {
    if |s| == 0 then [""]
    else
      var rest := Split(s[1..], sep);
      if s[0] == sep then [""] + rest else [[s[0]] + rest[0]] + rest[1..]
  }

  function Join(parts: seq<string>, sep: char): string
    requires |parts| >= 1
  {
    if |parts| == 1 then parts[0] else parts[0] + [sep] + Join(parts[1..], sep)
  }

  /** `substring(1)`: everything after the first character (nothing for an empty string). */
  function Tail(s: string): string {
    if |s| == 0 then s else s[1..]
  }

  /** The nine fields of `settingToString`, in order. */
  function Fields(st: SortSettings): (fs: seq<string>)
    ensures |fs| == 9
  {
    [ "a" + IntToString(st.angle),
      "l" + ToFixed2(st.lowerThreshold),
      "u" + ToFixed2(st.upperThreshold),
      "r" + ToFixed2(st.randomness),
      "s" + st.sortingType,
      "i" + st.intervalFunction,
      "c" + ToFixed2(st.charLength),
      "w" + IntToString(st.width),
      "h" + IntToString(st.height) ]
  }

  /** `settingToString`. */
  function SettingToString(st: SortSettings): string {
    Join(Fields(st), Separator)
  }

  /** `stringToSetting`: reads the fields by position and drops each one's first character
      without looking at it. With fewer than nine fields, reading a missing one throws
      (`None`); fields after the ninth are never read. */
  function StringToSetting(s: string): (r: Option<DecodedSettings>)
    ensures r.None? <==> |Split(s, Separator)| < 9
    ensures r.Some? ==>
      && r.value.sortingType == Tail(Split(s, Separator)[4])
      && r.value.intervalFunction == Tail(Split(s, Separator)[5])
  {
    var arr := Split(s, Separator);
    if |arr| < 9 then None
    else Some(DecodedSettings(
      angle := ParseFloat(Tail(arr[0])),
      lowerThreshold := ParseFloat(Tail(arr[1])),
      upperThreshold := ParseFloat(Tail(arr[2])),
      randomness := ParseFloat(Tail(arr[3])),
      sortingType := Tail(arr[4]),
      intervalFunction := Tail(arr[5]),
      charLength := ParseFloat(Tail(arr[6])),
      width := ParseFloat(Tail(arr[7])),
      height := ParseFloat(Tail(arr[8]))))
  }

  predicate NoSeparator(s: string) {
    forall i :: 0 <= i < |s| ==> s[i] != Separator
  }

  lemma {:induction false} SplitPrefix(f: string, t: string)
    requires NoSeparator(f)
    ensures Split(f + t, Separator) == [f + Split(t, Separator)[0]] + Split(t, Separator)[1..]
  {
    if |f| > 0 {
      SplitPrefix(f[1..], t);
      assert (f + t)[1..] == f[1..] + t;
      assert [f[0]] + (f[1..] + Split(t, Separator)[0]) == f + Split(t, Separator)[0];
    } else {
      var parts := Split(t, Separator);
      assert f + t == t;
      assert f + parts[0] == parts[0];
      assert parts == [parts[0]] + parts[1..];
    }
  }

  /** Splitting undoes joining when no piece holds the separator. */
  lemma {:induction false} SplitJoin(parts: seq<string>)
    requires |parts| >= 1
    requires forall k :: 0 <= k < |parts| ==> NoSeparator(parts[k])
    ensures Split(Join(parts, Separator), Separator) == parts
  {
    if |parts| == 1 {
      SplitPrefix(parts[0], "");
      assert parts[0] + "" == parts[0];
    } else {
      var rest := Join(parts[1..], Separator);
      SplitJoin(parts[1..]);
      assert Join(parts, Separator) == parts[0] + ([Separator] + rest);
      SplitPrefix(parts[0], [Separator] + rest);
      assert ([Separator] + rest)[1..] == rest;
      assert parts[0] + "" == parts[0];
    }
  }

  /** The fields of an encoding are separator-free when the two tags are. */
  lemma FieldsHaveNoSeparator(st: SortSettings)
    requires NoSeparator(st.sortingType) && NoSeparator(st.intervalFunction)
    ensures forall k :: 0 <= k < 9 ==> NoSeparator(Fields(st)[k])
  {
  }

  /** The encoding splits into exactly its nine fields, prefixed a, l, u, r, s, i, c, w, h
      in that order. */
  lemma EncodingLayout(st: SortSettings)
    requires NoSeparator(st.sortingType) && NoSeparator(st.intervalFunction)
    ensures Split(SettingToString(st), Separator) == Fields(st)
    ensures var fs := Fields(st);
      && fs[0][0] == 'a' && fs[1][0] == 'l' && fs[2][0] == 'u'
      && fs[3][0] == 'r' && fs[4][0] == 's' && fs[5][0] == 'i'
      && fs[6][0] == 'c' && fs[7][0] == 'w' && fs[8][0] == 'h'
  {
    FieldsHaveNoSeparator(st);
    SplitJoin(Fields(st));
  }

  /** The decoded form of a setting that survives the round trip unchanged. */
  function Exact(st: SortSettings): DecodedSettings {
    DecodedSettings(
      Finite(st.width as real), Finite(st.height as real), Finite(st.angle as real),
      Finite(st.randomness), Finite(st.charLength),
      Finite(st.lowerThreshold), Finite(st.upperThreshold),
      st.sortingType, st.intervalFunction)
  }

  /** Decoding an encoding gives the setting back when the four two-decimal values are
      whole hundredths and the tags hold no separator. */
  lemma {:induction false} RoundTrip(st: SortSettings)
    requires Hundredths(st.lowerThreshold) && Hundredths(st.upperThreshold)
    requires Hundredths(st.randomness) && Hundredths(st.charLength)
    requires NoSeparator(st.sortingType) && NoSeparator(st.intervalFunction)
    ensures StringToSetting(SettingToString(st)) == Some(Exact(st))
  {
    var fs := Fields(st);
    FieldsHaveNoSeparator(st);
    DecodeJoined(fs);
    IntRoundTrip(st.angle);
    IntRoundTrip(st.width);
    IntRoundTrip(st.height);
    FixedRoundTrip(st.lowerThreshold);
    FixedRoundTrip(st.upperThreshold);
    FixedRoundTrip(st.randomness);
    FixedRoundTrip(st.charLength);
    TailAfterTag("a", IntToString(st.angle));
    TailAfterTag("l", ToFixed2(st.lowerThreshold));
    TailAfterTag("u", ToFixed2(st.upperThreshold));
    TailAfterTag("r", ToFixed2(st.randomness));
    TailAfterTag("s", st.sortingType);
    TailAfterTag("i", st.intervalFunction);
    TailAfterTag("c", ToFixed2(st.charLength));
    TailAfterTag("w", IntToString(st.width));
    TailAfterTag("h", IntToString(st.height));
  }

  lemma TailAfterTag(tag: string, s: string)
    requires |tag| == 1
    ensures Tail(tag + s) == s
  {
  }

  /** Nine separator-free fields joined and decoded: each value is read from its own field. */
  lemma DecodeJoined(fs: seq<string>)
    requires |fs| == 9 && forall k :: 0 <= k < 9 ==> NoSeparator(fs[k])
    ensures StringToSetting(Join(fs, Separator)) == Some(DecodedSettings(
      angle := ParseFloat(Tail(fs[0])), lowerThreshold := ParseFloat(Tail(fs[1])),
      upperThreshold := ParseFloat(Tail(fs[2])), randomness := ParseFloat(Tail(fs[3])),
      sortingType := Tail(fs[4]), intervalFunction := Tail(fs[5]),
      charLength := ParseFloat(Tail(fs[6])), width := ParseFloat(Tail(fs[7])),
      height := ParseFloat(Tail(fs[8]))))
  {
    SplitJoin(fs);
  }

  /** The setting the round-trip test uses. */
  lemma DefaultSettingRoundTrip()
    ensures var st := SortSettings(300, 300, 0, 0.0, 10.0, 0.25, 0.75, "lightness", "waves");
      StringToSetting(SettingToString(st)) == Some(Exact(st))
  {
    var st := SortSettings(300, 300, 0, 0.0, 10.0, 0.25, 0.75, "lightness", "waves");
    assert Hundredths(0.25) by { assert (0.25 * 100.0).Floor == 25; }
    assert Hundredths(0.75) by { assert (0.75 * 100.0).Floor == 75; }
    assert Hundredths(10.0) by { assert (10.0 * 100.0).Floor == 1000; }
    assert Hundredths(0.0) by { assert (0.0 * 100.0).Floor == 0; }
    RoundTrip(st);
  }

  /** A value with a third decimal does not survive: 0.125 comes back as 0.13. */
  lemma LossyThirdDecimal()
    ensures ParseFloat(ToFixed2(0.125)) == Finite(0.13)
  {
    assert Round(Abs(0.125) * 100.0) == 13;
    var s := ToFixed2(0.125);
    assert s == FixedBody(13);
    FixedBodyValue(13);
    assert ParseFloat(s) == ParseUnsigned(s);
  }

  /** Fields after the ninth are never read. */
  lemma ExtraFieldsIgnored(parts: seq<string>, extra: seq<string>)
    requires |parts| == 9
    requires forall k :: 0 <= k < |parts| ==> NoSeparator(parts[k])
    requires forall k :: 0 <= k < |extra| ==> NoSeparator(extra[k])
    ensures StringToSetting(Join(parts + extra, Separator)) == StringToSetting(Join(parts, Separator))
  {
    SplitJoin(parts);
    SplitJoin(parts + extra);
    assert (parts + extra)[..9] == parts;
  }

  /** A field's first character is not checked: any prefix letters decode the same. */
  lemma PrefixesNotChecked(parts: seq<string>, letters: seq<char>)
    requires |parts| == 9 && |letters| == 9
    requires forall k :: 0 <= k < 9 ==> NoSeparator(parts[k])
    requires forall k :: 0 <= k < 9 ==> letters[k] != Separator
    ensures var relabelled := seq(9, k requires 0 <= k < 9 => [letters[k]] + parts[k]);
      var plain := seq(9, k requires 0 <= k < 9 => "a" + parts[k]);
      StringToSetting(Join(relabelled, Separator)) == StringToSetting(Join(plain, Separator))
  {
    var relabelled := seq(9, k requires 0 <= k < 9 => [letters[k]] + parts[k]);
    var plain := seq(9, k requires 0 <= k < 9 => "a" + parts[k]);
    SplitJoin(relabelled);
    SplitJoin(plain);
    assert forall k :: 0 <= k < 9 ==> Tail(relabelled[k]) == parts[k] == Tail(plain[k]);
  }

  /** A value that does not start like a number decodes to NaN instead of failing. */
  lemma NonNumericIsNaN(parts: seq<string>, junk: string)
    requires |parts| == 9
    requires forall k :: 0 <= k < 9 ==> NoSeparator(parts[k])
    requires Tail(parts[7]) == junk
    requires |junk| > 0 && !IsDigit(junk[0]) && junk[0] !in {'-', '+', '.'}
    ensures var r := StringToSetting(Join(parts, Separator));
      r.Some? && r.value.width == NaN
  {
    SplitJoin(parts);
    assert LeadingDigits(junk) == "";
    assert junk[0..] == junk;
  }
}

=== FILE: sorter.dfy ===
/** The row sorter: each row is cut at its interval positions, the pixels the mask selects
    in each span are collected, and each collected run is either sorted by the sort key or,
    when the row's draw falls below the randomness, left as it is. The draw oracle
    `coin(y, j)` is the `Math.random` value taken for the j-th span of row y. */
module Sorter {
  import opened Pixels
  import opened Canvas
  import opened Sorting

  predicate SortedBy(key: Pixel -> real, s: seq<Pixel>) {
    forall i, j :: 0 <= i < j < |s| ==> key(s[i]) <= key(s[j])
  }

  /** Inserts `p` in front of the first element whose key is not smaller. */
  function Insert(key: Pixel -> real, p: Pixel, s: seq<Pixel>): (r: seq<Pixel>)
    requires SortedBy(key, s)
    ensures SortedBy(key, r)
    ensures multiset(r) == multiset(s) + multiset{p}
    ensures |r| == |s| + 1
    ensures r[0] == p || (|s| > 0 && r[0] == s[0])
  {
    if |s| == 0 then [p]
    else if key(p) <= key(s[0]) then [p] + s
    else
      var rest := Insert(key, p, s[1..]);
      assert s == [s[0]] + s[1..];
      assert key(s[0]) <= key(rest[0]);
      [s[0]] + rest
  }

  /** `sortInterval`: a stable sort by the key (an insertion sort here; the source uses the
      engine's stable `Array.prototype.sort` with the comparator `key(a) - key(b)`). */
  function SortInterval(key: Pixel -> real, run: seq<Pixel>): (r: seq<Pixel>)
    ensures SortedBy(key, r)
    ensures multiset(r) == multiset(run)
    ensures |r| == |run|
    ensures |run| == 0 ==> r == []
    ensures |run| == 1 ==> r == run
  {
    if |run| == 0 then []
    else
      assert run == [run[0]] + run[1..];
      Insert(key, run[0], SortInterval(key, run[1..]))
  }

  /** A mask buffer `getPixel` can be asked about at any non-negative position. Its size is
      free: a position outside it is simply not selected. */
  predicate MaskShaped(mask: ImageData) {
    mask.width >= 0 && |mask.data| % 4 == 0
  }

  /** What collecting a span of row y that ends before column `hi` needs: a shaped mask and a
      valid image that has row y and every column below `hi`. */
  predicate SpanFits(image: ImageData, mask: ImageData, y: int, hi: int) {
    MaskShaped(mask) && Valid(image) && 0 <= y < image.height && hi <= image.width
  }

  lemma IndexNonNegative(img: ImageData, x: int, y: int)
    requires img.width >= 0 && 0 <= x && 0 <= y
    ensures GetIndex(img, x, y) >= 0
  {
    assert y * img.width >= 0 by { ProductMonotone(0, y, img.width); }
  }

  function Selected(mask: ImageData, x: int, y: int): bool
    requires MaskShaped(mask) && 0 <= x && 0 <= y
  {
    IndexNonNegative(mask, x, y);
    GetPixel(mask, x, y).Some?
  }

  /** The image pixel at a position the mask selects. */
  function Picked(image: ImageData, mask: ImageData, x: int, y: int): (p: Pixel)
    requires SpanFits(image, mask, y, x + 1) && 0 <= x && Selected(mask, x, y)
    ensures GetIndex(image, x, y) >= 0 && GetPixel(image, x, y) == Some(p)
  {
    HasPixelInside(image, x, y);
    IndexNonNegative(image, x, y);
    GetPixel(image, x, y).value
  }

  /** The columns of [lo, hi) in row y that the mask selects: exactly those, left to right. */
  function SelectedColumns(mask: ImageData, y: int, lo: int, hi: int): (cols: seq<int>)
    requires MaskShaped(mask) && 0 <= y && 0 <= lo
    ensures forall k :: 0 <= k < |cols| ==> lo <= cols[k] < hi && Selected(mask, cols[k], y)
    ensures forall k, k' :: 0 <= k < k' < |cols| ==> cols[k] < cols[k']
    ensures forall x :: lo <= x < hi && Selected(mask, x, y) ==> x in cols
    decreases hi - lo
  {
    if lo >= hi then []
    else (if Selected(mask, lo, y) then [lo] else []) + SelectedColumns(mask, y, lo + 1, hi)
  }

  /** The run collected from the span [lo, hi) of row y: one image pixel per selected column
      of the span, in column order (`CollectSelected`). */
  function Collect(image: ImageData, mask: ImageData, y: int, lo: int, hi: int): (run: seq<Pixel>)
    requires SpanFits(image, mask, y, hi) && 0 <= lo
    ensures |run| <= if hi > lo then hi - lo else 0
    decreases hi - lo
  {
    if lo >= hi then []
    else
      var rest := Collect(image, mask, y, lo + 1, hi);
      if Selected(mask, lo, y) then [Picked(image, mask, lo, y)] + rest else rest
  }

  /** A span collects exactly the image pixels at its selected columns, left to right. */
  lemma {:induction false} CollectSelected(image: ImageData, mask: ImageData, y: int, lo: int, hi: int)
    requires SpanFits(image, mask, y, hi) && 0 <= lo
    ensures var run, cols := Collect(image, mask, y, lo, hi), SelectedColumns(mask, y, lo, hi);
      |run| == |cols| && forall k :: 0 <= k < |cols| ==> run[k] == Picked(image, mask, cols[k], y)
    decreases hi - lo
  {
    if lo < hi {
      CollectSelected(image, mask, y, lo + 1, hi);
      var rest, rc := Collect(image, mask, y, lo + 1, hi), SelectedColumns(mask, y, lo + 1, hi);
      if Selected(mask, lo, y) {
        assert SelectedColumns(mask, y, lo, hi) == [lo] + rc;
        assert Collect(image, mask, y, lo, hi) == [Picked(image, mask, lo, y)] + rest;
      } else {
        assert SelectedColumns(mask, y, lo, hi) == [] + rc;
        assert Collect(image, mask, y, lo, hi) == rest;
      }
    }
  }

  /** The collected run of a span when there may be no mask: nothing is collected without one. */
  function Run(image: ImageData, mask: Option<ImageData>, y: int, lo: int, hi: int): seq<Pixel>
    requires mask.Some? ==> SpanFits(image, mask.value, y, hi)
    requires 0 <= y && 0 <= lo
  {
    if mask.Some? then Collect(image, mask.value, y, lo, hi) else []
  }

  /** One run as it enters the row: as collected when the draw is below the randomness,
      sorted otherwise. */
  function Emit(key: Pixel -> real, run: seq<Pixel>, draw: real, randomness: real): (out: seq<Pixel>)
    ensures multiset(out) == multiset(run) && |out| == |run|
    ensures draw < randomness ==> out == run
    ensures draw >= randomness ==> SortedBy(key, out)
  {
    if draw < randomness then run else SortInterval(key, run)
  }

  /** With a mask, every span of row y can be collected: each cut stays within the image. */
  predicate RowFits(image: ImageData, mask: Option<ImageData>, y: int, cuts: seq<int>) {
    0 <= y && (mask.Some? ==> forall j :: 0 <= j < |cuts| ==> SpanFits(image, mask.value, y, cuts[j]))
  }

  /** Every span starts at a non-negative column. */
  predicate CutsFrom(cuts: seq<int>, minX: int) {
    (|cuts| > 0 ==> 0 <= minX) && forall j :: 0 <= j < |cuts| - 1 ==> cuts[j] >= 0
  }

  /** The row built from the cuts, starting at column `minX` with the j0-th draw of the row. */
  function SortRow(image: ImageData, mask: Option<ImageData>, y: int, cuts: seq<int>, minX: int,
                   j0: int, key: Pixel -> real, randomness: real, coin: (int, int) -> real): seq<Pixel>
    requires RowFits(image, mask, y, cuts) && CutsFrom(cuts, minX)
    decreases |cuts|
  {
    if |cuts| == 0 then []
    else
      Emit(key, Run(image, mask, y, minX, cuts[0]), coin(y, j0), randomness)
      + SortRow(image, mask, y, cuts[1..], cuts[0], j0 + 1, key, randomness, coin)
  }

  /** The first column of span j. */
  function Start(cuts: seq<int>, minX: int, j: int): int
    requires 0 <= j < |cuts|
  {
    if j == 0 then minX else cuts[j - 1]
  }

  /** Every emitted run of the row, in span order. */
  function EmittedRuns(image: ImageData, mask: Option<ImageData>, y: int, cuts: seq<int>, minX: int,
                       j0: int, key: Pixel -> real, randomness: real, coin: (int, int) -> real): (runs: seq<seq<Pixel>>)
    requires RowFits(image, mask, y, cuts) && CutsFrom(cuts, minX)
    ensures |runs| == |cuts|
    decreases |cuts|
  {
    if |cuts| == 0 then []
    else
      [Emit(key, Run(image, mask, y, minX, cuts[0]), coin(y, j0), randomness)]
      + EmittedRuns(image, mask, y, cuts[1..], cuts[0], j0 + 1, key, randomness, coin)
  }

  /** Emitted run j is span j's: the pixels from the previous cut (`minX` for the first) up to
      cut j, kept or sorted by the row's j-th draw. The span's bounds and draw index are
      named parameters so that every step of the induction speaks of the same run. */
  lemma {:induction false} EmittedRunAt(image: ImageData, mask: Option<ImageData>, y: int, cuts: seq<int>,
                                  minX: int, j0: int, key: Pixel -> real, randomness: real,
                                  coin: (int, int) -> real, j: int, lo: int, hi: int, d: int)
    requires RowFits(image, mask, y, cuts) && CutsFrom(cuts, minX) && 0 <= j < |cuts|
    requires lo == Start(cuts, minX, j) && hi == cuts[j] && d == j0 + j
    ensures 0 <= lo
    ensures EmittedRuns(image, mask, y, cuts, minX, j0, key, randomness, coin)[j]
      == Emit(key, Run(image, mask, y, lo, hi), coin(y, d), randomness)
    decreases j
  {
    if j == 0 {
      FirstEmittedRun(image, mask, y, cuts, minX, j0, key, randomness, coin);
    } else {
      EmittedRunAt(image, mask, y, cuts[1..], cuts[0], j0 + 1, key, randomness, coin, j - 1, lo, hi, d);
      LaterEmittedRun(image, mask, y, cuts, minX, j0, key, randomness, coin, j);
    }
  }

  lemma FirstEmittedRun(image: ImageData, mask: Option<ImageData>, y: int, cuts: seq<int>,
                        minX: int, j0: int, key: Pixel -> real, randomness: real, coin: (int, int) -> real)
    requires RowFits(image, mask, y, cuts) && CutsFrom(cuts, minX) && 0 < |cuts|
    ensures EmittedRuns(image, mask, y, cuts, minX, j0, key, randomness, coin)[0]
      == Emit(key, Run(image, mask, y, minX, cuts[0]), coin(y, j0), randomness)
  {
  }

  lemma LaterEmittedRun(image: ImageData, mask: Option<ImageData>, y: int, cuts: seq<int>,
                        minX: int, j0: int, key: Pixel -> real, randomness: real, coin: (int, int) -> real, j: int)
    requires RowFits(image, mask, y, cuts) && CutsFrom(cuts, minX) && 0 < j < |cuts|
    ensures EmittedRuns(image, mask, y, cuts, minX, j0, key, randomness, coin)[j]
      == EmittedRuns(image, mask, y, cuts[1..], cuts[0], j0 + 1, key, randomness, coin)[j - 1]
  {
  }

  function Concat(runs: seq<seq<Pixel>>): seq<Pixel> {
    if |runs| == 0 then [] else runs[0] + Concat(runs[1..])
  }

  /** The row is its spans' emitted runs joined in order. */
  lemma {:induction false} SortRowIsConcat(image: ImageData, mask: Option<ImageData>, y: int, cuts: seq<int>,
                                           minX: int, j0: int, key: Pixel -> real, randomness: real, coin: (int, int) -> real)
    requires RowFits(image, mask, y, cuts) && CutsFrom(cuts, minX)
    ensures SortRow(image, mask, y, cuts, minX, j0, key, randomness, coin)
      == Concat(EmittedRuns(image, mask, y, cuts, minX, j0, key, randomness, coin))
    decreases |cuts|
  {
    if |cuts| > 0 {
      var runs := EmittedRuns(image, mask, y, cuts, minX, j0, key, randomness, coin);
      SortRowIsConcat(image, mask, y, cuts[1..], cuts[0], j0 + 1, key, randomness, coin);
      assert runs[1..] == EmittedRuns(image, mask, y, cuts[1..], cuts[0], j0 + 1, key, randomness, coin);
    }
  }

  function Max(a: int, b: int): int {
    if a >= b then a else b
  }

  /** Whether a cut list can be walked without reading a negative column. Spreading a missing
      interval row throws in the source, so every row up to `height` must be there. */
  predicate CutsNonNegative(intervals: seq<seq<int>>, height: int) {
    |intervals| >= height &&
    forall y :: 0 <= y < height ==> forall j :: 0 <= j < |intervals[y]| ==> intervals[y][j] >= 0
  }

  /** What `sortImage` needs to read only pixels that exist: non-negative cuts for every row,
      and, when there is a mask, a valid image of at least `width` by `height` and no cut past
      `width`. The mask's own size is free. */
  predicate Sortable(width: int, height: int, image: ImageData, mask: Option<ImageData>, intervals: seq<seq<int>>) {
    && CutsNonNegative(intervals, height)
    && (mask.Some? ==>
          && MaskShaped(mask.value) && Valid(image) && width <= image.width && height <= image.height
          && forall y :: 0 <= y < height ==> forall j :: 0 <= j < |intervals[y]| ==> intervals[y][j] <= width)
  }

  lemma RowCuts(width: int, height: int, image: ImageData, mask: Option<ImageData>, intervals: seq<seq<int>>, y: int)
    requires Sortable(width, height, image, mask, intervals) && 0 <= y < height
    ensures CutsFrom(intervals[y] + [width], 0) && RowFits(image, mask, y, intervals[y] + [width])
  {
  }

  /** `sortImage`: one row per y in [0, height); row y is cut at `intervals[y]` followed by
      `width`. */
  function SortImage(width: int, height: int, image: ImageData, mask: Option<ImageData>,
                     intervals: seq<seq<int>>, randomness: real, key: Pixel -> real,
                     coin: (int, int) -> real): (rows: seq<seq<Pixel>>)
    requires Sortable(width, height, image, mask, intervals)
    ensures |rows| == Max(height, 0)
    ensures forall y :: 0 <= y < |rows| ==>
      RowFits(image, mask, y, intervals[y] + [width]) && CutsFrom(intervals[y] + [width], 0) &&
      rows[y] == Concat(EmittedRuns(image, mask, y, intervals[y] + [width], 0, 0, key, randomness, coin))
  {
    var rows := seq(Max(height, 0), y requires 0 <= y < Max(height, 0) =>
      RowCuts(width, height, image, mask, intervals, y);
      SortRow(image, mask, y, intervals[y] + [width], 0, 0, key, randomness, coin));
    assert forall y :: 0 <= y < |rows| ==>
      RowFits(image, mask, y, intervals[y] + [width]) && CutsFrom(intervals[y] + [width], 0) &&
      rows[y] == Concat(EmittedRuns(image, mask, y, intervals[y] + [width], 0, 0, key, randomness, coin)) by {
      forall y | 0 <= y < |rows|
        ensures RowFits(image, mask, y, intervals[y] + [width]) && CutsFrom(intervals[y] + [width], 0)
        ensures rows[y] == Concat(EmittedRuns(image, mask, y, intervals[y] + [width], 0, 0, key, randomness, coin))
      {
        RowCuts(width, height, image, mask, intervals, y);
        SortRowIsConcat(image, mask, y, intervals[y] + [width], 0, 0, key, randomness, coin);
      }
    }
    rows
  }

  /** With every draw in [0, 1), a randomness of 0 or less sorts every run, and a randomness
      of 1 or more leaves every run as collected. */
  lemma RandomnessExtremes(key: Pixel -> real, run: seq<Pixel>, draw: real, randomness: real)
    requires 0.0 <= draw < 1.0
    ensures randomness <= 0.0 ==> Emit(key, run, draw, randomness) == SortInterval(key, run)
    ensures randomness >= 1.0 ==> Emit(key, run, draw, randomness) == run
  {
  }

  /** Without a mask nothing is collected, so every row is empty. */
  lemma NoMaskNoPixels(image: ImageData, y: int, cuts: seq<int>, minX: int, j0: int,
                       key: Pixel -> real, randomness: real, coin: (int, int) -> real)
    requires 0 <= y && CutsFrom(cuts, minX)
    ensures SortRow(image, None, y, cuts, minX, j0, key, randomness, coin) == []
    decreases |cuts|
  {
    if |cuts| > 0 {
      NoMaskNoPixels(image, y, cuts[1..], cuts[0], j0 + 1, key, randomness, coin);
    }
  }

  // Coverage: with a full mask and ordered cuts, a row is a rearrangement of the image row.

  /** The pixels of row y of a valid image, left to right. */
  function ImageRow(image: ImageData, y: int): (row: seq<Pixel>)
    requires Valid(image) && 0 <= y < image.height
    ensures |row| == image.width
  {
    seq(image.width, x requires 0 <= x < image.width => At(image, x, y))
  }

  /** A mask covering the image: valid and of the image's size. */
  predicate Covers(image: ImageData, mask: ImageData) {
    Valid(image) && Valid(mask) && mask.width == image.width && mask.height == image.height
  }

  lemma {:induction false} CollectCovered(image: ImageData, mask: ImageData, y: int, lo: int, hi: int)
    requires Covers(image, mask) && 0 <= y < image.height && 0 <= lo <= hi <= image.width
    ensures SpanFits(image, mask, y, hi)
    ensures Collect(image, mask, y, lo, hi) == ImageRow(image, y)[lo..hi]
    decreases hi - lo
  {
    if lo < hi {
      HasPixelInside(mask, lo, y);
      CollectCovered(image, mask, y, lo + 1, hi);
      var row := ImageRow(image, y);
      assert Collect(image, mask, y, lo, hi) == [Picked(image, mask, lo, y)] + Collect(image, mask, y, lo + 1, hi);
      SplitSlice(row, lo, lo + 1, hi);
      assert row[lo..lo + 1] == [row[lo]];
    }
  }

  predicate OrderedCuts(cuts: seq<int>, minX: int, width: int) {
    && |cuts| >= 1 && cuts[|cuts| - 1] == width
    && 0 <= minX && (forall j :: 0 <= j < |cuts| ==> minX <= cuts[j] <= width)
    && forall i, j :: 0 <= i < j < |cuts| ==> cuts[i] <= cuts[j]
  }

  /** A row over ordered cuts and a covering mask is a rearrangement of the image row from
      `minX` on, of the same length. */
  lemma {:induction false} CoveredRowPermutes(image: ImageData, mask: ImageData, y: int, cuts: seq<int>, minX: int,
                                              j0: int, key: Pixel -> real, randomness: real, coin: (int, int) -> real)
    requires Covers(image, mask) && 0 <= y < image.height
    requires OrderedCuts(cuts, minX, image.width)
    ensures RowFits(image, Some(mask), y, cuts) && CutsFrom(cuts, minX)
    ensures var row := SortRow(image, Some(mask), y, cuts, minX, j0, key, randomness, coin);
      multiset(row) == multiset(ImageRow(image, y)[minX..image.width]) && |row| == image.width - minX
    decreases |cuts|
  {
    CoveredRowFits(image, mask, y, cuts, minX);
    var full := ImageRow(image, y);
    var w := image.width;
    CollectCovered(image, mask, y, minX, cuts[0]);
    var out := Emit(key, Run(image, Some(mask), y, minX, cuts[0]), coin(y, j0), randomness);
    var rest := SortRow(image, Some(mask), y, cuts[1..], cuts[0], j0 + 1, key, randomness, coin);
    assert SortRow(image, Some(mask), y, cuts, minX, j0, key, randomness, coin) == out + rest;
    assert multiset(out) == multiset(full[minX..cuts[0]]) && |out| == cuts[0] - minX;
    if |cuts| > 1 {
      TailOrdered(cuts, minX, w);
      CoveredRowPermutes(image, mask, y, cuts[1..], cuts[0], j0 + 1, key, randomness, coin);
    } else {
      assert rest == [] && cuts[0] == w;
    }
    assert multiset(rest) == multiset(full[cuts[0]..w]) && |rest| == w - cuts[0];
    SplitSlice(full, minX, cuts[0], w);
  }

  lemma CoveredRowFits(image: ImageData, mask: ImageData, y: int, cuts: seq<int>, minX: int)
    requires Covers(image, mask) && 0 <= y < image.height
    requires OrderedCuts(cuts, minX, image.width)
    ensures RowFits(image, Some(mask), y, cuts) && CutsFrom(cuts, minX)
  {
  }

  lemma SplitSlice<T>(s: seq<T>, a: int, b: int, c: int)
    requires 0 <= a <= b <= c <= |s|
    ensures s[a..c] == s[a..b] + s[b..c]
  {
  }

  lemma TailOrdered(cuts: seq<int>, minX: int, width: int)
    requires OrderedCuts(cuts, minX, width) && |cuts| > 1
    ensures OrderedCuts(cuts[1..], cuts[0], width)
  {
  }

  /** When every draw of the row falls below the randomness, nothing is sorted and the row
      over a covering mask is the image row itself from `minX` on. */
  lemma {:induction false} CoveredRowUnsorted(image: ImageData, mask: ImageData, y: int, cuts: seq<int>, minX: int,
                                              j0: int, key: Pixel -> real, randomness: real, coin: (int, int) -> real)
    requires Covers(image, mask) && 0 <= y < image.height
    requires OrderedCuts(cuts, minX, image.width)
    requires forall j :: j0 <= j < j0 + |cuts| ==> coin(y, j) < randomness
    ensures RowFits(image, Some(mask), y, cuts) && CutsFrom(cuts, minX)
    ensures SortRow(image, Some(mask), y, cuts, minX, j0, key, randomness, coin) == ImageRow(image, y)[minX..image.width]
    decreases |cuts|
  {
    CoveredRowFits(image, mask, y, cuts, minX);
    var full := ImageRow(image, y);
    var w := image.width;
    CollectCovered(image, mask, y, minX, cuts[0]);
    assert coin(y, j0) < randomness;
    var out := Emit(key, Run(image, Some(mask), y, minX, cuts[0]), coin(y, j0), randomness);
    var rest := SortRow(image, Some(mask), y, cuts[1..], cuts[0], j0 + 1, key, randomness, coin);
    assert SortRow(image, Some(mask), y, cuts, minX, j0, key, randomness, coin) == out + rest;
    assert out == full[minX..cuts[0]];
    if |cuts| > 1 {
      TailOrdered(cuts, minX, w);
      assert forall j :: j0 + 1 <= j < j0 + 1 + |cuts[1..]| ==> coin(y, j) < randomness;
      CoveredRowUnsorted(image, mask, y, cuts[1..], cuts[0], j0 + 1, key, randomness, coin);
    } else {
      assert rest == [] && cuts[0] == w;
    }
    assert rest == full[cuts[0]..w];
    SplitSlice(full, minX, cuts[0], w);
  }

  /** Row y of the sorted image is the row sorter run over `intervals[y]` followed by `width`. */
  lemma SortImageRow(width: int, height: int, image: ImageData, mask: Option<ImageData>,
                     intervals: seq<seq<int>>, randomness: real, key: Pixel -> real,
                     coin: (int, int) -> real, y: int)
    requires Sortable(width, height, image, mask, intervals) && 0 <= y < height
    ensures RowFits(image, mask, y, intervals[y] + [width]) && CutsFrom(intervals[y] + [width], 0)
    ensures SortImage(width, height, image, mask, intervals, randomness, key, coin)[y]
      == SortRow(image, mask, y, intervals[y] + [width], 0, 0, key, randomness, coin)
  {
    RowCuts(width, height, image, mask, intervals, y);
    SortRowIsConcat(image, mask, y, intervals[y] + [width], 0, 0, key, randomness, coin);
  }

  /** A non-decreasing cut row of a sortable plan, closed by the width, is ordered from 0. */
  lemma CoveredImageCuts(image: ImageData, mask: ImageData, intervals: seq<seq<int>>, y: int)
    requires Covers(image, mask) && Sortable(image.width, image.height, image, Some(mask), intervals)
    requires 0 <= y < image.height
    requires forall i, j :: 0 <= i < j < |intervals[y]| ==> intervals[y][i] <= intervals[y][j]
    ensures OrderedCuts(intervals[y] + [image.width], 0, image.width)
  {
    CollectCovered(image, mask, y, 0, 0);
  }

  /** With a mask covering the image and cuts that never go down and stay within
      [0, width], every output row holds each pixel of the image row exactly once, and
      with a randomness of 1 or more it is the image row itself. */
  lemma SortImageCovered(image: ImageData, mask: ImageData, intervals: seq<seq<int>>,
                         randomness: real, key: Pixel -> real, coin: (int, int) -> real, y: int)
    requires Covers(image, mask) && Sortable(image.width, image.height, image, Some(mask), intervals)
    requires 0 <= y < image.height
    requires forall i, j :: 0 <= i < j < |intervals[y]| ==> intervals[y][i] <= intervals[y][j]
    ensures var rows := SortImage(image.width, image.height, image, Some(mask), intervals, randomness, key, coin);
      |rows[y]| == image.width && multiset(rows[y]) == multiset(ImageRow(image, y))
    ensures (randomness >= 1.0 && forall j :: 0 <= j <= |intervals[y]| ==> 0.0 <= coin(y, j) < 1.0) ==>
      SortImage(image.width, image.height, image, Some(mask), intervals, randomness, key, coin)[y] == ImageRow(image, y)
  {
    CoveredImageRowPermutes(image, mask, intervals, randomness, key, coin, y);
    if randomness >= 1.0 && forall j :: 0 <= j <= |intervals[y]| ==> 0.0 <= coin(y, j) < 1.0 {
      CoveredImageRowUnsorted(image, mask, intervals, randomness, key, coin, y);
    }
  }

  lemma CoveredImageRowPermutes(image: ImageData, mask: ImageData, intervals: seq<seq<int>>,
                                randomness: real, key: Pixel -> real, coin: (int, int) -> real, y: int)
    requires Covers(image, mask) && Sortable(image.width, image.height, image, Some(mask), intervals)
    requires 0 <= y < image.height
    requires forall i, j :: 0 <= i < j < |intervals[y]| ==> intervals[y][i] <= intervals[y][j]
    ensures var row := SortImage(image.width, image.height, image, Some(mask), intervals, randomness, key, coin)[y];
      |row| == image.width && multiset(row) == multiset(ImageRow(image, y))
  {
    var cuts := intervals[y] + [image.width];
    CoveredImageCuts(image, mask, intervals, y);
    CoveredRowPermutes(image, mask, y, cuts, 0, 0, key, randomness, coin);
    SortImageRow(image.width, image.height, image, Some(mask), intervals, randomness, key, coin, y);
    assert ImageRow(image, y)[0..image.width] == ImageRow(image, y);
  }

  lemma CoveredImageRowUnsorted(image: ImageData, mask: ImageData, intervals: seq<seq<int>>,
                                randomness: real, key: Pixel -> real, coin: (int, int) -> real, y: int)
    requires Covers(image, mask) && Sortable(image.width, image.height, image, Some(mask), intervals)
    requires 0 <= y < image.height
    requires forall i, j :: 0 <= i < j < |intervals[y]| ==> intervals[y][i] <= intervals[y][j]
    requires randomness >= 1.0 && forall j :: 0 <= j <= |intervals[y]| ==> 0.0 <= coin(y, j) < 1.0
    ensures SortImage(image.width, image.height, image, Some(mask), intervals, randomness, key, coin)[y] == ImageRow(image, y)
  {
    var cuts := intervals[y] + [image.width];
    CoveredImageCuts(image, mask, intervals, y);
    assert |cuts| == |intervals[y]| + 1;
    assert forall j :: 0 <= j < |cuts| ==> coin(y, j) < randomness;
    CoveredRowUnsorted(image, mask, y, cuts, 0, 0, key, randomness, coin);
    SortImageRow(image.width, image.height, image, Some(mask), intervals, randomness, key, coin, y);
    assert ImageRow(image, y)[0..image.width] == ImageRow(image, y);
  }
}

=== FILE: sorting.dfy ===
/** The five sort keys of the filters' sorter and the table that picks one by its tag.
    Keys are computed over the reals: the source's floating-point rounding is not modelled. */
module Sorting {
  import opened Pixels

  /** The closed set of keys a pixel row can be sorted by. */
  datatype SortKey = ByLightness | ByHue | ByIntensity | ByMinimum | BySaturation

  /** The tag the settings use for each key. */
  function TagOf(k: SortKey): string {
    match k
    case ByLightness => "lightness"
    case ByHue => "hue"
    case ByIntensity => "intensity"
    case ByMinimum => "minimum"
    case BySaturation => "saturation"
  }

  /** `getSortingFunctionByType`: every known tag selects its own key; anything else,
      including a missing tag, falls back to lightness. */
  function GetSortingFunctionByType(tag: Option<string>): (k: SortKey)
    ensures tag == Some("hue") <==> k == ByHue
    ensures tag == Some("intensity") <==> k == ByIntensity
    ensures tag == Some("minimum") <==> k == ByMinimum
    ensures tag == Some("saturation") <==> k == BySaturation
    ensures k == ByLightness <==>
      tag !in {Some("hue"), Some("intensity"), Some("minimum"), Some("saturation")}
  {
    match tag
    case Some("hue") => ByHue
    case Some("intensity") => ByIntensity
    case Some("minimum") => ByMinimum
    case Some("saturation") => BySaturation
    case _ => ByLightness
  }

  /** Every key is reachable through its own tag. */
  lemma TagSelectsItsKey(k: SortKey)
    ensures GetSortingFunctionByType(Some(TagOf(k))) == k
  {
  }

  /** The sort key's value for one pixel. */
  function Key(k: SortKey, p: Pixel): real {
    match k
    case ByLightness => Lightness(p)
    case ByHue => Hue(p)
    case ByIntensity => Intensity(p)
    case ByMinimum => Minimum(p)
    case BySaturation => Saturation(p)
  }

  /** The key as the comparator's function of one pixel, which is what the sorter is given. */
  function KeyFunction(k: SortKey): Pixel -> real {
    p => Key(k, p)
  }

  /** Mid-point of the smallest and largest colour channel. */
  function Lightness(p: Pixel): (l: real)
    ensures Min3(p.r, p.g, p.b) as real <= l <= Max3(p.r, p.g, p.b) as real
    ensures p.r == p.g == p.b ==> l == p.r as real
  {
    (Min3(p.r, p.g, p.b) + Max3(p.r, p.g, p.b)) as real / 2.0
  }

  /** JavaScript's `%` by one on a real: the remainder keeps the sign of the dividend. */
  function JsRemOne(x: real): (m: real)
    ensures -1.0 < x < 1.0 ==> m == x
  {
    var t := if x >= 0.0 then x.Floor as real else -((-x).Floor as real);
    x - t
  }

  /** The raw hue sector value before the final `/ 6 % 1`. */
  function HueSector(p: Pixel): (h: real)
    requires Min3(p.r, p.g, p.b) < Max3(p.r, p.g, p.b)
    ensures -1.0 <= h < 5.0
  {
    var maxc := Max3(p.r, p.g, p.b);
    var minc := Min3(p.r, p.g, p.b);
    var d := (maxc - minc) as real;
    var rc := (maxc - p.r) as real / d;
    var gc := (maxc - p.g) as real / d;
    var bc := (maxc - p.b) as real / d;
    FractionInUnit(maxc - p.r, maxc - minc);
    FractionInUnit(maxc - p.g, maxc - minc);
    FractionInUnit(maxc - p.b, maxc - minc);
    if p.r == maxc then bc - gc
    else if p.g == maxc then 2.0 + rc - bc
    else
      assert gc > 0.0 && rc > 0.0 by { FractionPositive(maxc - p.g, maxc - minc); FractionPositive(maxc - p.r, maxc - minc); }
      4.0 + gc - rc
  }

  lemma FractionInUnit(a: int, d: int)
    requires 0 <= a <= d && d > 0
    ensures 0.0 <= a as real / d as real <= 1.0
  {
  }

  lemma FractionPositive(a: int, d: int)
    requires 0 < a <= d
    ensures a as real / d as real > 0.0
  {
  }

  /** Hue as the source computes it: zero for a grey pixel, otherwise the HSV sector value
      scaled by a sixth. The sign-keeping `%` leaves reddish-magenta pixels slightly
      negative, so the value lies in [-1/6, 5/6) rather than [0, 1). */
  function Hue(p: Pixel): (h: real)
    ensures Min3(p.r, p.g, p.b) == Max3(p.r, p.g, p.b) ==> h == 0.0
    ensures -1.0 / 6.0 <= h < 5.0 / 6.0
  {
    var maxc := Max3(p.r, p.g, p.b);
    var minc := Min3(p.r, p.g, p.b);
    if minc == maxc then 0.0 else JsRemOne(HueSector(p) / 6.0)
  }

  /** The branch is chosen by the first channel equal to the maximum, red before green
      before blue: pure red, green and blue sit at 0, 1/3 and 2/3, yellow (a red/green tie)
      takes the red branch at 1/6, and a red with a little blue goes below zero. */
  lemma HueExamples()
    ensures Hue(Pixel(255, 0, 0, 255)) == 0.0
    ensures Hue(Pixel(0, 255, 0, 255)) == 1.0 / 3.0
    ensures Hue(Pixel(0, 0, 255, 255)) == 2.0 / 3.0
    ensures Hue(Pixel(255, 255, 0, 255)) == 1.0 / 6.0
    ensures Hue(Pixel(255, 0, 51, 255)) == -1.0 / 30.0
  {
  }

  /** Saturation in the HLS style of the source, applied to 0..255 channels as the source
      does. Zero for a grey pixel, for black, and when the divisor `2 - diff` vanishes. */
  function Saturation(p: Pixel): (s: real)
    ensures Min3(p.r, p.g, p.b) == Max3(p.r, p.g, p.b) ==> s == 0.0
    ensures Min3(p.r, p.g, p.b) + Max3(p.r, p.g, p.b) == 0 ==> s == 0.0
    ensures Max3(p.r, p.g, p.b) - Min3(p.r, p.g, p.b) == 2 ==> s == 0.0
  {
    var maxc := Max3(p.r, p.g, p.b);
    var minc := Min3(p.r, p.g, p.b);
    var sumc := minc + maxc;
    var diffc := maxc - minc;
    var sdiv := 2 - diffc;
    if minc == maxc || sumc == 0 || sdiv == 0 then 0.0
    else if sumc as real / 2.0 <= 0.5 then diffc as real / sumc as real
    else diffc as real / sdiv as real
  }

  /** Sum of the three colour channels. */
  function Intensity(p: Pixel): (v: real)
    ensures 0.0 <= v <= 765.0
  {
    (p.r + p.g + p.b) as real
  }

  /** Smallest colour channel. */
  function Minimum(p: Pixel): (v: real)
    ensures 0.0 <= v <= 255.0
  {
    Min3(p.r, p.g, p.b) as real
  }

  /** Because the source applies the 0..1 saturation formula to 0..255 channels, the only
      values it produces are 0, 1, and numbers in [-3, -1): a difference of three or more
      between the extreme channels always yields a negative saturation. */
  lemma {:induction false} SaturationOnBytes(p: Pixel)
    ensures var s := Saturation(p);
      s == 0.0 || s == 1.0 || -3.0 <= s < -1.0
    ensures Max3(p.r, p.g, p.b) - Min3(p.r, p.g, p.b) >= 3 ==> Saturation(p) < -1.0
  {
    var maxc := Max3(p.r, p.g, p.b);
    var minc := Min3(p.r, p.g, p.b);
    var d := maxc - minc;
    if minc != maxc && minc + maxc != 0 && d != 2 {
      if (minc + maxc) as real / 2.0 <= 0.5 {
        assert minc + maxc == 1 && d == 1;
      } else if d == 1 {
        assert Saturation(p) == 1.0;
      } else {
        assert d >= 3;
        NegativeRatio(d);
      }
    }
  }

  lemma NegativeRatio(d: int)
    requires d >= 3
    ensures -3.0 <= d as real / (2 - d) as real < -1.0
  {
    var q := d as real / (2 - d) as real;
    assert q * (2 - d) as real == d as real;
  }

  /** Spot values: a grey pixel (v, v, v) has lightness and minimum v, intensity 3v, and
      zero hue and saturation, whatever its alpha. */
  lemma GreyPixelKeys(v: Byte, a: Byte)
    ensures var p := Pixel(v, v, v, a);
      && Lightness(p) == v as real && Minimum(p) == v as real
      && Intensity(p) == 3.0 * v as real
      && Hue(p) == 0.0 && Saturation(p) == 0.0
  {
  }

  /** No sort key reads the alpha channel. */
  lemma KeyIgnoresAlpha(k: SortKey, p: Pixel, a: Byte)
    ensures Key(k, p.(a := a)) == Key(k, p)
  {
  }

  /** How the channel keys order one pixel: the minimum is at most a third of the intensity
      and at most the lightness, and either bound is reached exactly on a grey pixel. */
  lemma KeysOrdered(p: Pixel)
    ensures 3.0 * Minimum(p) <= Intensity(p)
    ensures Minimum(p) <= Lightness(p)
    ensures 3.0 * Minimum(p) == Intensity(p) <==> p.r == p.g == p.b
    ensures Minimum(p) == Lightness(p) <==> p.r == p.g == p.b
  {
  }
}

=== FILE: threshold.dfy ===
/** The 1-bit mask binariser: every non-transparent pixel becomes black or white by its
    luma, over the reals. */
module Threshold {
  import opened Pixels
  import opened Canvas

  const DefaultThreshold: real := 127.0

  /** The threshold actually used: the default when none is given, clamped to [0, 255]. */
  function EffectiveThreshold(threshold: Option<real>): (t: real)
    ensures 0.0 <= t <= 255.0
    ensures threshold.None? ==> t == DefaultThreshold
    ensures threshold.Some? && 0.0 <= threshold.value <= 255.0 ==> t == threshold.value
    ensures threshold.Some? && threshold.value < 0.0 ==> t == 0.0
    ensures threshold.Some? && threshold.value > 255.0 ==> t == 255.0
  {
    var v := if threshold.None? then DefaultThreshold else threshold.value;
    if v < 0.0 then 0.0 else if v > 255.0 then 255.0 else v
  }

  function Luma(p: Pixel): (l: real)
    ensures 0.0 <= l <= 255.0
  {
    p.r as real * 0.3 + p.g as real * 0.59 + p.b as real * 0.11
  }

  /** One pixel of the output: transparent pixels stay as they are; any other pixel keeps
      its alpha and turns white when its luma reaches the threshold, black otherwise. */
  function Binarise(p: Pixel, t: real): (q: Pixel)
    ensures p.a == 0 ==> q == p
    ensures q.a == p.a
    ensures p.a != 0 ==> q.r == q.g == q.b && (q.r == 255 <==> Luma(p) >= t) && (q.r == 0 <==> Luma(p) < t)
  {
    if p.a == 0 then p
    else
      var v: Byte := if Luma(p) < t then 0 else 255;
      Pixel(v, v, v, p.a)
  }

  /** Pixel number `n` of a byte buffer. */
  function PixelAt(data: seq<Byte>, n: int): Pixel
    requires 0 <= n && 4 * n + 4 <= |data|
  {
    Quad(data, 4 * n)
  }

  /** `applyThreshold`: a copy of the buffer with every pixel binarised. The loop steps
      over the buffer four bytes at a time, as the source does. Copying and reading a
      canvas with no area throws (`None`). */
  method ApplyThreshold(img: ImageData, threshold: Option<real>) returns (out: Option<ImageData>)
    requires |img.data| % 4 == 0
    ensures out.None? <==> img.width == 0 || img.height == 0
    ensures out.Some? ==> out.value.width == img.width && out.value.height == img.height
    ensures out.Some? ==> |out.value.data| == |img.data|
    ensures out.Some? ==> forall n :: 0 <= n < |img.data| / 4 ==>
      PixelAt(out.value.data, n) == Binarise(PixelAt(img.data, n), EffectiveThreshold(threshold))
  {
    if img.width == 0 || img.height == 0 {
      return None;
    }
    var t := EffectiveThreshold(threshold);
    var data: seq<Byte> := img.data;
    var i := 0;
    while i < |data|
      invariant 0 <= i <= |data| && i % 4 == 0 && |data| == |img.data|
      invariant forall n :: 0 <= n < i / 4 ==> PixelAt(data, n) == Binarise(PixelAt(img.data, n), t)
      invariant forall j :: i <= j < |data| ==> data[j] == img.data[j]
    {
      var p := PixelAt(data, i / 4);
      assert p == PixelAt(img.data, i / 4);
      if data[i + 3] != 0 {
        var v: Byte := if Luma(p) < t then 0 else 255;
        data := data[i := v][i + 1 := v][i + 2 := v];
      }
      assert PixelAt(data, i / 4) == Binarise(p, t);
      i := i + 4;
    }
    out := Some(img.(data := data));
  }

  /** White stays white under any threshold in range, and black stays black under a
      positive one: binarising twice with the same positive threshold changes nothing. */
  lemma BinariseIdempotent(p: Pixel, t: real)
    requires 0.0 < t <= 255.0
    ensures Binarise(Binarise(p, t), t) == Binarise(p, t)
  {
  }

  /** With a zero threshold every visible pixel turns white. */
  lemma ZeroThresholdWhitens(p: Pixel)
    requires p.a != 0
    ensures Binarise(p, 0.0) == Pixel(255, 255, 255, p.a)
  {
  }

  /** Raising the threshold can only turn white pixels black, never the other way. */
  lemma BinariseMonotone(p: Pixel, t: real, t': real)
    requires t <= t'
    ensures Binarise(p, t').r == 255 ==> Binarise(p, t).r == 255
  {
  }
}

=== FILE: worker.dfy ===
/** The filter worker: it rebuilds the two pixel buffers it is sent, plans the intervals,
    sorts the rows, places the sorted pixels into a new buffer, and reports progress and the
    outcome as messages. The mask test `hasPixel` is a parameter: its definition is not part
    of this model. */
module FilterWorker {
  import opened Pixels
  import opened Canvas
  import Sorting
  import Interval
  import Sorter

  // Placing the sorted pixels.

  /** How many positions left of column x in row y the mask selects. */
  function CountSelected(hasPixel: (int, int) -> bool, y: int, x: int): (n: nat)
    ensures n <= if x > 0 then x else 0
    decreases x
  {
    if x <= 0 then 0 else CountSelected(hasPixel, y, x - 1) + (if hasPixel(x - 1, y) then 1 else 0)
  }

  /** The original pixel at (x, y), or the zeroed default where the original has none. */
  function OriginalOrBlank(original: ImageData, x: int, y: int): Pixel
    requires original.width >= 0 && |original.data| % 4 == 0 && 0 <= x && 0 <= y
  {
    Sorter.IndexNonNegative(original, x, y);
    match GetPixel(original, x, y)
    case None => Blank
    case Some(p) => p
  }

  /** The placed pixel at (x, y), stated without the loop's counter: a selected position takes
      the sorted pixel whose index is the number of selected positions to its left in the row
      (the zeroed default once the row's pixels run out); any other position copies the
      original. */
  function Expected(pixels: seq<seq<Pixel>>, original: ImageData, hasPixel: (int, int) -> bool,
                    x: int, y: int): Pixel
    requires original.width >= 0 && |original.data| % 4 == 0 && 0 <= x && 0 <= y
  {
    if hasPixel(x, y) then
      var n := CountSelected(hasPixel, y, x);
      if y < |pixels| && n < |pixels[y]| then pixels[y][n] else Blank
    else OriginalOrBlank(original, x, y)
  }

  function ExpectedRow(pixels: seq<seq<Pixel>>, original: ImageData, hasPixel: (int, int) -> bool,
                       width: nat, y: int): (row: seq<Pixel>)
    requires original.width >= 0 && |original.data| % 4 == 0 && 0 <= y
    ensures |row| == width
  {
    seq(width, x requires 0 <= x < width => Expected(pixels, original, hasPixel, x, y))
  }

  function ExpectedGrid(pixels: seq<seq<Pixel>>, original: ImageData, hasPixel: (int, int) -> bool,
                        width: nat, height: nat): (rows: seq<seq<Pixel>>)
    requires original.width >= 0 && |original.data| % 4 == 0
    ensures IsGrid(rows, width, height)
  {
    seq(height, y requires 0 <= y < height => ExpectedRow(pixels, original, hasPixel, width, y))
  }

  /** Reading a sorted row that does not exist throws. */
  predicate ReadsMissingRow(pixels: seq<seq<Pixel>>, hasPixel: (int, int) -> bool, width: int, height: int) {
    exists y, x :: 0 <= y < height && 0 <= x < width && |pixels| <= y && hasPixel(x, y)
  }

  /** What `placePixels` produces: nothing when the output buffer cannot be made (a size that
      is not positive) or when a selected position reads a missing row, otherwise the buffer
      of the expected grid. */
  function Placed(pixels: seq<seq<Pixel>>, original: ImageData, width: int, height: int,
                  hasPixel: (int, int) -> bool): Option<ImageData>
    requires original.width >= 0 && |original.data| % 4 == 0
  {
    if width <= 0 || height <= 0 || ReadsMissingRow(pixels, hasPixel, width, height) then None
    else Some(FromGrid(width, height, ExpectedGrid(pixels, original, hasPixel, width, height)))
  }

  /** `placePixels`, with its per-row counter. */
  method PlacePixels(pixels: seq<seq<Pixel>>, original: ImageData, width: int, height: int,
                     hasPixel: (int, int) -> bool) returns (out: Option<ImageData>)
    requires original.width >= 0 && |original.data| % 4 == 0
    ensures out == Placed(pixels, original, width, height, hasPixel)
    ensures out.Some? ==> Valid(out.value) && out.value.width == width && out.value.height == height
  {
    if width <= 0 || height <= 0 {
      return None;
    }
    var rows: seq<seq<Pixel>> := [];
    var y := 0;
    while y < height
      invariant 0 <= y <= height && |rows| == y
      invariant forall y', x' :: 0 <= y' < y && 0 <= x' < width && hasPixel(x', y') ==> y' < |pixels|
      invariant forall y' :: 0 <= y' < y ==> rows[y'] == ExpectedRow(pixels, original, hasPixel, width, y')
    {
      var row: seq<Pixel> := [];
      var count := 0;
      var x := 0;
      while x < width
        invariant 0 <= x <= width && |row| == x && count == CountSelected(hasPixel, y, x)
        invariant forall x' :: 0 <= x' < x && hasPixel(x', y) ==> y < |pixels|
        invariant forall x' :: 0 <= x' < x ==> row[x'] == Expected(pixels, original, hasPixel, x', y)
      {
        if hasPixel(x, y) {
          if y >= |pixels| {
            assert ReadsMissingRow(pixels, hasPixel, width, height);
            return None;
          }
          var p := if count < |pixels[y]| then pixels[y][count] else Blank;
          row := row + [p];
          count := count + 1;
        } else {
          row := row + [OriginalOrBlank(original, x, y)];
        }
        x := x + 1;
      }
      assert row == ExpectedRow(pixels, original, hasPixel, width, y);
      rows := rows + [row];
      y := y + 1;
    }
    assert rows == ExpectedGrid(pixels, original, hasPixel, width, height);
    FromGridValid(width, height, rows);
    return Some(FromGrid(width, height, rows));
  }

  /** Selected positions of a row take the row's sorted pixels in order: the further right,
      the later the index, and the first selected position takes index 0. */
  lemma {:induction false} SelectedInOrder(hasPixel: (int, int) -> bool, y: int, x: int, x': int)
    requires 0 <= x < x' && hasPixel(x, y)
    ensures CountSelected(hasPixel, y, x) < CountSelected(hasPixel, y, x')
    decreases x'
  {
    if x' - 1 > x {
      SelectedInOrder(hasPixel, y, x, x' - 1);
    }
  }

  /** The columns of row y left of x that the mask selects. */
  function SelectedLeftOf(hasPixel: (int, int) -> bool, y: int, x: int): set<int> {
    set x' | 0 <= x' < x && hasPixel(x', y)
  }

  /** The counter starts afresh in every row and, at a column, is the number of selected
      columns to its left: the k-th selected column of a row (from 0) takes sorted pixel k. */
  lemma {:induction false} CountStartsEachRow(hasPixel: (int, int) -> bool, y: int, x: int)
    requires x >= 0
    ensures CountSelected(hasPixel, y, x) == |SelectedLeftOf(hasPixel, y, x)|
    decreases x
  {
    if x > 0 {
      CountStartsEachRow(hasPixel, y, x - 1);
      var before := SelectedLeftOf(hasPixel, y, x - 1);
      if hasPixel(x - 1, y) {
        assert SelectedLeftOf(hasPixel, y, x) == before + {x - 1};
        assert x - 1 !in before;
      } else {
        assert SelectedLeftOf(hasPixel, y, x) == before;
      }
    } else {
      assert SelectedLeftOf(hasPixel, y, x) == {};
    }
  }

  /** A position the mask does not select copies the original pixel. */
  lemma UnselectedCopies(pixels: seq<seq<Pixel>>, original: ImageData, hasPixel: (int, int) -> bool,
                         x: int, y: int)
    requires Valid(original) && 0 <= x < original.width && 0 <= y < original.height
    requires !hasPixel(x, y)
    ensures Expected(pixels, original, hasPixel, x, y) == At(original, x, y)
  {
    HasPixelInside(original, x, y);
  }

  // The message protocol.

  /** A transferred buffer: a size and the raw bytes. */
  datatype PixelBuffer = PixelBuffer(width: int, height: int, data: seq<Byte>)

  /** The `process` request the host sends. */
  datatype FilterRequest = FilterRequest(
    image: PixelBuffer, mask: PixelBuffer,
    randomness: real, charLength: int, lowerThreshold: real, upperThreshold: real,
    sortingType: Option<string>, intervalFunction: string, width: int, height: int)

  datatype Reply = Progress(progress: int) | Result(data: seq<Byte>) | Error

  /** `new ImageData(bytes, width, height)`: refused unless the bytes are a non-empty whole
      number of pixels forming exactly `width` by `height`. */
  function NewImageData(b: PixelBuffer): (r: Option<ImageData>)
    ensures r.Some? <==> b.width > 0 && b.height > 0 && |b.data| == b.width * b.height * 4
    ensures r.Some? ==> Valid(r.value) && r.value == ImageData(b.width, b.height, b.data)
  {
    if b.width > 0 && b.height > 0 && |b.data| == b.width * b.height * 4
    then Some(ImageData(b.width, b.height, b.data)) else None
  }

  const Milestones: seq<int> := [20, 50, 80, 100]

  function ProgressUpTo(n: nat): (ps: seq<Reply>)
    requires n <= 4
    ensures |ps| == n && forall i :: 0 <= i < n ==> ps[i] == Progress(Milestones[i])
  {
    seq(n, i requires 0 <= i < n => Progress(Milestones[i]))
  }

  /** The only shapes a reply list takes: the first few milestones in order, then at most
      one closing message, which is a `result` only after all four milestones. */
  predicate WellFormedReplies(rs: seq<Reply>) {
    && |rs| <= 5
    && (forall j :: 0 <= j < |rs| - 1 ==> j < 4 && rs[j] == Progress(Milestones[j]))
    && (|rs| > 0 ==>
          || rs[|rs| - 1] == Error
          || (|rs| <= 4 && rs[|rs| - 1] == Progress(Milestones[|rs| - 1]))
          || (|rs| == 5 && rs[4].Result?))
  }

  /** What the worker needs of the draws and of the host's request: a characteristic length
      that is not negative, draws in [0, 1), and the image's own size as the sort size. The
      mask may have any size. */
  ghost predicate Admissible(req: FilterRequest, draws: int -> seq<real>) {
    && req.charLength >= 0
    && (forall y, k :: 0 <= k < |draws(y)| ==> 0.0 <= draws(y)[k] < 1.0)
    && req.width == req.image.width && req.height == req.image.height
  }

  /** The planner's input for a request. */
  function Props(req: FilterRequest, image: ImageData): Interval.IntervalProps {
    Interval.IntervalProps(image, req.lowerThreshold, req.upperThreshold, req.charLength)
  }

  /** The replies `process` owes once both buffers are built, stage by stage: 20 before the
      planner; a planner that throws posts an error, and one that never finishes posts nothing
      more; then 50 and 80 around the sorter, and the placement either throws (an error) or
      is followed by 100 and the result holding the placed sorted image. */
  ghost predicate Answers(req: FilterRequest, image: ImageData, mask: ImageData, draws: int -> seq<real>,
                          coin: (int, int) -> real, hasPixel: (int, int) -> bool, rs: seq<Reply>)
    requires Admissible(req, draws) && Valid(image) && Valid(mask)
    requires image == ImageData(req.image.width, req.image.height, req.image.data)
  {
    match Interval.GetIntervals(req.intervalFunction, Props(req, image), draws)
    case OutOfDraws => rs == ProgressUpTo(1)
    case Throws => rs == ProgressUpTo(1) + [Error]
    case Done(intervals) =>
      IntervalsInRange(req.intervalFunction, Props(req, image), draws);
      var key := Sorting.KeyFunction(Sorting.GetSortingFunctionByType(req.sortingType));
      var sorted := Sorter.SortImage(req.width, req.height, image, Some(mask), intervals, req.randomness, key, coin);
      match Placed(sorted, image, req.width, req.height, hasPixel)
      case None => rs == ProgressUpTo(3) + [Error]
      case Some(output) => rs == ProgressUpTo(4) + [Result(output.data)]
  }

  /** The rest of `process` once both buffers are built. */
  function Pipeline(req: FilterRequest, image: ImageData, mask: ImageData, draws: int -> seq<real>,
                    coin: (int, int) -> real, hasPixel: (int, int) -> bool): (rs: seq<Reply>)
    requires Admissible(req, draws) && Valid(image) && Valid(mask)
    requires image == ImageData(req.image.width, req.image.height, req.image.data)
    ensures WellFormedReplies(rs)
    ensures Answers(req, image, mask, draws, coin, hasPixel, rs)
    ensures forall i :: 0 <= i < |rs| && rs[i].Result? ==>
      |rs| == 5 && rs[..4] == ProgressUpTo(4) && |rs[4].data| == req.width * req.height * 4
  {
    var props := Props(req, image);
    match Interval.GetIntervals(req.intervalFunction, props, draws)
    case OutOfDraws => Closing(ProgressUpTo(1), 1, [])
    case Throws => Closing(ProgressUpTo(1), 1, [Error])
    case Done(intervals) =>
      IntervalsInRange(req.intervalFunction, props, draws);
      var key := Sorting.GetSortingFunctionByType(req.sortingType);
      var sorted := Sorter.SortImage(req.width, req.height, image, Some(mask), intervals, req.randomness, Sorting.KeyFunction(key), coin);
      match Placed(sorted, image, req.width, req.height, hasPixel)
      case None => Closing(ProgressUpTo(3), 3, [Error])
      case Some(output) =>
        FromGridValid(req.width, req.height, ExpectedGrid(sorted, image, hasPixel, req.width, req.height));
        assert |output.data| == req.width * req.height * 4;
        Closing(ProgressUpTo(4), 4, [Result(output.data)])
  }

  function Closing(ps: seq<Reply>, n: nat, tail: seq<Reply>): (rs: seq<Reply>)
    requires n <= 4 && ps == ProgressUpTo(n)
    requires tail == [] || tail == [Error] || (n == 4 && |tail| == 1 && tail[0].Result?)
    ensures WellFormedReplies(rs) && rs == ps + tail
    ensures forall i :: 0 <= i < |rs| && rs[i].Result? ==> i == n == 4 && rs[..4] == ps && rs[4] == tail[0]
  {
    ps + tail
  }

  /** The replies `process` owes: one error when either buffer is refused, and otherwise
      what `Answers` demands of the built buffers. */
  ghost predicate Handled(req: FilterRequest, draws: int -> seq<real>, coin: (int, int) -> real,
                          hasPixel: (int, int) -> bool, rs: seq<Reply>)
    requires Admissible(req, draws)
  {
    match (NewImageData(req.image), NewImageData(req.mask))
    case (Some(image), Some(mask)) => Answers(req, image, mask, draws, coin, hasPixel, rs)
    case _ => rs == [Error]
  }

  /** The message handler: `process` rebuilds both buffers (an error if either is refused),
      then posts the milestones 20, 50, 80 and 100 around the three stages and the result;
      an exception in a stage posts one error instead, and a walk that never ends posts
      nothing after 20. Any other command is ignored. */
  function HandleMessage(cmd: string, req: FilterRequest, draws: int -> seq<real>,
                         coin: (int, int) -> real, hasPixel: (int, int) -> bool): (rs: seq<Reply>)
    requires cmd == "process" ==> Admissible(req, draws)
    ensures cmd != "process" ==> rs == []
    ensures WellFormedReplies(rs)
    ensures cmd == "process" ==> Handled(req, draws, coin, hasPixel, rs)
    ensures forall i :: 0 <= i < |rs| && rs[i].Result? ==>
      |rs| == 5 && rs[..4] == ProgressUpTo(4) && |rs[4].data| == req.width * req.height * 4
  {
    if cmd != "process" then []
    else
      match (NewImageData(req.image), NewImageData(req.mask))
      case (Some(image), Some(mask)) => Pipeline(req, image, mask, draws, coin, hasPixel)
      case _ => Closing(ProgressUpTo(0), 0, [Error])
  }

  /** Every planned cut is a column in [0, width] when the characteristic length is not
      negative and the draws lie in [0, 1), so the sorter can take any plan with any mask. */
  lemma IntervalsInRange(fn: string, props: Interval.IntervalProps, draws: int -> seq<real>)
    requires Valid(props.image) && props.charLength >= 0
    requires forall y, k :: 0 <= k < |draws(y)| ==> 0.0 <= draws(y)[k] < 1.0
    requires Interval.GetIntervals(fn, props, draws).Done?
    ensures var iv := Interval.GetIntervals(fn, props, draws).value;
      && Sorter.CutsNonNegative(iv, props.image.height)
      && forall y :: 0 <= y < props.image.height ==>
           forall j :: 0 <= j < |iv[y]| ==> iv[y][j] <= props.image.width
  {
    var iv := Interval.GetIntervals(fn, props, draws).value;
    forall y | 0 <= y < props.image.height
      ensures forall j :: 0 <= j < |iv[y]| ==> 0 <= iv[y][j] <= props.image.width
    {
      if fn == Interval.RandomTag {
        Interval.RandomCutsInRange(props, draws, y);
      } else if fn == Interval.WavesTag {
        Interval.WalkOrdered(0, props.image.width, Interval.WaveSteps(props.charLength, draws(y)));
      }
    }
  }

  /** An error is always the last message, and no result comes with it. */
  lemma ErrorEndsTheRun(rs: seq<Reply>, i: int)
    requires WellFormedReplies(rs) && 0 <= i < |rs| && rs[i] == Error
    ensures i == |rs| - 1
    ensures forall j :: 0 <= j < |rs| ==> !rs[j].Result?
  {
  }
}
